=== FILE: README.md ===
# Starhunt core in Dafny

A model of the bookkeeping core of the Starhunt RuneLite plugin, which tracks "shooting
stars" in the game world and shares them between players through a WebSocket server.
The model covers:

- the plugin's two star lists: the locally observed `trackedStars` and the network-merged
  `networkStars`;
- how received stars are merged, sorted, swept after 60 seconds, re-verified against the
  scene and re-sent on a jittered schedule;
- the reconnect-attempt counter;
- the socket manager's connect flags, listener registry, dispatch and envelope routing;
- the unique-key codec, the tier and location tables, and the two Gson adapters
  (`WorldPoint` as `{x, y, plane}`, `Instant` as epoch milliseconds);
- the pure selection and formatting helpers of the overlay, the side panel and the
  panel timer's health sync.

Each Java callback is one pure function from a state record to a new state record plus
the commands or messages it emits. Lists are `seq`, times are integer milliseconds, and
colours are enum tags. Scene queries, the clock, the random jitter, configuration values
and the record operations the plugin calls but `StarData.java` does not define are
parameters:

- `merge` stands for `StarData.update(StarData)`. The model assumes only that it keeps
  world and location.
- `refresh` stands for `update(Client)`.
- `resetHealth`, `nearby` and `tierOf` stand for the remaining record operations. `resetHealth`
  is assumed to change the health field only, since it returns just the new health.
- `observe` returns the scene observation of a tile.

Modules follow the Java classes:

| module | Java class |
|---|---|
| `StarTier` | `StarTier` |
| `StarLocation` | `StarLocation` |
| `StarData` | `StarData` |
| `JsonAdapters` | `WorldPointAdapter`, `InstantAdapter` |
| `SocketManager` | `StarhuntSocketManager` |
| `Reconnect`, `StarStore`, `Tracking`, `Verification`, `UpdateScheduler` | `StarhuntPlugin` |
| `PanelTimer` | `StarPanelTimer` |
| `Overlay` | `StarhuntOverlay` |
| `Panel` | `StarhuntPanel` |

Supporting modules:

- `Wrappers`: `Option`.
- `Coords`: `WorldPoint`.
- `Decimal`: Java's decimal `int` printing and parsing, and splitting on a separator.
- `Seqs`: an order-keeping filter and its laws.
- `TimeFormat`: `Duration` arithmetic with Java's truncating division.
- `GameStates`, `Colours`.

Where the code's own comments or a natural reading differ from what the code does, the
model follows the code:

- **Reconnect back-off.** The code's back-off is linear (5000 ms × attempt number, so
  5 s, 10 s, … 25 s), although the code comment (StarhuntPlugin.java:283) calls it
  exponential.
- **Sweep boundary.** The sweep drops a star only when it has been inactive for strictly
  more than 60000 ms. A star at exactly 60000 ms stays.
- **Overlay age cut-off.** The overlay's "older than one hour" cut-off compares whole
  hours (`toHours() > 1`), so stars up to just under two hours old are still listed.
- **Negative ages.** The formatters and colour functions take any age, including a
  negative one. For a negative age they follow Java's truncating division.

## Model

| member | source | states |
|---|---|---|
| StarTier.Scan | src/main/java/com/starhunt/StarTier.java:28-33 | the linear scan returns a listed tier carrying the queried object id, and returns nothing exactly when no listed tier carries it |
| StarTier.FromObjectId | src/main/java/com/starhunt/StarTier.java:27-34 | a found tier's object id equals the queried id, and the result is null exactly when no tier has that id |
| StarTier.ObjectIdsDistinct | src/main/java/com/starhunt/StarTier.java:6-14 | the nine tier object ids are pairwise distinct |
| StarTier.FromObjectIdRoundTrip | src/main/java/com/starhunt/StarTier.java:27-34 | looking up any tier's own object id yields that tier |
| StarLocation.MinByDistance | src/main/java/com/starhunt/StarLocation.java:43-49 | the argmin loop returns nothing only for an empty table; otherwise it returns an entry of the table whose distance is at most every entry's distance, keeping the first on ties |
| StarLocation.GetClosestLocation | src/main/java/com/starhunt/StarLocation.java:42-50 | the result is never null and is no farther from the point than any location |
| StarLocation.TableFacts | src/main/java/com/starhunt/StarLocation.java:9-25 | the table has 17 entries, all on plane 0, and exactly Port Khazard and Yanille bank are members-only |
| StarData.UniqueKey | src/main/java/com/starhunt/StarData.java:20-22 | the key exists exactly when the location is set, and it contains the ':' separator |
| StarData.KeySplit | src/main/java/com/starhunt/StarData.java:21 | splitting the key on ':' gives exactly the four decimal fields world, x, y, plane |
| StarData.KeyFieldsParse | src/main/java/com/starhunt/StarData.java:21 | the four fields of the key parse back to world, x, y and plane |
| StarData.KeyInjective | src/main/java/com/starhunt/StarData.java:19-22 | equal keys imply equal world and location, so the key identifies the star |
| StarData.UniqueKeyIdentityOnly | src/main/java/com/starhunt/StarData.java:20-22 | the key depends on world and location only, and two records with the same key agree on both |
| Decimal.ParseIntToString | src/main/java/com/starhunt/StarData.java:21 | parsing the decimal text of any int gives the int back |
| Decimal.IntToStringInjective | src/main/java/com/starhunt/StarData.java:21 | distinct ints print as distinct decimal strings |
| Decimal.SplitJoin4 | src/main/java/com/starhunt/StarData.java:21 | joining four separator-free fields with the separator and splitting again recovers the fields |
| JsonAdapters.NextInt | src/main/java/com/starhunt/WorldPointAdapter.java:31 | a coordinate token is accepted exactly when it is a number in the Java int range, and its value is returned |
| JsonAdapters.WritePoint | src/main/java/com/starhunt/WorldPointAdapter.java:12-17 | the output is one object with the keys x, y, plane in that order, each followed by its coordinate |
| JsonAdapters.ReadMembersEncoded | src/main/java/com/starhunt/WorldPointAdapter.java:27-43 | reading an encoded member list applies the members in order and stops at the closing brace, leaving the rest of the stream |
| JsonAdapters.ReadPointDenotes | src/main/java/com/starhunt/WorldPointAdapter.java:21-47 | reading any well-formed object yields, for each coordinate, the last value given for it, or 0 if none is given |
| JsonAdapters.ReadWritePoint | src/main/java/com/starhunt/WorldPointAdapter.java:12-46 | reading what write produced returns the same point and consumes exactly that object |
| JsonAdapters.ReadMembers | src/main/java/com/starhunt/WorldPointAdapter.java:27-43 | the member loop consumes the stream up to and including the closing brace and returns exactly the tokens after it; its values are stated by ReadMembersEncoded |
| JsonAdapters.ReadPoint | src/main/java/com/starhunt/WorldPointAdapter.java:21-47 | a stream not opening with `{` is an error; otherwise the whole object is consumed, up to its `}`, and the rest returned; the point read is stated by ReadPointDenotes and ReadWritePoint |
| JsonAdapters.ReadEmptyObject | src/main/java/com/starhunt/WorldPointAdapter.java:22-24 | an empty object reads as (0, 0, 0) |
| JsonAdapters.ReadIgnoresUnknownKey | src/main/java/com/starhunt/WorldPointAdapter.java:39-41 | removing a member with an unknown key does not change the result |
| JsonAdapters.ReadKeyOrderIrrelevant | src/main/java/com/starhunt/WorldPointAdapter.java:27-37 | swapping two adjacent members with different keys does not change the result |
| JsonAdapters.ReadLastMemberWins | src/main/java/com/starhunt/WorldPointAdapter.java:27-37 | a trailing x member overrides every earlier x |
| JsonAdapters.ReadRejectsNonNumber | src/main/java/com/starhunt/WorldPointAdapter.java:30-31 | a boolean or null under a coordinate key is an error, not a default |
| JsonAdapters.ToEpochMilli | src/main/java/com/starhunt/InstantAdapter.java:13 | a result is the nanosecond count rounded down to whole milliseconds and fits a Java long |
| JsonAdapters.WriteInstant | src/main/java/com/starhunt/InstantAdapter.java:12-14 | null writes a JSON null; an instant writes its epoch milliseconds as one number |
| JsonAdapters.ReadInstant | src/main/java/com/starhunt/InstantAdapter.java:17-19 | a number token in the Java long range is accepted and read as that many milliseconds after the epoch, consuming one token; any other token, including a null, is an error (quoted numbers aside, see Left out) |
| JsonAdapters.ReadWriteInstant | src/main/java/com/starhunt/InstantAdapter.java:12-19 | reading back a written instant consumes exactly what was written and gives the instant rounded down to whole milliseconds, which equals the instant exactly when it is millisecond-valued |
| SocketManager.Connect | src/main/java/com/starhunt/StarhuntSocketManager.java:52-111 | an open socket returns true unchanged; an in-flight attempt returns false unchanged; otherwise one keep-alive task is added, and the call returns true with the connecting flag set unless initialisation fails, which clears it and returns false |
| SocketManager.OnOpen | src/main/java/com/starhunt/StarhuntSocketManager.java:70-74 | the socket becomes open, the connecting flag clears and listeners hear "connected" |
| SocketManager.OnClose | src/main/java/com/starhunt/StarhuntSocketManager.java:83-87 | the socket closes, the connecting flag clears and listeners hear "disconnected" |
| SocketManager.OnError | src/main/java/com/starhunt/StarhuntSocketManager.java:90-93 | only the connecting flag changes, and no listener is notified |
| SocketManager.Disconnect | src/main/java/com/starhunt/StarhuntSocketManager.java:117-122 | the socket ends closed with the connecting flag clear; keep-alive tasks are not cancelled |
| SocketManager.PingsOnTick | src/main/java/com/starhunt/StarhuntSocketManager.java:97-101 | a keep-alive tick pings once per scheduled task, and only while open |
| SocketManager.RunKeepsCoherent | src/main/java/com/starhunt/StarhuntSocketManager.java:52-122 | no sequence of calls and events makes the socket both open and connecting, and keep-alive tasks never decrease |
| SocketManager.RegisterListener | src/main/java/com/starhunt/StarhuntSocketManager.java:161-166 | the listener is present afterwards, is appended only if absent, and the list stays free of duplicates |
| SocketManager.UnregisterListener | src/main/java/com/starhunt/StarhuntSocketManager.java:168-171 | exactly the given listener is removed, every other listener stays, and absent listeners change nothing |
| SocketManager.RegisterIdempotent | src/main/java/com/starhunt/StarhuntSocketManager.java:161-166 | registering twice is registering once |
| SocketManager.UnregisterUndoesRegister | src/main/java/com/starhunt/StarhuntSocketManager.java:161-171 | unregistering a freshly registered listener restores the list |
| SocketManager.NotifyListeners | src/main/java/com/starhunt/StarhuntSocketManager.java:173-198 | every listener is called once in registration order, and a failing listener does not stop the others |
| SocketManager.HandleMessage | src/main/java/com/starhunt/StarhuntSocketManager.java:144-159 | a star is dispatched exactly when the envelope parsed, has type STAR_UPDATE and its data decoded |
| SocketManager.Transmitted | src/main/java/com/starhunt/StarhuntSocketManager.java:132-137 | the record on the wire holds no game-object or NPC handle, and every other field is as sent |
| SocketManager.SendStarData | src/main/java/com/starhunt/StarhuntSocketManager.java:124-142 | nothing is sent unless the socket is open; otherwise one STAR_UPDATE envelope carrying the star without its handles |
| SocketManager.SendThenHandle | src/main/java/com/starhunt/StarhuntSocketManager.java:124-159 | an envelope sent by the manager is dispatched by a receiving manager as the same star, less the game-object and NPC handles |
| SocketManager.OnMessage | src/main/java/com/starhunt/StarhuntSocketManager.java:77-80 | an incoming message reaches every listener in order when it carries a star, and no listener otherwise |
| Reconnect.SafeConnect | src/main/java/com/starhunt/StarhuntPlugin.java:214-241 | an empty URL marks the plugin disconnected and submits nothing; otherwise one connect job is submitted |
| Reconnect.ConnectFinished | src/main/java/com/starhunt/StarhuntPlugin.java:223-240 | a failed start marks the plugin disconnected, and the attempt counter is untouched |
| Reconnect.OnConnected | src/main/java/com/starhunt/StarhuntPlugin.java:264-275 | connecting marks the plugin connected and resets attempts to 0 |
| Reconnect.OnDisconnected | src/main/java/com/starhunt/StarhuntPlugin.java:277-292 | below 5 attempts the counter grows by one and a reconnect is scheduled after 5000 × attempts ms; at 5 nothing is scheduled; the counter stays in [0, 5] |
| Reconnect.ManualReconnect | src/main/java/com/starhunt/StarhuntPlugin.java:246-251 | while connected nothing happens; otherwise attempts reset to 0 and a connect is submitted exactly when a URL is set |
| Reconnect.OnConfigChanged | src/main/java/com/starhunt/StarhuntPlugin.java:762-774 | only a websocketUrl change in the starhunt group disconnects, resets attempts to 0 and reconnects |
| Reconnect.ScheduledReconnect | src/main/java/com/starhunt/StarhuntPlugin.java:817-823 | the 60 s retry acts only when disconnected with attempts saturated, and then resets the counter and connects |
| Reconnect.StepKeepsValid | src/main/java/com/starhunt/StarhuntPlugin.java:283-291 | every event keeps the attempt counter in [0, 5] |
| Reconnect.DelaysFrom | src/main/java/com/starhunt/StarhuntPlugin.java:283-291 | from k attempts, repeated disconnects schedule exactly 5 − k reconnects with delays 5000 × (k + 1), 5000 × (k + 2), … |
| Reconnect.BackoffSchedule | src/main/java/com/starhunt/StarhuntPlugin.java:283-291 | from a fresh counter the delays are 5000, 10000, 15000, 20000, 25000 and then nothing |
| Reconnect.BackoffIsLinear | src/main/java/com/starhunt/StarhuntPlugin.java:286 | consecutive delays differ by the constant 5000 ms, so the back-off is linear |
| StarStore.FindIndex | src/main/java/com/starhunt/StarhuntPlugin.java:393-400 | the index found is the first star at that world and location, and none is found exactly when no star is there |
| StarStore.FindStar | src/main/java/com/starhunt/StarhuntPlugin.java:393-400 | the star returned is the first list element at that world and location; null exactly when there is none |
| StarStore.SortByRecency | src/main/java/com/starhunt/StarhuntPlugin.java:326 | the sort is a permutation of the list, newest first |
| StarStore.SortOfSorted | src/main/java/com/starhunt/StarhuntPlugin.java:326 | a list already newest-first is unchanged by the sort |
| StarStore.Ingest | src/main/java/com/starhunt/StarhuntPlugin.java:305-326 | a star already listed is merged in place with length and every other entry unchanged; otherwise the list gains exactly that star and is newest-first |
| StarStore.IngestKeepsUnique | src/main/java/com/starhunt/StarhuntPlugin.java:305-326 | ingest keeps world and location unique across the list |
| StarStore.UpdateNetworkStar | src/main/java/com/starhunt/StarhuntPlugin.java:726-743 | a listed star is merged as by ingest; an unlisted one is added only when its tier is positive, and otherwise nothing changes |
| StarStore.UpdateNetworkStarKeepsUnique | src/main/java/com/starhunt/StarhuntPlugin.java:729-743 | updateNetworkStar keeps world and location unique |
| StarStore.Cleanup | src/main/java/com/starhunt/StarhuntPlugin.java:786-800 | a star survives exactly when it is active or updated no more than 60000 ms ago, with every occurrence of a survivor kept and none of the others; no active star is removed |
| StarStore.CleanupKeepsOrder | src/main/java/com/starhunt/StarhuntPlugin.java:786-800 | the sweep acts element by element, so survivors keep their relative order |
| StarStore.CleanupLater | src/main/java/com/starhunt/StarhuntPlugin.java:780-800 | a later sweep subsumes an earlier one, and repeating a sweep changes nothing |
| StarStore.CleanupBoundary | src/main/java/com/starhunt/StarhuntPlugin.java:791-793 | an inactive star at exactly 60000 ms is kept and at 60001 ms removed |
| StarStore.CleanupKeepsUnique | src/main/java/com/starhunt/StarhuntPlugin.java:786-800 | the sweep keeps world and location unique |
| StarStore.GetActiveStars | src/main/java/com/starhunt/StarhuntPlugin.java:407-415 | the result holds exactly the active stars, each as often as in the list |
| StarStore.GetActiveStarsInOrder | src/main/java/com/starhunt/StarhuntPlugin.java:407-415 | the view of a concatenation is the concatenation of the views, and a single star is kept exactly when active, so the active stars keep list order |
| Tracking.SendStarData | src/main/java/com/starhunt/StarhuntPlugin.java:371-384 | a star is sent exactly when connected and sharing, and only then stamped with the current time; discoveredBy changes only to the player's name when names are shared; no other field changes |
| Tracking.FindLocal | src/main/java/com/starhunt/StarhuntPlugin.java:343-349 | the local star found is the first at that location, and none is found exactly when none is there |
| Tracking.OnStarDataReceived | src/main/java/com/starhunt/StarhuntPlugin.java:294-369 | nothing happens unless logged in; otherwise the network list ingests the star, and the local list gains it exactly when it is in the current world, active and at a free location |
| Tracking.ReceiveKeepsUnique | src/main/java/com/starhunt/StarhuntPlugin.java:305-356 | receiving keeps local locations and network world-and-location pairs unique |
| Tracking.OnNpcSpawned | src/main/java/com/starhunt/StarhuntPlugin.java:418-441 | only the star NPC matters; a tracked star on that tile is bound to the NPC, made active and sent, with no other field changed but what sending stamps; otherwise the new star is appended and sent; the network list is untouched |
| Tracking.OnGameObjectSpawned | src/main/java/com/starhunt/StarhuntPlugin.java:454-482 | a non-star object changes nothing; a tracked star on that tile is bound to the object, its health reset against the old tier, then given the new tier, made active, sent and merged into the network list, with no other field changed; otherwise the new star is appended and sent, and the network list is untouched |
| Tracking.SpawnsKeepUnique | src/main/java/com/starhunt/StarhuntPlugin.java:428-481 | neither spawn handler adds a second local star at the same location, and the network list stays unique |
| Tracking.OnGameStateChanged | src/main/java/com/starhunt/StarhuntPlugin.java:754-759 | hopping or reaching the login screen clears the local list; nothing else changes |
| Tracking.ResendAll | src/main/java/com/starhunt/StarhuntPlugin.java:271-274 | on connect every local star is sent once, in order, when sharing |
| Verification.FirstStarTier | src/main/java/com/starhunt/StarhuntPlugin.java:543-567 | the tier taken is a positive tier of a tile object, and none exactly when no object has a positive tier |
| Verification.VerifyStar | src/main/java/com/starhunt/StarhuntPlugin.java:514-619 | a null or out-of-bounds tile leaves the star alone; a found tier makes the star active, bound, with that tier and reset health and no other change but what sending stamps, only if it was inactive or of another tier; a lone NPC makes it active and bound; nothing found makes an active star inactive and removes it if stale afterwards; an inactive out-of-scene star is removed once more than 60 s old; every changed star is pushed to the network list, and sent exactly when connected and sharing |
| Verification.VanishedAndSentIsKept | src/main/java/com/starhunt/StarhuntPlugin.java:593-607 | when connected and sharing, an in-scene star is never removed, because the send stamps it with the current time |
| Verification.ReceivedStarBindsNpc | src/main/java/com/starhunt/StarhuntPlugin.java:572-589 | a star received from a peer has no NPC handle, so when the star NPC is seen on its tile it is bound, sent and pushed even though it was active |
| Verification.LocalPass | src/main/java/com/starhunt/StarhuntPlugin.java:514-620 | the local loop yields one star and one removal flag per local star; what each is, what is sent and what reaches the network list are stated by LocalPassJudgesEach, LocalPassSends and LocalPassOutcome |
| Verification.LocalPassJudgesEach | src/main/java/com/starhunt/StarhuntPlugin.java:514-620 | the local loop gives each star the verdict of its own observation |
| Verification.LocalPassKeepsUnique | src/main/java/com/starhunt/StarhuntPlugin.java:514-620 | the pushes of the local loop keep the network list unique |
| Verification.LocalPassSends | src/main/java/com/starhunt/StarhuntPlugin.java:514-620 | what the local loop sends is each star's own send, in list order, whatever the network list holds |
| Verification.LocalPassOutcome | src/main/java/com/starhunt/StarhuntPlugin.java:514-625 | after the loop and removeAll, a star is still tracked exactly when some star was judged into it and no star judged into an equal record was marked for removal |
| Verification.Marked | src/main/java/com/starhunt/StarhuntPlugin.java:605-616 | the removal list holds exactly the stars whose verdict was removal |
| Verification.RemoveAll | src/main/java/com/starhunt/StarhuntPlugin.java:623-625 | exactly the stars not marked for removal remain |
| Verification.RemoveAllMultiset | src/main/java/com/starhunt/StarhuntPlugin.java:623-625 | every occurrence of an unmarked star is kept and every occurrence of a marked one removed |
| Verification.RemoveAllAppend | src/main/java/com/starhunt/StarhuntPlugin.java:623-625 | removal distributes over concatenation, so the survivors keep their relative order |
| Verification.RemoveAllKeepsUnique | src/main/java/com/starhunt/StarhuntPlugin.java:623-625 | removal keeps local locations unique |
| Verification.Gone | src/main/java/com/starhunt/StarhuntPlugin.java:637-665 | no contract of its own: the network loop's `starExists` test (in scene, no star object of positive tier on the tile, no star NPC there), stated through VerifyNetwork and NullTileChecksOnlyNetwork |
| Verification.VerifyNetwork | src/main/java/com/starhunt/StarhuntPlugin.java:630-674 | network stars are only ever switched from active to inactive, and only those of the current world whose in-scene tile shows nothing |
| Verification.VerifyNetworkKeepsUnique | src/main/java/com/starhunt/StarhuntPlugin.java:630-674 | the network check keeps world and location unique |
| Verification.NullTileChecksOnlyNetwork | src/main/java/com/starhunt/StarhuntPlugin.java:536-538 | a null tile skips a local star, yet counts as "nothing there" for a network star |
| Verification.VerifyLocalStars | src/main/java/com/starhunt/StarhuntPlugin.java:503-682 | nothing happens unless logged in; otherwise the local list holds exactly the judged stars not marked for removal (removeAll compares values) and never grows, what is sent is each star's own send in list order, and the network check runs on the network list as the local loop left it |
| Verification.VerifyKeepsUnique | src/main/java/com/starhunt/StarhuntPlugin.java:503-682 | a whole verification round keeps both lists unique |
| UpdateScheduler.TimingKey | src/main/java/com/starhunt/StarhuntPlugin.java:700 | no contract of its own: `starId`; its shape and meaning are stated by TimingKeySplit and TimingKeyIdentity |
| UpdateScheduler.TimingKeySplit | src/main/java/com/starhunt/StarhuntPlugin.java:700 | the timing key is world, x and y joined by '_' |
| UpdateScheduler.TimingKeyIdentity | src/main/java/com/starhunt/StarhuntPlugin.java:700 | two stars share a timing key exactly when world, x and y agree, whatever the plane |
| UpdateScheduler.Due | src/main/java/com/starhunt/StarhuntPlugin.java:699-712 | no contract of its own: `shouldUpdate` for an active nearby star whose jittered interval has elapsed; its consequences are stated by UpdateOne |
| UpdateScheduler.UpdateOne | src/main/java/com/starhunt/StarhuntPlugin.java:699-721 | a star not due is untouched; the current time is recorded under the star's own key exactly when it is due and its refresh reports a change, and the star is sent then exactly when connected and sharing; a due star is replaced by its refreshed self, passed through `sendStarData` when the refresh reports a change, and what is sent is that star stamped with now |
| UpdateScheduler.UpdateFrom | src/main/java/com/starhunt/StarhuntPlugin.java:698-723 | inactive or distant stars are untouched, and at most one message goes out per star |
| UpdateScheduler.UpdateFromOutcomeAt | src/main/java/com/starhunt/StarhuntPlugin.java:698-723 | each star the loop leaves is the input star, its refresh, or its refresh after `sendStarData` |
| UpdateScheduler.UpdateFromSendAt | src/main/java/com/starhunt/StarhuntPlugin.java:698-723 | each send is an active nearby star of the list whose refresh reported a change, passed through `sendStarData` and stamped with now |
| UpdateScheduler.UpdateFromDescribed | src/main/java/com/starhunt/StarhuntPlugin.java:698-723 | both facts above for every position and every send of the loop |
| UpdateScheduler.UpdateFromRecordsNow | src/main/java/com/starhunt/StarhuntPlugin.java:698-723 | every recorded last-sent time is either the old one or now |
| UpdateScheduler.UpdateFromTouchesOwnKeys | src/main/java/com/starhunt/StarhuntPlugin.java:698-723 | a key of no tracked star keeps its last-sent time |
| UpdateScheduler.DistinctKeysIndependent | src/main/java/com/starhunt/StarhuntPlugin.java:698-723 | with distinct keys each star is scheduled as if it were alone |
| UpdateScheduler.IndependentAt | src/main/java/com/starhunt/StarhuntPlugin.java:698-723 | a star whose key no earlier star shares is scheduled as if it were alone |
| UpdateScheduler.UpdateFromKeepsSpots | src/main/java/com/starhunt/StarhuntPlugin.java:698-723 | when the refresh moves no star, neither does the loop: each star keeps its world and location |
| UpdateScheduler.SameLastSent | src/main/java/com/starhunt/StarhuntPlugin.java:701-711 | the schedule of a star depends on the map only through its own key |
| UpdateScheduler.PlanesShareTimingKey | src/main/java/com/starhunt/StarhuntPlugin.java:700-719 | two stars differing only in plane share one timer, so sending the first holds back the second in the same tick |
| UpdateScheduler.ScheduleUpdates | src/main/java/com/starhunt/StarhuntPlugin.java:691-723 | nothing runs when disconnected, not sharing or with no local stars; otherwise only active nearby stars change, each to its refresh or its refresh sent, every send is such a refreshed star stamped with now, and last-sent times are kept or set to now |
| UpdateScheduler.ScheduleIndependent | src/main/java/com/starhunt/StarhuntPlugin.java:691-723 | with distinct timing keys every star is scheduled independently |
| UpdateScheduler.SameKeyMeansOtherPlane | src/main/java/com/starhunt/StarhuntPlugin.java:700 | two different tiles of one world share a timing key only if they lie on different planes |
| UpdateScheduler.OnGameTick | src/main/java/com/starhunt/StarhuntPlugin.java:685-724 | a tick verifies first; then only active stars near the player among those kept can change, every recorded send time is the old one or now and none is forgotten, and verification's sends come first, followed by at most one refresh per kept star, each an active nearby kept star refreshed with a change, sent and stamped with now; when disconnected or not sharing, nothing but verification happens |
| UpdateScheduler.OnGameTickKeepsUnique | src/main/java/com/starhunt/StarhuntPlugin.java:685-724 | a whole tick keeps local locations and network world-and-location pairs unique, given a merge and a refresh that move no star |
| TimeFormat.JavaDiv | src/main/java/com/starhunt/StarhuntOverlay.java:99-111 | the quotient truncates toward zero, as Java's long division does |
| TimeFormat.JavaRem | src/main/java/com/starhunt/StarhuntOverlay.java:112 | the remainder completes the truncating quotient and lies in [0, 60) for a non-negative total |
| TimeFormat.Seconds | src/main/java/com/starhunt/StarhuntOverlay.java:65 | whole seconds of a millisecond duration round toward negative infinity |
| TimeFormat.MinutesBelow | src/main/java/com/starhunt/StarhuntOverlay.java:99-105 | toMinutes is below k exactly when the age is below k minutes |
| TimeFormat.HoursAtMost | src/main/java/com/starhunt/StarhuntOverlay.java:65-66 | toHours is at most k exactly when the age is below k + 1 hours |
| TimeFormat.HoursOfMinutes | src/main/java/com/starhunt/StarhuntOverlay.java:111-112 | whole hours equal whole minutes divided by 60 |
| TimeFormat.MinutesMonotone | src/main/java/com/starhunt/StarhuntOverlay.java:119-135 | an older age never has fewer whole minutes |
| TimeFormat.ToMinutes | src/main/java/com/starhunt/StarhuntOverlay.java:99 | whole minutes: the floor for a non-negative age, rounded toward zero (never positive) for a negative one |
| TimeFormat.ToHours | src/main/java/com/starhunt/StarhuntOverlay.java:111 | whole hours: the floor for a non-negative age, rounded toward zero (never positive) for a negative one |
| TimeFormat.AgoOfValues | src/main/java/com/starhunt/StarhuntOverlay.java:97-115 | the printed minutes are the age's whole minutes, and the printed hours and minutes are its whole hours and the minutes past them |
| TimeFormat.FormatTimeAgo | src/main/java/com/starhunt/StarhuntOverlay.java:97-115 | "Just now" exactly for ages under a minute; `<ms / 60000>m ago` under an hour; otherwise `<ms / 3600000>h <minutes past the hour>m ago` |
| TimeFormat.AgoOf | src/main/java/com/starhunt/StarhuntOverlay.java:97-115 | "Just now" exactly below one minute; "N m ago" with N the whole minutes below an hour; otherwise hours at least 1 and minutes in [0, 60) |
| TimeFormat.RenderInjective | src/main/java/com/starhunt/StarhuntOverlay.java:101-113 | different ages-ago never render as the same text |
| TimeFormat.SameTextSameMinute | src/main/java/com/starhunt/StarhuntPanel.java:297-309 | two ages give the same text exactly when both are under a minute or they have the same whole minutes |
| Overlay.AgeColour | src/main/java/com/starhunt/StarhuntOverlay.java:117-137 | green below 5 min, yellow below 15, orange below 30, red from 30 minutes on |
| Overlay.Eligible | src/main/java/com/starhunt/StarhuntOverlay.java:59-69 | no contract of its own: the overlay's filter (another world, `toHours() <= 1`); its meaning is stated by EligibleMeans and RenderSelection |
| Overlay.EligibleMeans | src/main/java/com/starhunt/StarhuntOverlay.java:59-69 | a star is listed-eligible exactly when it is in another world and under two hours old, and the active flag does not matter |
| Overlay.SelectStars | src/main/java/com/starhunt/StarhuntOverlay.java:50-92 | the loop lists the first five eligible stars in list order |
| Overlay.EntryFor | src/main/java/com/starhunt/StarhuntOverlay.java:71-89 | the miners line appears exactly when miners is set and not the unknown sentinel, and the age colour matches the age |
| Overlay.Render | src/main/java/com/starhunt/StarhuntOverlay.java:36-95 | nothing is drawn for an empty list; otherwise a green title and at most five entries for the selected stars |
| Overlay.RenderSelection | src/main/java/com/starhunt/StarhuntOverlay.java:50-92 | every listed star is eligible, and when fewer than five are listed every eligible star is among them |
| Panel.UpdateStars | src/main/java/com/starhunt/StarhuntPanel.java:136-177 | the empty message shows exactly when no star is active; otherwise the rows are the active stars, each as often as in the list, newest first |
| Panel.ShowsSortedActiveStars | src/main/java/com/starhunt/StarhuntPanel.java:158-172 | whenever some star is active the panel shows rows, and they are the stable sort of the active stars |
| Panel.SortKeepsTiesInOrder | src/main/java/com/starhunt/StarhuntPanel.java:159-160 | the sort is stable on any list: two stars with equal timestamps keep their relative order |
| Panel.SortFilterCommute | src/main/java/com/starhunt/StarhuntPanel.java:158-172 | sorting then filtering equals filtering then sorting |
| Panel.FilterKeepsNewestFirst | src/main/java/com/starhunt/StarhuntPanel.java:163-172 | skipping inactive stars keeps the newest-first order |
| Panel.HealthShown | src/main/java/com/starhunt/StarhuntPanel.java:241 | the displayed health is the health clamped below at 0 |
| Panel.HealthColour | src/main/java/com/starhunt/StarhuntPanel.java:286-294 | red at 25 or less, yellow at 26 to 50, green above 50 |
| Panel.TierColour | src/main/java/com/starhunt/StarhuntPanel.java:265-284 | tiers 1 to 4 are red, orange, yellow and light green, 5 to 9 green, anything else white |
| Panel.TableTiersColoured | src/main/java/com/starhunt/StarhuntPanel.java:265-284 | every tier of the table gets a non-white colour, green exactly from tier 5 |
| Panel.RowFor | src/main/java/com/starhunt/StarhuntPanel.java:190-263 | a row shows the clamped health, its colour and the tier colour |
| PanelTimer.UpdatePanel | src/main/java/com/starhunt/StarPanelTimer.java:43-53 | the panel is refreshed exactly when it is set, and then with the network list |
| PanelTimer.SyncOne | src/main/java/com/starhunt/StarPanelTimer.java:66-84 | only the health of the first network star at the same world and location changes, only for an active star within 32 tiles with health at least 0, and only when the health differs |
| PanelTimer.SyncAll | src/main/java/com/starhunt/StarPanelTimer.java:66-85 | the sync changes only health fields and reports a change whenever it made one |
| PanelTimer.FindIndexIgnoresHealth | src/main/java/com/starhunt/StarPanelTimer.java:72-80 | health edits do not move which network star a lookup finds |
| PanelTimer.SyncReachesNetwork | src/main/java/com/starhunt/StarPanelTimer.java:62-88 | after the sync every propagating local star's network counterpart carries its health |
| PanelTimer.SyncKeepsOther | src/main/java/com/starhunt/StarPanelTimer.java:72-82 | a network star with no local counterpart keeps its health |
| PanelTimer.UpdateHealth | src/main/java/com/starhunt/StarPanelTimer.java:62-88 | nothing happens without a panel or below LOADING; otherwise the local stars are synced in order (the result is `SyncAll`), only health fields change, and uniqueness is kept |
| PanelTimer.LocalStarsDistinct | src/main/java/com/starhunt/StarPanelTimer.java:66-74 | local stars with distinct locations never compete for the same network star |

## Left out

- Swing and AWT drawing, layout, icons and the progress bar: colours are tags, and rows and entries carry only the values drawn.
- RuneLite injection, event-bus wiring, `startUp`/`shutDown`, the toolbar button and the chat notification on receipt (`StarhuntPlugin.java:329-337`): host plumbing with no state of the core.
- The Java-WebSocket client, `connectBlocking`, the ping transport and Gson's reflective (de)serialisation of envelopes and records: connection events are inputs, and a message arrives as an already-parsed envelope or a parse failure.
- SocketManager.Transmitted: Gson's field-by-field serialisation of the record is not modelled; only the live game-object and NPC handles are dropped on the wire, and every other field is assumed to arrive as sent.
- JsonAdapters.NextInt: does not model Gson's lenient reading of a quoted number such as `"3"` as an int, nor its reading of a number token with a fraction or exponent (`nextInt` and `nextLong` accept `3.0` or `1e3` and reject `3.5`), because number tokens are modelled as whole numbers only and that parsing belongs to the JSON reader library, not to the adapter.
- JsonAdapters.ReadInstant: does not model Gson's `nextLong` on a string token, which reads a quoted decimal such as `"1700000000000"` (and a quoted whole-valued double) as a long; the model rejects every string token, because string-to-number parsing belongs to the JSON reader library.
- Threads: `clientThread.invokeLater`, `executor.submit`/`schedule` and the lock-free sharing of the lists with the scheduler thread; each callback is one atomic step.
- `Math.random` jitter and the clocks: the update interval and the current time are integer-millisecond parameters.
- Scene, tile and NPC queries: `observe` returns an abstract observation per tile.
- `StarData.update(StarData)`, `update(Client)`, `resetHealth`, `isNearby`, `getTier(int)` and the record constructors are called by the plugin but not defined in `StarData.java`; they are parameters, `update(StarData)` is assumed only to keep world and location, with no field-level merge semantics, and `update(Client)` only where a lemma says so (`UpdateScheduler.RefreshKeepsSpot`), and `resetHealth()` is assumed to write the health field only (it is modelled as returning the new health), on which the "no other change" clauses of `Verification.VerifyStar` and `Tracking.OnGameObjectSpawned` rest.
- The miner count and the field-by-field merge would be computed inside those undefined `StarData` methods, so they are not part of this model.
- Object aliasing: Java puts the same record object into both lists, so a later mutation through one list shows through the other; the value model copies instead, and only the writes the code makes to each list explicitly are modelled.
- `StarApiService.java`: an HTTP fallback client whose only logic is a list-to-map keyed by the unique key.
- `StarhuntConfig.java`: configuration values are parameters.
- A null `lastUpdate`: the model's records always carry a time, so the null guards of the verification loop are not modelled.
- Overflow of `long` millisecond arithmetic: times are unbounded integers.
- `needsNetworkUpdate` bookkeeping and panel redraw side effects other than the health sync's change flag.
- `distanceTo2D` is an abstract non-negative distance parameter.

=== FILE: colours.dfy ===
/** The colours the overlay and the panel pick from, as tags. */
module Colours {

  datatype Colour =
    | Red            // Color.RED
    | Yellow         // Color.YELLOW
    | Green          // Color.GREEN
    | Orange         // Color.ORANGE
    | White          // Color.WHITE
    | TierOrange     // new Color(255, 127, 0)
    | LightGreen     // new Color(127, 255, 0)
}

=== FILE: coords.dfy ===
/** The host game's tile coordinate (RuneLite's `WorldPoint`), as a value. */
module Coords {

  /** A tile: x and y on the world map and the plane (floor level). */
  datatype WorldPoint = WorldPoint(x: int, y: int, plane: int)
}

=== FILE: decimal.dfy ===
/**
 * Decimal rendering of integers (Java's `Integer.toString` / string concatenation of an
 * `int`), its inverse, and splitting a string on a separator character. These are the
 * building blocks of the string keys the plugin derives from a star's identity.
 */
module Decimal {
  import opened Wrappers

  predicate IsDigit(c: char) {
    '0' <= c <= '9'
  }

  predicate AllDigits(s: string) {
    forall i :: 0 <= i < |s| ==> IsDigit(s[i])
  }

  function DigitChar(d: nat): (c: char)
    requires d < 10
    ensures IsDigit(c)
  {
    (48 + d) as char
  }

  function DigitValue(c: char): (d: nat)
    requires IsDigit(c)
    ensures d < 10
  {
    (c as int) - 48
  }

  /** Shortest decimal form of a natural number, without sign or leading zeros. */
  function NatToString(n: nat): (s: string)
    ensures |s| >= 1
    ensures AllDigits(s)
    ensures s[0] == '0' ==> n == 0
    decreases n
  {
    if n < 10 then [DigitChar(n)] else NatToString(n / 10) + [DigitChar(n % 10)]
  }

  /** Java's decimal form of an `int`: a leading '-' for negatives. */
  function IntToString(n: int): (s: string)
    ensures |s| >= 1
    ensures forall i :: 0 <= i < |s| ==> IsDigit(s[i]) || s[i] == '-'
    ensures (s[0] == '-') == (n < 0)
  {
    if n < 0 then "-" + NatToString(-n) else NatToString(n)
  }

  /** Value of a non-empty run of decimal digits. */
  function ParseNat(s: string): nat
    requires |s| >= 1 && AllDigits(s)
    decreases |s|
  {
    if |s| == 1 then DigitValue(s[0])
    else ParseNat(s[..|s| - 1]) * 10 + DigitValue(s[|s| - 1])
  }

  /** Reads an optionally negative decimal integer; `None` for anything else. */
  function ParseInt(s: string): Option<int> {
    if |s| == 0 then None
    else if s[0] == '-' then
      if |s| >= 2 && AllDigits(s[1..]) then Some(0 - ParseNat(s[1..]) as int) else None
    else if AllDigits(s) then Some(ParseNat(s))
    else None
  }

  lemma {:induction false} ParseNatToString(n: nat)
    ensures ParseNat(NatToString(n)) == n
    decreases n
  {
    if n >= 10 {
      var s := NatToString(n);
      assert s[..|s| - 1] == NatToString(n / 10);
      ParseNatToString(n / 10);
    }
  }

  /** Reading back a rendered integer gives the integer: the rendering loses nothing. */
  lemma ParseIntToString(n: int)
    ensures ParseInt(IntToString(n)) == Some(n)
  {
    var s := IntToString(n);
    if n < 0 {
      assert s[1..] == NatToString(-n);
      ParseNatToString(-n);
    } else {
      ParseNatToString(n);
    }
  }

  /** Distinct integers render to distinct strings. */
  lemma IntToStringInjective(a: int, b: int)
    requires IntToString(a) == IntToString(b)
    ensures a == b
  {
    ParseIntToString(a);
    ParseIntToString(b);
  }

  /** Index of the first occurrence of `sep` in `s`. */
  function IndexOf(s: string, sep: char): (i: nat)
    requires sep in s
    ensures i < |s| && s[i] == sep
    ensures sep !in s[..i]
  {
    if s[0] == sep then 0 else 1 + IndexOf(s[1..], sep)
  }

  /** The pieces of `s` between occurrences of `sep`, empty pieces included. */
  function Split(s: string, sep: char): (parts: seq<string>)
    ensures |parts| >= 1
    decreases |s|
  {
    if sep !in s then [s]
    else
      var i := IndexOf(s, sep);
      [s[..i]] + Split(s[i + 1..], sep)
  }

  lemma IndexOfAfterPrefix(a: string, sep: char, b: string)
    requires sep !in a
    ensures sep in a + [sep] + b
    ensures IndexOf(a + [sep] + b, sep) == |a|
    decreases |a|
  {
    var s := a + [sep] + b;
    assert s[|a|] == sep;
    if |a| > 0 {
      assert s[1..] == a[1..] + [sep] + b;
      IndexOfAfterPrefix(a[1..], sep, b);
    }
  }

  /** Splitting a separator-free piece followed by the separator peels that piece off. */
  lemma SplitCons(a: string, sep: char, b: string)
    requires sep !in a
    ensures Split(a + [sep] + b, sep) == [a] + Split(b, sep)
  {
    var s := a + [sep] + b;
    IndexOfAfterPrefix(a, sep, b);
    assert s[..|a|] == a;
    assert s[|a| + 1..] == b;
  }

  /** Three separator-free pieces joined by `sep` split back into those pieces. */
  lemma SplitJoin3(a: string, b: string, c: string, sep: char)
    requires sep !in a && sep !in b && sep !in c
    ensures Split(a + [sep] + (b + [sep] + c), sep) == [a, b, c]
  {
    assert Split(c, sep) == [c];
    SplitCons(b, sep, c);
    SplitCons(a, sep, b + [sep] + c);
  }

  /** Four separator-free pieces joined by `sep` split back into those pieces. */
  lemma SplitJoin4(a: string, b: string, c: string, d: string, sep: char)
    requires sep !in a && sep !in b && sep !in c && sep !in d
    ensures Split(a + [sep] + (b + [sep] + (c + [sep] + d)), sep) == [a, b, c, d]
  {
    SplitJoin3(b, c, d, sep);
    SplitCons(a, sep, b + [sep] + (c + [sep] + d));
  }

  lemma IntToStringHasNo(n: int, c: char)
    requires !IsDigit(c) && c != '-'
    ensures c !in IntToString(n)
  {
  }
}

=== FILE: game_state.dfy ===
/** The host client's game state, with RuneLite's numeric codes (`GameState.getState()`). */
module GameStates {

  datatype GameState =
    | Unknown | Starting | LoginScreen | LoginScreenAuthenticator | LoggingIn
    | Loading | LoggedIn | ConnectionLost | Hopping

  function Code(g: GameState): int {
    match g
    case Unknown => -1
    case Starting => 0
    case LoginScreen => 10
    case LoginScreenAuthenticator => 11
    case LoggingIn => 20
    case Loading => 25
    case LoggedIn => 30
    case ConnectionLost => 40
    case Hopping => 45
  }
}

=== FILE: json_adapters.dfy ===
/**
 * The two Gson type adapters the socket layer registers, over an abstract stream of JSON
 * tokens (what Gson's `JsonWriter` emits and `JsonReader` yields).
 */
module JsonAdapters {
  import opened Wrappers
  import opened Coords

  datatype Token =
    | BeginObject | EndObject | BeginArray | EndArray
    | Name(name: string)
    | Num(n: int)
    | Str(s: string)
    | Bool(b: bool)
    | Null

  predicate IsScalar(t: Token) {
    t.Num? || t.Str? || t.Bool? || t.Null?
  }

  const INT_MIN: int := -0x8000_0000
  const INT_MAX: int := 0x7fff_ffff
  const LONG_MIN: int := -0x8000_0000_0000_0000
  const LONG_MAX: int := 0x7fff_ffff_ffff_ffff

  predicate IsInt32(n: int) {
    INT_MIN <= n <= INT_MAX
  }

  predicate IsInt64(n: int) {
    LONG_MIN <= n <= LONG_MAX
  }

  /**
   * `JsonReader.nextInt`: a number token that fits an `int`; anything else throws. Gson also
   * accepts a quoted integer here; that leniency is not part of this model.
   */
  function NextInt(t: Token): (r: Option<int>)
    ensures r.Some? <==> t.Num? && IsInt32(t.n)
    ensures r.Some? ==> r.value == t.n
  {
    if t.Num? && IsInt32(t.n) then Some(t.n) else None
  }

  /**
   * `JsonReader.skipValue`: consumes one complete value, nested brackets included, and
   * returns what follows it; `None` when the stream ends or a bracket does not match.
   * `open` is the stack of brackets opened so far (true for an object).
   */
  function SkipNested(ts: seq<Token>, open: seq<bool>): (r: Option<seq<Token>>)
    ensures r.Some? ==> |r.value| < |ts| && r.value == ts[|ts| - |r.value|..]
    decreases |ts|
  {
    if |ts| == 0 then None
    else match ts[0]
      case BeginObject => SkipNested(ts[1..], open + [true])
      case BeginArray => SkipNested(ts[1..], open + [false])
      case EndObject =>
        if |open| == 0 || !open[|open| - 1] then None
        else if |open| == 1 then Some(ts[1..])
        else SkipNested(ts[1..], open[..|open| - 1])
      case EndArray =>
        if |open| == 0 || open[|open| - 1] then None
        else if |open| == 1 then Some(ts[1..])
        else SkipNested(ts[1..], open[..|open| - 1])
      case Name(_) =>
        if |open| == 0 || !open[|open| - 1] then None else SkipNested(ts[1..], open)
      case _ =>
        if |open| == 0 then Some(ts[1..]) else SkipNested(ts[1..], open)
  }

  function SkipValue(ts: seq<Token>): (r: Option<seq<Token>>)
    ensures r.Some? ==> |r.value| < |ts| && r.value == ts[|ts| - |r.value|..]
  {
    SkipNested(ts, [])
  }

  /** `WorldPointAdapter.write`: an object with the keys x, y and plane, in that order. */
  function WritePoint(p: WorldPoint): (ts: seq<Token>)
    ensures |ts| == 8 && ts[0] == BeginObject && ts[7] == EndObject
    ensures ts[1] == Name("x") && ts[3] == Name("y") && ts[5] == Name("plane")
    ensures ts[2] == Num(p.x) && ts[4] == Num(p.y) && ts[6] == Num(p.plane)
  {
    [BeginObject, Name("x"), Num(p.x), Name("y"), Num(p.y), Name("plane"), Num(p.plane), EndObject]
  }

  /**
   * The member loop of `WorldPointAdapter.read`, from just after `{`: each name is matched
   * against x, y and plane, anything else is skipped, and the closing `}` ends the loop.
   * Returns the point read and the tokens after the object.
   */
  function ReadMembers(ts: seq<Token>, acc: WorldPoint): (r: Option<(WorldPoint, seq<Token>)>)
    // the members are consumed up to and including the closing `}`, and what follows is returned
    ensures r.Some? ==> |r.value.1| < |ts| && ts[|ts| - |r.value.1| - 1] == EndObject
                        && r.value.1 == ts[|ts| - |r.value.1|..]
    decreases |ts|
  {
    if |ts| == 0 then None
    else match ts[0]
      case EndObject => Some((acc, ts[1..]))
      case Name(n) =>
        if |ts| < 2 then None
        else if n == "x" then
          (match NextInt(ts[1]) case Some(v) => ReadMembers(ts[2..], acc.(x := v)) case None => None)
        else if n == "y" then
          (match NextInt(ts[1]) case Some(v) => ReadMembers(ts[2..], acc.(y := v)) case None => None)
        else if n == "plane" then
          (match NextInt(ts[1]) case Some(v) => ReadMembers(ts[2..], acc.(plane := v)) case None => None)
        else
          (match SkipValue(ts[1..]) case Some(rest) => ReadMembers(rest, acc) case None => None)
      case _ => None
  }

  /** `WorldPointAdapter.read`: absent coordinates stay 0; `None` models a thrown IOException or IllegalStateException. */
  function ReadPoint(ts: seq<Token>): (r: Option<(WorldPoint, seq<Token>)>)
    ensures (|ts| == 0 || ts[0] != BeginObject) ==> r.None?
    // the object is consumed whole, from its `{` to its `}`, and what follows is returned
    ensures r.Some? ==> |r.value.1| < |ts| - 1 && ts[|ts| - |r.value.1| - 1] == EndObject
                        && r.value.1 == ts[|ts| - |r.value.1|..]
  {
    if |ts| > 0 && ts[0] == BeginObject then ReadMembers(ts[1..], WorldPoint(0, 0, 0)) else None
  }

  // ---------------------------------------------------------------------------------------
  // An independent description of what `read` computes: an object is a list of members, and
  // each coordinate is the value of the LAST member carrying its name.

  datatype Member = Member(name: string, value: Token)

  /** A member `read` accepts: coordinates carry an `int`, other keys any scalar. */
  predicate Acceptable(m: Member) {
    if m.name == "x" || m.name == "y" || m.name == "plane" then m.value.Num? && IsInt32(m.value.n)
    else IsScalar(m.value)
  }

  function EncodeMembers(ms: seq<Member>): seq<Token> {
    if |ms| == 0 then [] else [Name(ms[0].name), ms[0].value] + EncodeMembers(ms[1..])
  }

  function EncodeObject(ms: seq<Member>): seq<Token> {
    [BeginObject] + EncodeMembers(ms) + [EndObject]
  }

  /** The value of the last member named `key`, if any. */
  function LastValue(ms: seq<Member>, key: string): Option<Token> {
    if |ms| == 0 then None
    else
      var later := LastValue(ms[1..], key);
      if later.Some? then later
      else if ms[0].name == key then Some(ms[0].value)
      else None
  }

  /** The coordinate named `key`: the last such member's number, or `default`. */
  function Coordinate(ms: seq<Member>, key: string, default: int): int {
    match LastValue(ms, key)
    case Some(Num(n)) => n
    case _ => default
  }

  /** The point an acceptable object denotes: each coordinate from its last member, else 0. */
  function Denoted(ms: seq<Member>): WorldPoint {
    WorldPoint(Coordinate(ms, "x", 0), Coordinate(ms, "y", 0), Coordinate(ms, "plane", 0))
  }

  /** One member's effect on the point being read. */
  function Step(acc: WorldPoint, m: Member): WorldPoint {
    if m.name == "x" && m.value.Num? then acc.(x := m.value.n)
    else if m.name == "y" && m.value.Num? then acc.(y := m.value.n)
    else if m.name == "plane" && m.value.Num? then acc.(plane := m.value.n)
    else acc
  }

  /** Applying members front to back, as the reader does. */
  function Apply(acc: WorldPoint, ms: seq<Member>): WorldPoint
    decreases |ms|
  {
    if |ms| == 0 then acc else Apply(Step(acc, ms[0]), ms[1..])
  }

  lemma {:induction false} ReadMembersEncoded(ms: seq<Member>, acc: WorldPoint, rest: seq<Token>)
    requires forall i :: 0 <= i < |ms| ==> Acceptable(ms[i])
    ensures ReadMembers(EncodeMembers(ms) + [EndObject] + rest, acc) == Some((Apply(acc, ms), rest))
    decreases |ms|
  {
    var ts := EncodeMembers(ms) + [EndObject] + rest;
    if |ms| == 0 {
      assert ts == [EndObject] + rest;
    } else {
      var m := ms[0];
      var tail := EncodeMembers(ms[1..]) + [EndObject] + rest;
      assert ts == [Name(m.name), m.value] + tail;
      assert ts[2..] == tail;
      assert Acceptable(m);
      if m.name != "x" && m.name != "y" && m.name != "plane" {
        assert ts[1..] == [m.value] + tail;
        assert SkipValue(ts[1..]) == Some(tail);
      }
      ReadMembersEncoded(ms[1..], Step(acc, m), rest);
    }
  }

  lemma {:induction false} LastValueOfCoordinate(ms: seq<Member>, key: string)
    requires forall i :: 0 <= i < |ms| ==> Acceptable(ms[i])
    requires key == "x" || key == "y" || key == "plane"
    ensures LastValue(ms, key).Some? ==> LastValue(ms, key).value.Num?
    decreases |ms|
  {
    if |ms| > 0 {
      assert Acceptable(ms[0]);
      LastValueOfCoordinate(ms[1..], key);
    }
  }

  /** Reading one member then the rest is the same as reading the rest from the updated point. */
  lemma CoordinateStep(ms: seq<Member>, key: string, d: int)
    requires |ms| > 0
    requires forall i :: 0 <= i < |ms| ==> Acceptable(ms[i])
    requires key == "x" || key == "y" || key == "plane"
    ensures Coordinate(ms, key, d)
         == Coordinate(ms[1..], key, if ms[0].name == key && ms[0].value.Num? then ms[0].value.n else d)
  {
    assert Acceptable(ms[0]);
    LastValueOfCoordinate(ms[1..], key);
  }

  lemma {:induction false} ApplyCoordinates(acc: WorldPoint, ms: seq<Member>)
    requires forall i :: 0 <= i < |ms| ==> Acceptable(ms[i])
    ensures Apply(acc, ms) == WorldPoint(Coordinate(ms, "x", acc.x), Coordinate(ms, "y", acc.y), Coordinate(ms, "plane", acc.plane))
    decreases |ms|
  {
    if |ms| > 0 {
      assert Acceptable(ms[0]);
      ApplyCoordinates(Step(acc, ms[0]), ms[1..]);
      CoordinateStep(ms, "x", acc.x);
      CoordinateStep(ms, "y", acc.y);
      CoordinateStep(ms, "plane", acc.plane);
    }
  }

  /**
   * What `read` returns for any object of acceptable members: each coordinate is the value
   * of the last member with its name, 0 when there is none, whatever else the object holds.
   */
  lemma ReadPointDenotes(ms: seq<Member>, rest: seq<Token>)
    requires forall i :: 0 <= i < |ms| ==> Acceptable(ms[i])
    ensures ReadPoint(EncodeObject(ms) + rest) == Some((Denoted(ms), rest))
  {
    var ts := EncodeObject(ms) + rest;
    assert ts[1..] == EncodeMembers(ms) + [EndObject] + rest;
    ReadMembersEncoded(ms, WorldPoint(0, 0, 0), rest);
    ApplyCoordinates(WorldPoint(0, 0, 0), ms);
  }

  /** `read` inverts `write` for every point whose coordinates are Java `int`s. */
  lemma ReadWritePoint(p: WorldPoint, rest: seq<Token>)
    requires IsInt32(p.x) && IsInt32(p.y) && IsInt32(p.plane)
    ensures ReadPoint(WritePoint(p) + rest) == Some((p, rest))
  {
    var ms := [Member("x", Num(p.x)), Member("y", Num(p.y)), Member("plane", Num(p.plane))];
    assert EncodeMembers(ms[2..]) == [Name("plane"), Num(p.plane)];
    assert EncodeMembers(ms[1..]) == [Name("y"), Num(p.y), Name("plane"), Num(p.plane)];
    assert WritePoint(p) == EncodeObject(ms);
    ReadPointDenotes(ms, rest);
    LastValueAbsent(ms[1..], "x");
    LastValueAbsent(ms[2..], "y");
    LastValueAbsent([], "plane");
    assert LastValue(ms, "x") == Some(Num(p.x));
    assert LastValue(ms[1..], "y") == Some(Num(p.y));
    assert ms[1..][1..] == ms[2..];
    assert LastValue(ms[2..], "plane") == Some(Num(p.plane)) by {
      assert ms[2..][1..] == [];
    }
    assert LastValue(ms, "y") == Some(Num(p.y));
    assert LastValue(ms, "plane") == Some(Num(p.plane));
  }

  lemma {:induction false} LastValueAbsent(ms: seq<Member>, key: string)
    requires forall i :: 0 <= i < |ms| ==> ms[i].name != key
    ensures LastValue(ms, key) == None
    decreases |ms|
  {
    if |ms| > 0 {
      LastValueAbsent(ms[1..], key);
    }
  }

  /** An empty object reads as the origin: every coordinate defaults to 0. */
  lemma ReadEmptyObject(rest: seq<Token>)
    ensures ReadPoint([BeginObject, EndObject] + rest) == Some((WorldPoint(0, 0, 0), rest))
  {
    ReadPointDenotes([], rest);
    assert EncodeObject([]) == [BeginObject, EndObject];
  }

  lemma {:induction false} LastValueIgnores(ms1: seq<Member>, m: Member, ms2: seq<Member>, key: string)
    requires m.name != key
    ensures LastValue(ms1 + [m] + ms2, key) == LastValue(ms1 + ms2, key)
    decreases |ms1|
  {
    if |ms1| == 0 {
      assert ms1 + [m] + ms2 == [m] + ms2;
      assert ([m] + ms2)[1..] == ms2;
      assert ms1 + ms2 == ms2;
    } else {
      assert (ms1 + [m] + ms2)[1..] == ms1[1..] + [m] + ms2;
      assert (ms1 + ms2)[1..] == ms1[1..] + ms2;
      LastValueIgnores(ms1[1..], m, ms2, key);
    }
  }

  lemma {:induction false} LastValueSwap(ms1: seq<Member>, a: Member, b: Member, ms2: seq<Member>, key: string)
    requires a.name != b.name
    ensures LastValue(ms1 + [a, b] + ms2, key) == LastValue(ms1 + [b, a] + ms2, key)
    decreases |ms1|
  {
    if |ms1| == 0 {
      assert ms1 + [a, b] + ms2 == [a, b] + ms2;
      assert ms1 + [b, a] + ms2 == [b, a] + ms2;
      assert ([a, b] + ms2)[1..] == [b] + ms2;
      assert ([b, a] + ms2)[1..] == [a] + ms2;
      assert ([b] + ms2)[1..] == ms2;
      assert ([a] + ms2)[1..] == ms2;
    } else {
      assert (ms1 + [a, b] + ms2)[1..] == ms1[1..] + [a, b] + ms2;
      assert (ms1 + [b, a] + ms2)[1..] == ms1[1..] + [b, a] + ms2;
      LastValueSwap(ms1[1..], a, b, ms2, key);
    }
  }

  /** A member whose key is not a coordinate does not change the point read. */
  lemma ReadIgnoresUnknownKey(ms1: seq<Member>, m: Member, ms2: seq<Member>, rest: seq<Token>)
    requires forall i :: 0 <= i < |ms1 + [m] + ms2| ==> Acceptable((ms1 + [m] + ms2)[i])
    requires m.name != "x" && m.name != "y" && m.name != "plane"
    ensures ReadPoint(EncodeObject(ms1 + [m] + ms2) + rest) == ReadPoint(EncodeObject(ms1 + ms2) + rest)
  {
    var all := ms1 + [m] + ms2;
    var fewer := ms1 + ms2;
    forall i | 0 <= i < |fewer|
      ensures Acceptable(fewer[i])
    {
      if i < |ms1| { assert fewer[i] == all[i]; } else { assert fewer[i] == all[i + 1]; }
    }
    ReadPointDenotes(all, rest);
    ReadPointDenotes(fewer, rest);
    LastValueIgnores(ms1, m, ms2, "x");
    LastValueIgnores(ms1, m, ms2, "y");
    LastValueIgnores(ms1, m, ms2, "plane");
  }

  /** Two neighbouring members with different keys can be exchanged without changing the point read. */
  lemma ReadKeyOrderIrrelevant(ms1: seq<Member>, a: Member, b: Member, ms2: seq<Member>, rest: seq<Token>)
    requires forall i :: 0 <= i < |ms1 + [a, b] + ms2| ==> Acceptable((ms1 + [a, b] + ms2)[i])
    requires a.name != b.name
    ensures ReadPoint(EncodeObject(ms1 + [a, b] + ms2) + rest) == ReadPoint(EncodeObject(ms1 + [b, a] + ms2) + rest)
  {
    var one := ms1 + [a, b] + ms2;
    var other := ms1 + [b, a] + ms2;
    forall i | 0 <= i < |other|
      ensures Acceptable(other[i])
    {
      if i < |ms1| { assert other[i] == one[i]; }
      else if i == |ms1| { assert other[i] == one[i + 1]; }
      else if i == |ms1| + 1 { assert other[i] == one[i - 1]; }
      else { assert other[i] == one[i]; }
    }
    ReadPointDenotes(one, rest);
    ReadPointDenotes(other, rest);
    LastValueSwap(ms1, a, b, ms2, "x");
    LastValueSwap(ms1, a, b, ms2, "y");
    LastValueSwap(ms1, a, b, ms2, "plane");
  }

  /** For a repeated key the later member wins. */
  lemma ReadLastMemberWins(ms: seq<Member>, v: int, rest: seq<Token>)
    requires forall i :: 0 <= i < |ms| ==> Acceptable(ms[i])
    requires IsInt32(v)
    ensures var r := ReadPoint(EncodeObject(ms + [Member("x", Num(v))]) + rest);
            r.Some? && r.value.0.x == v
  {
    var all := ms + [Member("x", Num(v))];
    assert forall i :: 0 <= i < |all| ==> Acceptable(all[i]);
    ReadPointDenotes(all, rest);
    LastValueIgnores(ms, Member("x", Num(v)), [], "q");
    assert LastValue(all, "x") == Some(Num(v)) by {
      LastOfAppended(ms, Member("x", Num(v)));
    }
  }

  lemma {:induction false} LastOfAppended(ms: seq<Member>, m: Member)
    ensures LastValue(ms + [m], m.name) == Some(m.value)
    decreases |ms|
  {
    if |ms| == 0 {
      assert ([m])[1..] == [];
    } else {
      assert (ms + [m])[1..] == ms[1..] + [m];
      LastOfAppended(ms[1..], m);
    }
  }

  /** A coordinate that is a boolean or a JSON null makes `read` fail. */
  lemma ReadRejectsNonNumber(rest: seq<Token>)
    ensures ReadPoint([BeginObject, Name("x"), Bool(true), EndObject] + rest) == None
    ensures ReadPoint([BeginObject, Name("y"), Null, EndObject] + rest) == None
  {
  }

  // ---------------------------------------------------------------------------------------
  // InstantAdapter

  /** A `java.time.Instant`, as its count of nanoseconds since the epoch. */
  datatype Instant = Instant(epochNanos: int)

  /**
   * `Instant.toEpochMilli`: the floor of the nanosecond count over 10^6; `None` models the
   * ArithmeticException for an instant whose milliseconds do not fit a `long`.
   */
  function ToEpochMilli(t: Instant): (r: Option<int>)
    ensures r.Some? ==> IsInt64(r.value)
    ensures r.Some? ==> r.value * 1_000_000 <= t.epochNanos < (r.value + 1) * 1_000_000
  {
    var m := t.epochNanos / 1_000_000;
    if IsInt64(m) then Some(m) else None
  }

  /** `InstantAdapter.write`: the epoch milliseconds as a number, or a JSON null for a null instant. */
  function WriteInstant(t: Option<Instant>): (r: Option<seq<Token>>)
    ensures t.None? ==> r == Some([Null])
    ensures t.Some? ==> (r.Some? <==> ToEpochMilli(t.value).Some?)
    ensures t.Some? && r.Some? ==> r.value == [Num(ToEpochMilli(t.value).value)]
  {
    match t
    case None => Some([Null])
    case Some(i) =>
      match ToEpochMilli(i)
      case Some(m) => Some([Num(m)])
      case None => None
  }

  /** `InstantAdapter.read`: `nextLong` then `Instant.ofEpochMilli`; it has no null case. */
  function ReadInstant(ts: seq<Token>): (r: Option<(Instant, seq<Token>)>)
    ensures |ts| > 0 && ts[0] == Null ==> r.None?
    ensures r.Some? ==> r.value.0.epochNanos % 1_000_000 == 0
    // any number in the Java long range is accepted, as that many milliseconds after the epoch
    ensures r.Some? <==> |ts| > 0 && ts[0].Num? && IsInt64(ts[0].n)
    ensures r.Some? ==> r.value.0.epochNanos == ts[0].n * 1_000_000 && r.value.1 == ts[1..]
  {
    if |ts| > 0 && ts[0].Num? && IsInt64(ts[0].n) then Some((Instant(ts[0].n * 1_000_000), ts[1..]))
    else None
  }

  /**
   * Writing and reading back an instant gives it back exactly when it is a whole number of
   * milliseconds: sub-millisecond precision is dropped by `write`.
   */
  lemma ReadWriteInstant(t: Instant, rest: seq<Token>)
    requires IsInt64(t.epochNanos / 1_000_000)
    ensures WriteInstant(Some(t)).Some?
    ensures var back := ReadInstant(WriteInstant(Some(t)).value + rest);
            back.Some? && back.value.1 == rest
            && back.value.0.epochNanos == t.epochNanos / 1_000_000 * 1_000_000
            && (back.value.0 == t <==> t.epochNanos % 1_000_000 == 0)
  {
    var m := t.epochNanos / 1_000_000;
    assert WriteInstant(Some(t)).value + rest == [Num(m)] + rest;
  }
}

=== FILE: overlay.dfy ===
/**
 * The in-game overlay (`StarhuntOverlay.render`): a title and up to five network stars from
 * other worlds, each with its age; Swing drawing is not part of this model, only what is listed.
 */
module Overlay {
  import opened Wrappers
  import opened Decimal
  import opened Colours
  import opened StarData
  import opened Seqs
  import opened TimeFormat

  const MAX_LISTED: nat := 5
  const TITLE: string := "Starhunt Stars"

  /** `getAgeColor`: green under 5 whole minutes, yellow under 15, orange under 30, red after. */
  function AgeColour(ms: int): (c: Colour)
    ensures c == Green <==> ms < 300000
    ensures c == Yellow <==> 300000 <= ms < 900000
    ensures c == Orange <==> 900000 <= ms < 1800000
    ensures c == Red <==> ms >= 1800000
  {
    MinutesBelow(ms, 5);
    MinutesBelow(ms, 15);
    MinutesBelow(ms, 30);
    var minutes := ToMinutes(ms);
    if minutes < 5 then Green
    else if minutes < 15 then Yellow
    else if minutes < 30 then Orange
    else Red
  }

  /** Listed: from another world, and at most one whole hour old (the active flag is not looked at). */
  predicate Eligible(s: Star, currentWorld: int, now: int) {
    s.world != currentWorld && ToHours(now - s.lastUpdate) <= 1
  }

  function EligibleIn(currentWorld: int, now: int): Star -> bool {
    (s: Star) => Eligible(s, currentWorld, now)
  }

  /**
   * "One whole hour" lets a star through until its age reaches two hours: the age check
   * compares truncated hours, so a star 90 minutes old is still listed.
   */
  lemma EligibleMeans(s: Star, currentWorld: int, now: int)
    ensures Eligible(s, currentWorld, now) <==> s.world != currentWorld && now - s.lastUpdate < 7200000
    ensures Eligible(s, currentWorld, now) == Eligible(s.(active := !s.active), currentWorld, now)
  {
    HoursAtMost(now - s.lastUpdate, 1);
  }

  /** Taking a prefix of a sequence that is already long enough ignores what follows. */
  lemma TakeOfLonger<T>(a: seq<T>, b: seq<T>, n: nat)
    requires |a| >= n
    ensures Take(a + b, n) == Take(a, n)
  {
    assert (a + b)[..n] == a[..n];
  }

  /** Once a prefix has supplied `n` kept elements, the rest of the sequence does not change the first `n`. */
  lemma TakeOfFullPrefix(stars: seq<Star>, i: nat, keep: Star -> bool, n: nat)
    requires i <= |stars| && |Filter(stars[..i], keep)| >= n
    ensures Take(Filter(stars, keep), n) == Take(Filter(stars[..i], keep), n)
  {
    assert stars == stars[..i] + stars[i..];
    FilterAppend(stars[..i], stars[i..], keep);
    TakeOfLonger(Filter(stars[..i], keep), Filter(stars[i..], keep), n);
  }

  /** The loop of `render`: skipped stars do not count toward the five. */
  method SelectStars(stars: seq<Star>, currentWorld: int, now: int) returns (shown: seq<Star>)
    ensures shown == Take(Filter(stars, EligibleIn(currentWorld, now)), MAX_LISTED)
    ensures |shown| <= MAX_LISTED
  {
    var keep := EligibleIn(currentWorld, now);
    shown := [];
    var i := 0;
    while i < |stars|
      invariant 0 <= i <= |stars|
      invariant shown == Filter(stars[..i], keep)
      invariant |shown| <= MAX_LISTED
    {
      if |shown| >= MAX_LISTED {
        TakeOfFullPrefix(stars, i, keep, MAX_LISTED);
        return;
      }
      FilterSnoc(stars, i, keep);
      // another world, and listed until two whole hours have passed
      if keep(stars[i]) {
        shown := shown + [stars[i]];
      }
      i := i + 1;
    }
    assert stars[..i] == stars;
  }

  /** One listed star: "W<world> T<tier> <location>", its age text and colour, and a miners line when known. */
  datatype Entry = Entry(info: string, timeAgo: string, colour: Colour, miners: Option<string>)

  function Info(s: Star): string {
    "W" + IntToString(s.world) + " T" + IntToString(s.tier) + " " + s.locationName
  }

  function EntryFor(s: Star, now: int, unknownMiners: string): (e: Entry)
    ensures e.miners.Some? <==> s.miners.Some? && s.miners.value != unknownMiners
    ensures e.miners.Some? ==> e.miners == s.miners
    ensures e.colour == AgeColour(now - s.lastUpdate)
  {
    var age := now - s.lastUpdate;
    var miners := if s.miners.Some? && s.miners.value != unknownMiners then s.miners else None;
    Entry(Info(s), FormatTimeAgo(age), AgeColour(age), miners)
  }

  datatype View = View(title: string, titleColour: Colour, entries: seq<Entry>)

  /** `render`: nothing for an empty network list; otherwise the title and the first five eligible stars. */
  function Render(stars: seq<Star>, currentWorld: int, now: int, unknownMiners: string): (r: Option<View>)
    ensures r.None? <==> |stars| == 0
    ensures r.Some? ==> r.value.title == TITLE && r.value.titleColour == Green
    ensures r.Some? ==> |r.value.entries| <= MAX_LISTED
    ensures r.Some? ==>
              var listed := Take(Filter(stars, EligibleIn(currentWorld, now)), MAX_LISTED);
              |r.value.entries| == |listed|
              && forall i :: 0 <= i < |listed| ==> r.value.entries[i] == EntryFor(listed[i], now, unknownMiners)
  {
    if |stars| == 0 then None
    else
      var listed := Take(Filter(stars, EligibleIn(currentWorld, now)), MAX_LISTED);
      Some(View(TITLE, Green, seq(|listed|, i requires 0 <= i < |listed| => EntryFor(listed[i], now, unknownMiners))))
  }

  /** Every listed star is from another world and under two hours old; fewer than five are listed only when no other star qualifies. */
  lemma RenderSelection(stars: seq<Star>, currentWorld: int, now: int)
    ensures var listed := Take(Filter(stars, EligibleIn(currentWorld, now)), MAX_LISTED);
            (forall i :: 0 <= i < |listed| ==>
               listed[i].world != currentWorld && now - listed[i].lastUpdate < 7200000)
            && (|listed| < MAX_LISTED ==>
                  forall s :: s in stars && s.world != currentWorld && now - s.lastUpdate < 7200000 ==> s in listed)
  {
    var keep := EligibleIn(currentWorld, now);
    var f := Filter(stars, keep);
    var listed := Take(f, MAX_LISTED);
    forall i | 0 <= i < |listed|
      ensures listed[i].world != currentWorld && now - listed[i].lastUpdate < 7200000
    {
      assert listed[i] == f[i];
      EligibleMeans(listed[i], currentWorld, now);
    }
    forall s | s in stars && s.world != currentWorld && now - s.lastUpdate < 7200000
      ensures |listed| < MAX_LISTED ==> s in listed
    {
      EligibleMeans(s, currentWorld, now);
    }
  }
}

=== FILE: panel.dfy ===
/**
 * The side panel (`StarhuntPanel.updateStars` and its per-star rows): which network stars it
 * shows, in which order, and the texts and colours of a row. Swing layout is not part of this model.
 */
module Panel {
  import opened Wrappers
  import opened Decimal
  import opened Colours
  import opened StarData
  import opened StarTier
  import opened Seqs
  import opened StarStore
  import opened TimeFormat

  /** The panel either shows its "no stars" message or a list of star rows. */
  datatype Display = NoStars | Showing(stars: seq<Star>)

  /**
   * `updateStars`: the message when the list is empty or holds no active star; otherwise the
   * active stars of a sorted copy of the list (the caller's list is left as it is).
   */
  function UpdateStars(stars: seq<Star>): (d: Display)
    ensures d.NoStars? <==> forall i :: 0 <= i < |stars| ==> !stars[i].active
    ensures d.Showing? ==> NewestFirst(d.stars) && |d.stars| >= 1
    ensures d.Showing? ==> forall s :: multiset(d.stars)[s] == if s.active then multiset(stars)[s] else 0
  {
    if |stars| == 0 then NoStars
    else if forall i :: 0 <= i < |stars| ==> !stars[i].active then NoStars
    else
      var sorted := SortByRecency(stars);
      var shown := Filter(sorted, IsActive());
      forall s: Star ensures multiset(shown)[s] == if s.active then multiset(stars)[s] else 0 {
        FilterMultiset(sorted, IsActive(), s);
      }
      FilterKeepsNewestFirst(sorted, IsActive());
      var i :| 0 <= i < |stars| && stars[i].active;
      assert stars[i] in multiset(stars);
      assert |shown| >= 1;
      Showing(shown)
  }

  /** Filtering a sorted list leaves it sorted. */
  lemma {:induction false} FilterKeepsNewestFirst(s: seq<Star>, keep: Star -> bool)
    requires NewestFirst(s)
    ensures NewestFirst(Filter(s, keep))
    decreases |s|
  {
    if |s| > 0 {
      NewestFirstTail(s);
      FilterKeepsNewestFirst(s[1..], keep);
      if keep(s[0]) {
        HeadNewest(s[0], Filter(s[1..], keep), s[1..]);
      }
    }
  }

  /** A star no older than anything in `s` can head any sorted list drawn from `s`. */
  lemma HeadNewest(x: Star, rest: seq<Star>, s: seq<Star>)
    requires NewestFirst(rest)
    requires forall y :: y in rest ==> y in s
    requires forall k :: 0 <= k < |s| ==> x.lastUpdate >= s[k].lastUpdate
    ensures NewestFirst([x] + rest)
  {
    var r := [x] + rest;
    forall i, j | 0 <= i < j < |r| ensures r[i].lastUpdate >= r[j].lastUpdate {
      if i == 0 {
        assert r[j] in s;
      } else {
        assert r[i] == rest[i - 1] && r[j] == rest[j - 1];
      }
    }
  }

  /** Dropping the first star of a sorted list leaves it sorted. */
  lemma NewestFirstTail(t: seq<Star>)
    requires NewestFirst(t) && |t| > 0
    ensures NewestFirst(t[1..])
  {
    forall i, j | 0 <= i < j < |t[1..]| ensures t[1..][i].lastUpdate >= t[1..][j].lastUpdate {
      assert t[1..][i] == t[i + 1] && t[1..][j] == t[j + 1];
    }
  }

  /** A star at least as recent as the head of a sorted list goes in front of any of its sublists. */
  lemma InsertInFront(x: Star, t: seq<Star>, keep: Star -> bool)
    requires NewestFirst(t) && |t| > 0 && x.lastUpdate >= t[0].lastUpdate
    ensures InsertByRecency(x, Filter(t, keep)) == [x] + Filter(t, keep)
  {
    var f := Filter(t, keep);
    if |f| > 0 {
      assert f[0] in t;
      var k :| 0 <= k < |t| && t[k] == f[0];
      assert t[0].lastUpdate >= t[k].lastUpdate;
    }
  }

  /** Filtering an insertion into a sorted list is inserting into the filtered list. */
  lemma {:induction false} FilterInsert(x: Star, t: seq<Star>, keep: Star -> bool)
    requires NewestFirst(t)
    ensures Filter(InsertByRecency(x, t), keep)
         == if keep(x) then InsertByRecency(x, Filter(t, keep)) else Filter(t, keep)
    decreases |t|
  {
    if |t| == 0 {
      assert ([x] + t)[1..] == t;
    } else if x.lastUpdate >= t[0].lastUpdate {
      assert ([x] + t)[1..] == t;
      InsertInFront(x, t, keep);
    } else {
      NewestFirstTail(t);
      FilterInsert(x, t[1..], keep);
      var r := [t[0]] + InsertByRecency(x, t[1..]);
      assert r[1..] == InsertByRecency(x, t[1..]);
      if keep(t[0]) {
        var f := [t[0]] + Filter(t[1..], keep);
        assert f[1..] == Filter(t[1..], keep);
      }
    }
  }

  /** Sorting then filtering is filtering then sorting: the sort is stable. */
  lemma {:induction false} SortFilterCommute(s: seq<Star>, keep: Star -> bool)
    ensures Filter(SortByRecency(s), keep) == SortByRecency(Filter(s, keep))
    decreases |s|
  {
    if |s| > 0 {
      SortFilterCommute(s[1..], keep);
      FilterInsert(s[0], SortByRecency(s[1..]), keep);
      if keep(s[0]) {
        var f := Filter(s, keep);
        assert f[0] == s[0] && f[1..] == Filter(s[1..], keep);
      }
    }
  }

  /** Picks out the stars `a` and `b`. */
  function Either(a: Star, b: Star): Star -> bool {
    (x: Star) => x == a || x == b
  }

  /**
   * Stability on any input: two stars with the same timestamp, `a` listed before `b` (and each
   * once), come out of the sort with `a` still before `b`.
   */
  lemma SortKeepsTiesInOrder(s: seq<Star>, a: Star, b: Star)
    requires a.lastUpdate == b.lastUpdate
    requires Filter(s, Either(a, b)) == [a, b]
    ensures Filter(SortByRecency(s), Either(a, b)) == [a, b]
  {
    SortFilterCommute(s, Either(a, b));
    SortOfSorted([a, b]);
  }

  /** The rows are the active stars (`getActiveStars`), most recent first, ties in list order. */
  lemma ShowsSortedActiveStars(stars: seq<Star>)
    requires exists i :: 0 <= i < |stars| && stars[i].active
    ensures UpdateStars(stars).Showing? && UpdateStars(stars).stars == SortByRecency(GetActiveStars(stars))
  {
    SortFilterCommute(stars, IsActive());
  }

  /** The health shown: negative (unknown) health reads as 0. */
  function HealthShown(health: int): (r: int)
    ensures r >= 0 && r >= health
    ensures r == health || r == 0
  {
    if health >= 0 then health else 0
  }

  /** `getHealthColor`: red up to 25, yellow up to 50, green above. */
  function HealthColour(health: int): (c: Colour)
    ensures c == Red <==> health <= 25
    ensures c == Yellow <==> 25 < health <= 50
    ensures c == Green <==> health > 50
  {
    if health <= 25 then Red
    else if health <= 50 then Yellow
    else Green
  }

  /** `getTierColor`: red, orange, yellow, light green for tiers 1 to 4, green for 5 to 9, white otherwise. */
  function TierColour(tier: int): (c: Colour)
    ensures c == White <==> !(1 <= tier <= 9)
    ensures c == Green <==> 5 <= tier <= 9
    ensures 1 <= tier <= 4 ==> c == [Red, TierOrange, Yellow, LightGreen][tier - 1]
  {
    if tier == 1 then Red
    else if tier == 2 then TierOrange
    else if tier == 3 then Yellow
    else if tier == 4 then LightGreen
    else if 5 <= tier <= 9 then Green
    else White
  }

  /** Every tier of the object table has a colour of its own range; no table tier shows white. */
  lemma TableTiersColoured(t: Tier)
    ensures TierColour(Ordinal(t) + 1) != White
    ensures Ordinal(t) < 4 <==> TierColour(Ordinal(t) + 1) != Green
  {
  }

  /** One row of the panel. */
  datatype Row = Row(
    world: string,
    tier: string,
    tierColour: Colour,
    time: string,
    location: string,
    miners: string,
    health: int,
    healthText: string,
    healthColour: Colour)

  function RowFor(s: Star, now: int): (r: Row)
    ensures r.health >= 0 && (s.health >= 0 ==> r.health == s.health)
    ensures r.healthColour == HealthColour(r.health)
    ensures s.health < 0 ==> r.healthColour == Red
    ensures r.tierColour == TierColour(s.tier)
  {
    var health := HealthShown(s.health);
    Row("W" + IntToString(s.world),
        "T" + IntToString(s.tier),
        TierColour(s.tier),
        FormatTimeAgo(now - s.lastUpdate),
        s.locationName,
        "Miners: " + (if s.miners.Some? then s.miners.value else "null"),
        health,
        "Health: " + IntToString(health) + "%",
        HealthColour(health))
  }
}

=== FILE: panel_timer.dfy ===
/**
 * `StarPanelTimer`: every 5 s the panel is redrawn from the network list, and every second the
 * health read from nearby local stars is copied into the matching network stars.
 */
module PanelTimer {
  import opened Wrappers
  import opened Coords
  import opened StarData
  import opened StarStore
  import opened GameStates
  import opened Tracking
  import Panel

  /** The distance `isNearby` is asked about. */
  const SYNC_DISTANCE: int := 32

  /** `updatePanel`: with a panel set, it shows the network list; without one nothing happens. */
  function UpdatePanel(panelSet: bool, network: seq<Star>): (r: Option<Panel.Display>)
    ensures r.None? <==> !panelSet
    ensures r.Some? ==> r.value == Panel.UpdateStars(network)
  {
    if panelSet then Some(Panel.UpdateStars(network)) else None
  }

  /** A local star passes its health on when it is active, within 32 tiles, and its health is known. */
  predicate Propagates(star: Star, nearby32: Star -> bool) {
    star.active && nearby32(star) && star.health >= 0
  }

  /** Only the health field differs. */
  predicate OnlyHealthChanged(before: seq<Star>, after: seq<Star>) {
    |before| == |after| && forall i :: 0 <= i < |before| ==> after[i] == before[i].(health := after[i].health)
  }

  /**
   * One local star of `updateHealth`: the first network star with its world and tile takes
   * its health, if it differs. Returns the list and whether the panel was redrawn.
   */
  function SyncOne(network: seq<Star>, star: Star, nearby32: Star -> bool): (r: (seq<Star>, bool))
    ensures OnlyHealthChanged(network, r.0)
    ensures !Propagates(star, nearby32) ==> r == (network, false)
    ensures r.1 <==> r.0 != network
    ensures r.1 ==> var i := FindIndex(network, star.world, star.point);
                    i.Some? && network[i.value].health != star.health
                    && r.0 == network[i.value := network[i.value].(health := star.health)]
    ensures Propagates(star, nearby32) && FindIndex(network, star.world, star.point).Some? ==>
              r.0[FindIndex(network, star.world, star.point).value].health == star.health
  {
    if !Propagates(star, nearby32) then (network, false)
    else match FindIndex(network, star.world, star.point)
      case None => (network, false)
      case Some(i) =>
        if network[i].health != star.health then
          var updated := network[i := network[i].(health := star.health)];
          assert updated[i] != network[i];
          (updated, true)
        else (network, false)
  }

  /** The loop over the local stars, in order. */
  function SyncAll(network: seq<Star>, stars: seq<Star>, nearby32: Star -> bool): (r: (seq<Star>, bool))
    ensures OnlyHealthChanged(network, r.0)
    ensures !r.1 ==> r.0 == network
    decreases |stars|
  {
    if |stars| == 0 then (network, false)
    else
      var (n1, c1) := SyncOne(network, stars[0], nearby32);
      var (n2, c2) := SyncAll(n1, stars[1..], nearby32);
      (n2, c1 || c2)
  }

  /** Changing only health keeps every lookup by world and tile where it was. */
  lemma FindIndexIgnoresHealth(before: seq<Star>, after: seq<Star>, world: int, p: WorldPoint)
    requires OnlyHealthChanged(before, after)
    ensures FindIndex(after, world, p) == FindIndex(before, world, p)
  {
    var a, b := FindIndex(after, world, p), FindIndex(before, world, p);
    if a.Some? {
      assert At(before[a.value], world, p);
      forall j | 0 <= j < a.value ensures !At(before[j], world, p) {
        assert !At(after[j], world, p);
      }
    }
    if b.Some? {
      assert At(after[b.value], world, p);
      forall j | 0 <= j < b.value ensures !At(after[j], world, p) {
        assert !At(before[j], world, p);
      }
    }
  }

  /** Local stars stand on pairwise different tiles of one world: distinct lookup keys. */
  predicate DistinctTiles(stars: seq<Star>) {
    forall i, j :: 0 <= i < j < |stars| ==> stars[i].world != stars[j].world || stars[i].point != stars[j].point
  }

  /**
   * With local stars on distinct tiles, after the sync every propagating local star that has a
   * network twin finds it carrying its health.
   */
  lemma {:induction false} SyncReachesNetwork(network: seq<Star>, stars: seq<Star>, nearby32: Star -> bool)
    requires DistinctTiles(stars)
    ensures var r := SyncAll(network, stars, nearby32).0;
            forall k :: 0 <= k < |stars| && Propagates(stars[k], nearby32)
                        && FindIndex(network, stars[k].world, stars[k].point).Some? ==>
              r[FindIndex(network, stars[k].world, stars[k].point).value].health == stars[k].health
    decreases |stars|
  {
    if |stars| > 0 {
      var (n1, c1) := SyncOne(network, stars[0], nearby32);
      var tail := stars[1..];
      assert DistinctTiles(tail) by {
        forall i, j | 0 <= i < j < |tail| ensures tail[i].world != tail[j].world || tail[i].point != tail[j].point {
          assert tail[i] == stars[i + 1] && tail[j] == stars[j + 1];
        }
      }
      SyncReachesNetwork(n1, tail, nearby32);
      var r := SyncAll(network, stars, nearby32).0;
      assert r == SyncAll(n1, tail, nearby32).0;
      forall k | 0 <= k < |stars| && Propagates(stars[k], nearby32)
                 && FindIndex(network, stars[k].world, stars[k].point).Some?
        ensures r[FindIndex(network, stars[k].world, stars[k].point).value].health == stars[k].health
      {
        FindIndexIgnoresHealth(network, n1, stars[k].world, stars[k].point);
        var i := FindIndex(network, stars[k].world, stars[k].point).value;
        if k == 0 {
          // later local stars sit on other tiles, so they find other network stars
          SyncKeepsOther(n1, tail, nearby32, i, stars[0]);
        } else {
          assert tail[k - 1] == stars[k];
        }
      }
    }
  }

  /** The sync never touches a network star that no remaining local star looks up. */
  lemma {:induction false} SyncKeepsOther(network: seq<Star>, stars: seq<Star>, nearby32: Star -> bool, i: nat, owner: Star)
    requires i < |network| && FindIndex(network, owner.world, owner.point) == Some(i)
    requires forall j :: 0 <= j < |stars| ==> stars[j].world != owner.world || stars[j].point != owner.point
    ensures SyncAll(network, stars, nearby32).0[i] == network[i]
    decreases |stars|
  {
    if |stars| > 0 {
      var (n1, c1) := SyncOne(network, stars[0], nearby32);
      var f := FindIndex(network, stars[0].world, stars[0].point);
      if f.Some? {
        assert f.value != i;
      }
      assert n1[i] == network[i];
      FindIndexIgnoresHealth(network, n1, owner.world, owner.point);
      forall j | 0 <= j < |stars[1..]|
        ensures stars[1..][j].world != owner.world || stars[1..][j].point != owner.point
      {
        assert stars[1..][j] == stars[j + 1];
      }
      SyncKeepsOther(n1, stars[1..], nearby32, i, owner);
    }
  }

  /**
   * `updateHealth`: skipped without a panel or before the client reaches LOADING; otherwise
   * the local stars are synced in order. Returns the network list and whether it was redrawn.
   */
  function UpdateHealth(panelSet: bool, state: GameState, stars: seq<Star>, network: seq<Star>,
                        nearby32: Star -> bool): (r: (seq<Star>, bool))
    ensures !panelSet || Code(state) < Code(Loading) ==> r == (network, false)
    ensures OnlyHealthChanged(network, r.0)
    ensures UniqueSpots(network) ==> UniqueSpots(r.0)
    ensures panelSet && Code(state) >= Code(Loading) ==> r == SyncAll(network, stars, nearby32)
  {
    if !panelSet || Code(state) < Code(Loading) then (network, false)
    else
      var r := SyncAll(network, stars, nearby32);
      assert forall i :: 0 <= i < |network| ==> SameSpot(r.0[i], network[i]);
      r
  }

  /** Local stars as tracking keeps them (one world, distinct tiles) have distinct lookup keys. */
  lemma LocalStarsDistinct(stars: seq<Star>)
    requires UniquePoints(stars)
    ensures DistinctTiles(stars)
  {
  }
}

=== FILE: reconnect.dfy ===
/**
 * The plugin's view of the connection: the `connected` flag and the reconnect-attempt
 * counter, with the commands each callback issues to the socket and the scheduler.
 */
module Reconnect {
  const MAX_RECONNECT_ATTEMPTS: int := 5
  const RECONNECT_DELAY_MS: int := 5000

  datatype Session = Session(connected: bool, attempts: int)

  const Initial: Session := Session(false, 0)

  /** Side effects a callback asks for. */
  datatype Command =
    | SubmitConnect               // `executor.submit` of a `socketManager.connect` call
    | ConnectAfter(delayMs: int)  // `executor.schedule` of `safeConnectToServer`
    | CloseSocket                 // `socketManager.disconnect()`

  predicate Valid(s: Session) {
    0 <= s.attempts <= MAX_RECONNECT_ATTEMPTS
  }

  /**
   * `safeConnectToServer`: with no URL configured it only marks the session disconnected;
   * otherwise it hands one connect call to the executor.
   */
  function SafeConnect(s: Session, urlEmpty: bool): (r: (Session, seq<Command>))
    ensures urlEmpty ==> r == (s.(connected := false), [])
    ensures !urlEmpty ==> r == (s, [SubmitConnect])
  {
    if urlEmpty then (s.(connected := false), []) else (s, [SubmitConnect])
  }

  /** The executor job's outcome: a refused connect or a malformed URL marks the session disconnected. */
  function ConnectFinished(s: Session, started: bool): (r: Session)
    ensures r.attempts == s.attempts
    ensures !started ==> !r.connected
    ensures started ==> r == s
  {
    if started then s else s.(connected := false)
  }

  /** `onWebsocketConnected`: connected, and the attempt counter starts over. */
  function OnConnected(s: Session): (r: Session)
    ensures r.connected && r.attempts == 0
  {
    Session(true, 0)
  }

  /**
   * `onWebsocketDisconnected`: while fewer than five attempts have been made, count one more
   * and schedule a connect after 5000 ms times the new count; at five, schedule nothing.
   */
  function OnDisconnected(s: Session): (r: (Session, seq<Command>))
    ensures !r.0.connected
    ensures s.attempts < MAX_RECONNECT_ATTEMPTS ==>
              r.0.attempts == s.attempts + 1 && r.1 == [ConnectAfter(RECONNECT_DELAY_MS * r.0.attempts)]
    ensures s.attempts >= MAX_RECONNECT_ATTEMPTS ==> r.0.attempts == s.attempts && r.1 == []
    ensures Valid(s) ==> Valid(r.0)
    ensures Valid(s) ==> forall c :: c in r.1 ==> c.ConnectAfter? && 5000 <= c.delayMs <= 25000
  {
    if s.attempts < MAX_RECONNECT_ATTEMPTS then
      var n := s.attempts + 1;
      (Session(false, n), [ConnectAfter(RECONNECT_DELAY_MS * n)])
    else
      (s.(connected := false), [])
  }

  /** `reconnectToServer` (the panel's button): only when disconnected, reset the counter and connect. */
  function ManualReconnect(s: Session, urlEmpty: bool): (r: (Session, seq<Command>))
    ensures s.connected ==> r == (s, [])
    ensures !s.connected ==> r.0.attempts == 0 && !r.0.connected
    ensures !s.connected ==> (r.1 == [SubmitConnect] <==> !urlEmpty) && (r.1 == [] <==> urlEmpty)
  {
    if s.connected then (s, []) else SafeConnect(s.(attempts := 0), urlEmpty)
  }

  /**
   * `onConfigChanged`: only a change of the "websocketUrl" key in the "starhunt" group acts:
   * close the socket, mark disconnected, reset the counter and connect again.
   */
  function OnConfigChanged(s: Session, group: string, key: string, urlEmpty: bool): (r: (Session, seq<Command>))
    ensures group != "starhunt" || key != "websocketUrl" ==> r == (s, [])
    ensures group == "starhunt" && key == "websocketUrl" ==>
              r.0 == Session(false, 0) && |r.1| >= 1 && r.1[0] == CloseSocket
              && r.1[1..] == (if urlEmpty then [] else [SubmitConnect])
  {
    if group != "starhunt" then (s, [])
    else if key == "websocketUrl" then
      var (s', cmds) := SafeConnect(Session(false, 0), urlEmpty);
      (s', [CloseSocket] + cmds)
    else (s, [])
  }

  /**
   * `scheduledReconnect`, every 60 s: only once the attempts are used up and the session
   * is still down, start over from zero.
   */
  function ScheduledReconnect(s: Session, urlEmpty: bool): (r: (Session, seq<Command>))
    ensures !s.connected && s.attempts >= MAX_RECONNECT_ATTEMPTS ==>
              r.0.attempts == 0 && (r.1 == [SubmitConnect] <==> !urlEmpty)
    ensures s.connected || s.attempts < MAX_RECONNECT_ATTEMPTS ==> r == (s, [])
  {
    if !s.connected && s.attempts >= MAX_RECONNECT_ATTEMPTS then SafeConnect(s.(attempts := 0), urlEmpty)
    else (s, [])
  }

  /** Everything that can happen to the session. */
  datatype Event =
    | Finished(started: bool)
    | WsConnected
    | WsDisconnected
    | ManualButton(urlEmpty: bool)
    | ConfigChanged(group: string, key: string, urlEmpty: bool)
    | Every60s(urlEmpty: bool)

  function Step(s: Session, e: Event): (r: (Session, seq<Command>)) {
    match e
    case Finished(started) => (ConnectFinished(s, started), [])
    case WsConnected => (OnConnected(s), [])
    case WsDisconnected => OnDisconnected(s)
    case ManualButton(u) => ManualReconnect(s, u)
    case ConfigChanged(g, k, u) => OnConfigChanged(s, g, k, u)
    case Every60s(u) => ScheduledReconnect(s, u)
  }

  /** The counter stays within [0, 5] whatever happens. */
  lemma StepKeepsValid(s: Session, e: Event)
    requires Valid(s)
    ensures Valid(Step(s, e).0)
  {
  }

  /** The delays scheduled by consecutive disconnects, starting from `s`. */
  function Delays(s: Session, n: nat): seq<int>
    decreases n
  {
    if n == 0 then []
    else
      var (s', cmds) := OnDisconnected(s);
      (if |cmds| > 0 && cmds[0].ConnectAfter? then [cmds[0].delayMs] else []) + Delays(s', n - 1)
  }

  /** From `k` attempts, the remaining disconnects wait `5000 * (k + 1)`, `5000 * (k + 2)`, … up to the cap, then nothing. */
  lemma {:induction false} DelaysFrom(s: Session, n: nat)
    requires 0 <= s.attempts <= MAX_RECONNECT_ATTEMPTS
    requires n >= MAX_RECONNECT_ATTEMPTS - s.attempts
    ensures Delays(s, n) == seq(MAX_RECONNECT_ATTEMPTS - s.attempts, j => RECONNECT_DELAY_MS * (s.attempts + 1 + j))
    decreases n
  {
    if n > 0 {
      var next := OnDisconnected(s).0;
      DelaysFrom(next, n - 1);
      if s.attempts < MAX_RECONNECT_ATTEMPTS {
        var k := s.attempts;
        var tail := seq(MAX_RECONNECT_ATTEMPTS - (k + 1), j => RECONNECT_DELAY_MS * (k + 2 + j));
        var whole := seq(MAX_RECONNECT_ATTEMPTS - k, j => RECONNECT_DELAY_MS * (k + 1 + j));
        assert whole == [RECONNECT_DELAY_MS * (k + 1)] + tail;
      }
    }
  }

  /**
   * From a fresh counter, five failed reconnects wait 5, 10, 15, 20 and 25 seconds (growing
   * linearly, not exponentially), and a sixth schedules nothing.
   */
  lemma BackoffSchedule(connected: bool)
    ensures Delays(Session(connected, 0), 6) == [5000, 10000, 15000, 20000, 25000]
  {
    DelaysFrom(Session(connected, 0), 6);
  }

  /** Every disconnect below the cap adds the same 5000 ms: the back-off is linear. */
  lemma BackoffIsLinear(s: Session)
    requires Valid(s) && s.attempts + 1 < MAX_RECONNECT_ATTEMPTS
    ensures var (s1, c1) := OnDisconnected(s);
            var (s2, c2) := OnDisconnected(s1);
            c2[0].delayMs - c1[0].delayMs == RECONNECT_DELAY_MS
  {
  }
}

=== FILE: seqs.dfy ===
/** Order-preserving filtering and prefixes of sequences, as Java's list loops use them. */
module Seqs {

  /** The elements of `s` that satisfy `keep`, in their original order. */
  function Filter<T(!new)>(s: seq<T>, keep: T -> bool): (r: seq<T>)
    ensures |r| <= |s|
    ensures forall x :: x in r <==> x in s && keep(x)
    ensures forall i :: 0 <= i < |r| ==> keep(r[i])
    decreases |s|
  {
    if |s| == 0 then []
    else if keep(s[0]) then [s[0]] + Filter(s[1..], keep)
    else Filter(s[1..], keep)
  }

  /** Filtering commutes with concatenation, so kept elements keep their relative order. */
  lemma {:induction false} FilterAppend<T(!new)>(a: seq<T>, b: seq<T>, keep: T -> bool)
    ensures Filter(a + b, keep) == Filter(a, keep) + Filter(b, keep)
    decreases |a|
  {
    if |a| == 0 {
      assert a + b == b;
    } else {
      assert (a + b)[1..] == a[1..] + b;
      FilterAppend(a[1..], b, keep);
    }
  }

  /** Extending a prefix by one element extends its filtering by that element, when it is kept. */
  lemma FilterSnoc<T(!new)>(s: seq<T>, i: nat, keep: T -> bool)
    requires i < |s|
    ensures Filter(s[..i + 1], keep) == Filter(s[..i], keep) + (if keep(s[i]) then [s[i]] else [])
  {
    assert s[..i + 1] == s[..i] + [s[i]];
    FilterAppend(s[..i], [s[i]], keep);
  }

  /** Filtering with the same test again changes nothing. */
  lemma {:induction false} FilterIdempotent<T(!new)>(s: seq<T>, keep: T -> bool)
    ensures Filter(Filter(s, keep), keep) == Filter(s, keep)
    decreases |s|
  {
    if |s| > 0 {
      FilterIdempotent(s[1..], keep);
      if keep(s[0]) {
        assert ([s[0]] + Filter(s[1..], keep))[1..] == Filter(s[1..], keep);
      }
    }
  }

  /** Filtering with a stricter test after a weaker one is filtering with the stricter test alone. */
  lemma {:induction false} FilterNarrowing<T(!new)>(s: seq<T>, weak: T -> bool, strict: T -> bool)
    requires forall x :: strict(x) ==> weak(x)
    ensures Filter(Filter(s, weak), strict) == Filter(s, strict)
    decreases |s|
  {
    if |s| > 0 {
      FilterNarrowing(s[1..], weak, strict);
      if weak(s[0]) {
        assert ([s[0]] + Filter(s[1..], weak))[1..] == Filter(s[1..], weak);
      }
    }
  }

  /** The elements of a filtered sequence keep their multiplicities, restricted to the kept ones. */
  lemma {:induction false} FilterMultiset<T(!new)>(s: seq<T>, keep: T -> bool, x: T)
    ensures multiset(Filter(s, keep))[x] == if keep(x) then multiset(s)[x] else 0
    decreases |s|
  {
    if |s| > 0 {
      FilterMultiset(s[1..], keep, x);
      assert s == [s[0]] + s[1..];
      if keep(s[0]) {
        assert Filter(s, keep) == [s[0]] + Filter(s[1..], keep);
      }
    }
  }

  /** The first `n` elements, or all of them when there are fewer. */
  function Take<T>(s: seq<T>, n: nat): (r: seq<T>)
    ensures |r| == if |s| < n then |s| else n
    ensures r == s[..|r|]
  {
    if |s| <= n then s else s[..n]
  }
}

=== FILE: socket_manager.dfy ===
/**
 * The websocket session manager: the connect/disconnect flags, the listener registry, the
 * failure-isolated fan-out to listeners and the routing of inbound envelopes. The websocket
 * library, its threads and Gson are abstracted: connection callbacks are events, and an
 * inbound message arrives already parsed (or not) into an envelope.
 */
module SocketManager {
  import opened Wrappers
  import opened StarData

  /**
   * `open` is "client != null && client.isOpen()", `connecting` is the `isConnecting`
   * flag, `keepAlives` counts the 30-second keep-alive tasks scheduled so far.
   */
  datatype Socket = Socket(open: bool, connecting: bool, keepAlives: nat)

  const Initial: Socket := Socket(false, false, 0)

  /** Where, if anywhere, the body of `connect` threw: before or after scheduling the keep-alive. */
  datatype ConnectFault = NoFault | FailsBeforeKeepAlive | FailsAfterKeepAlive

  /** What the socket tells its listeners. */
  datatype Notice = Connected | Disconnected

  /**
   * `connect`: succeeds without change when already open, refuses without change while an
   * attempt is in flight, and otherwise starts an attempt. The handshake completing is a
   * separate `OnOpen` event, so a started attempt reports true whether or not it completes;
   * an exception clears the flag and reports false.
   */
  function Connect(s: Socket, fault: ConnectFault): (r: (bool, Socket))
    ensures s.open ==> r == (true, s)
    ensures !s.open && s.connecting ==> r == (false, s)
    ensures !s.open && !s.connecting ==>
              && (r.0 <==> fault == NoFault)
              && r.1.connecting == r.0
              && !r.1.open
              && r.1.keepAlives == s.keepAlives + (if fault == FailsBeforeKeepAlive then 0 else 1)
  {
    if s.open then (true, s)
    else if s.connecting then (false, s)
    else
      var scheduled := if fault == FailsBeforeKeepAlive then s.keepAlives else s.keepAlives + 1;
      if fault == NoFault then (true, Socket(false, true, scheduled))
      else (false, Socket(false, false, scheduled))
  }

  /** `onOpen`: the attempt is over and listeners hear "connected". */
  function OnOpen(s: Socket): (r: (Socket, Option<Notice>))
    ensures r.0.open && !r.0.connecting && r.0.keepAlives == s.keepAlives
    ensures r.1 == Some(Connected)
  {
    (s.(open := true, connecting := false), Some(Connected))
  }

  /** `onClose`: the attempt is over and listeners hear "disconnected". */
  function OnClose(s: Socket): (r: (Socket, Option<Notice>))
    ensures !r.0.open && !r.0.connecting && r.0.keepAlives == s.keepAlives
    ensures r.1 == Some(Disconnected)
  {
    (s.(open := false, connecting := false), Some(Disconnected))
  }

  /** `onError`: clears the flag only; no listener is told anything. */
  function OnError(s: Socket): (r: (Socket, Option<Notice>))
    ensures r.0 == s.(connecting := false)
    ensures r.1.None?
  {
    (s.(connecting := false), None)
  }

  /** `disconnect`: closes an open client (its `onClose` arrives later as its own event) and clears the flag. */
  function Disconnect(s: Socket): (r: Socket)
    ensures !r.open && !r.connecting && r.keepAlives == s.keepAlives
  {
    Socket(false, false, s.keepAlives)
  }

  /** Pings sent when the keep-alive tasks fire: one per task, and only while open. */
  function PingsOnTick(s: Socket): (n: nat)
    ensures n > 0 <==> s.open && s.keepAlives > 0
    ensures s.open ==> n == s.keepAlives
  {
    if s.open then s.keepAlives else 0
  }

  /** One step of the session, as seen from outside. */
  datatype SocketOp = ConnectCall(fault: ConnectFault) | Opened | Closed | Errored | DisconnectCall

  function Next(s: Socket, op: SocketOp): Socket {
    match op
    case ConnectCall(f) => Connect(s, f).1
    case Opened => OnOpen(s).0
    case Closed => OnClose(s).0
    case Errored => OnError(s).0
    case DisconnectCall => Disconnect(s)
  }

  function Run(s: Socket, ops: seq<SocketOp>): Socket
    decreases |ops|
  {
    if |ops| == 0 then s else Run(Next(s, ops[0]), ops[1..])
  }

  /** An open session never has an attempt in flight. */
  predicate Coherent(s: Socket) {
    s.open ==> !s.connecting
  }

  /**
   * Along any sequence of calls and callbacks, an open session is never "connecting", and
   * keep-alive tasks are only ever added, never cancelled.
   */
  lemma {:induction false} RunKeepsCoherent(s: Socket, ops: seq<SocketOp>)
    requires Coherent(s)
    ensures Coherent(Run(s, ops))
    ensures Run(s, ops).keepAlives >= s.keepAlives
    decreases |ops|
  {
    if |ops| > 0 {
      RunKeepsCoherent(Next(s, ops[0]), ops[1..]);
    }
  }

  // ---------------------------------------------------------------------------------------
  // Listener registry and dispatch

  predicate NoDuplicates<L(==)>(ls: seq<L>) {
    forall i, j :: 0 <= i < j < |ls| ==> ls[i] != ls[j]
  }

  /** `registerListener`: appends the listener unless it is already registered. */
  function RegisterListener<L(==)>(ls: seq<L>, l: L): (r: seq<L>)
    ensures l in r
    ensures l in ls ==> r == ls
    ensures l !in ls ==> r == ls + [l]
    ensures NoDuplicates(ls) ==> NoDuplicates(r)
  {
    if l in ls then ls else ls + [l]
  }

  /** `unregisterListener`: `List.remove` drops the first occurrence, if any. */
  function UnregisterListener<L(==)>(ls: seq<L>, l: L): (r: seq<L>)
    ensures l !in ls ==> r == ls
    ensures l in ls ==> |r| == |ls| - 1
    ensures forall x :: x in r ==> x in ls
    ensures forall x :: x in ls && x != l ==> x in r
    ensures NoDuplicates(ls) ==> l !in r && NoDuplicates(r)
    decreases |ls|
  {
    if |ls| == 0 then []
    else if ls[0] == l then ls[1..]
    else
      var rest := UnregisterListener(ls[1..], l);
      assert NoDuplicates(ls) ==> NoDuplicates(ls[1..]) && ls[0] !in ls[1..] by {
        if NoDuplicates(ls) {
          forall k | 0 <= k < |ls[1..]|
            ensures ls[1..][k] != ls[0]
          {
            assert ls[1..][k] == ls[k + 1];
          }
        }
      }
      [ls[0]] + rest
  }

  /** Registering twice is the same as registering once. */
  lemma RegisterIdempotent<L>(ls: seq<L>, l: L)
    ensures RegisterListener(RegisterListener(ls, l), l) == RegisterListener(ls, l)
  {
  }

  /** Unregistering undoes a registration of a new listener. */
  lemma UnregisterUndoesRegister<L>(ls: seq<L>, l: L)
    requires l !in ls
    ensures UnregisterListener(RegisterListener(ls, l), l) == ls
  {
    UnregisterLast(ls, l);
  }

  lemma {:induction false} UnregisterLast<L>(ls: seq<L>, l: L)
    requires l !in ls
    ensures UnregisterListener(ls + [l], l) == ls
    decreases |ls|
  {
    if |ls| == 0 {
      assert ls + [l] == [l];
    } else {
      assert (ls + [l])[1..] == ls[1..] + [l];
      UnregisterLast(ls[1..], l);
    }
  }

  /** The outcome of invoking one listener. */
  datatype Delivery<L> = Delivery(listener: L, succeeded: bool)

  /**
   * `notifyListeners` / `notifyListenersWithStar`: each listener is invoked in registration
   * order inside its own try/catch. `fails(l)` says whether invoking `l` throws (including a
   * listener without the reflected method); a failure is logged and the loop goes on.
   */
  method NotifyListeners<L>(ls: seq<L>, fails: L -> bool) returns (ds: seq<Delivery<L>>)
    ensures |ds| == |ls|
    ensures forall i :: 0 <= i < |ls| ==> ds[i].listener == ls[i]
    ensures forall i :: 0 <= i < |ls| ==> ds[i].succeeded == !fails(ls[i])
  {
    ds := [];
    var i := 0;
    while i < |ls|
      invariant 0 <= i <= |ls|
      invariant |ds| == i
      invariant forall k :: 0 <= k < i ==> ds[k] == Delivery(ls[k], !fails(ls[k]))
    {
      var ok := !fails(ls[i]);
      ds := ds + [Delivery(ls[i], ok)];
      i := i + 1;
    }
  }

  // ---------------------------------------------------------------------------------------
  // Envelopes

  datatype MessageType = StarUpdate | PlayerJoin | PlayerLeave

  /** What Gson made of the `data` member: a star, JSON null, or something it could not decode. */
  datatype Payload = Decoded(star: Star) | NullData | Undecodable

  /** A parsed `{type, data}` message; `kind` is `None` for a missing or unknown type name. */
  datatype Envelope = Envelope(kind: Option<MessageType>, data: Payload)

  /**
   * `handleMessage`: `parsed` is `None` when Gson threw or produced null. Only a STAR_UPDATE
   * whose data decodes to a star yields something to dispatch; a null star makes the log
   * line throw, and every exception is caught, so nothing escapes.
   */
  function HandleMessage(parsed: Option<Envelope>): (r: Option<Star>)
    ensures r.Some? <==> parsed.Some? && parsed.value.kind == Some(StarUpdate) && parsed.value.data.Decoded?
    ensures r.Some? ==> r.value == parsed.value.data.star
  {
    match parsed
    case Some(Envelope(Some(StarUpdate), Decoded(star))) => Some(star)
    case _ => None
  }

  /**
   * The record as it travels: the live game-object and NPC handles are client objects that
   * are not serialised, so a peer always receives a record holding neither.
   */
  function Transmitted(star: Star): (r: Star)
    ensures !r.objectBound && !r.npcBound
    ensures r.(objectBound := star.objectBound, npcBound := star.npcBound) == star
  {
    star.(objectBound := false, npcBound := false)
  }

  /** `sendStarData`: nothing when not open, else one STAR_UPDATE envelope carrying the star's data. */
  function SendStarData(s: Socket, star: Star): (r: Option<Envelope>)
    ensures r.None? <==> !s.open
    ensures r.Some? ==> r.value.kind == Some(StarUpdate) && r.value.data == Decoded(Transmitted(star))
  {
    if s.open then Some(Envelope(Some(StarUpdate), Decoded(Transmitted(star)))) else None
  }

  /**
   * A star sent by one peer is dispatched by the receiving peer with every field intact
   * except the handles, which the receiver does not have.
   */
  lemma SendThenHandle(s: Socket, star: Star)
    requires s.open
    ensures HandleMessage(SendStarData(s, star)) == Some(Transmitted(star))
    ensures HandleMessage(SendStarData(s, star)).value.(objectBound := star.objectBound, npcBound := star.npcBound) == star
  {
  }

  /** Receiving a message: route it, then fan the star out to every listener. */
  method OnMessage<L>(parsed: Option<Envelope>, ls: seq<L>, fails: L -> bool) returns (ds: seq<Delivery<L>>)
    ensures HandleMessage(parsed).None? ==> ds == []
    ensures HandleMessage(parsed).Some? ==> |ds| == |ls|
    ensures HandleMessage(parsed).Some? ==> forall i :: 0 <= i < |ls| ==> ds[i] == Delivery(ls[i], !fails(ls[i]))
  {
    match HandleMessage(parsed)
    case None =>
      ds := [];
    case Some(_) =>
      ds := NotifyListeners(ls, fails);
  }
}

=== FILE: star_data.dfy ===
/**
 * The star record, in two forms: `Sighting` is the record as StarData.java declares it (with
 * the unique key), and `Star` is the record the plugin reads and writes through accessors
 * that StarData.java does not declare (`isActive`, `getHealth`, `getMiners`, ...), restricted
 * to the fields the plugin uses.
 */
module StarData {
  import opened Wrappers
  import opened Coords
  import opened Decimal
  import StarTier
  import StarLocation

  /** The fields StarData.java declares; every reference field may be null. */
  datatype Sighting = Sighting(
    world: int,
    location: Option<WorldPoint>,
    locationName: Option<StarLocation.Location>,
    tier: Option<StarTier.Tier>,
    foundTime: Option<int>,
    foundBy: Option<string>)

  /** World, x, y and plane in decimal, joined by ':'. */
  function Key(world: int, p: WorldPoint): string {
    IntToString(world) + [':'] + (IntToString(p.x) + [':'] + (IntToString(p.y) + [':'] + IntToString(p.plane)))
  }

  /**
   * `getUniqueKey`: `None` models the null dereference of a missing location.
   */
  function UniqueKey(s: Sighting): (k: Option<string>)
    ensures k.None? <==> s.location.None?
    ensures k.Some? ==> ':' in k.value
  {
    match s.location
    case None => None
    case Some(p) => assert Key(s.world, p)[|IntToString(s.world)|] == ':'; Some(Key(s.world, p))
  }

  /** The key splits on ':' into exactly the four decimal fields it was built from. */
  lemma KeySplit(world: int, p: WorldPoint)
    ensures Split(Key(world, p), ':')
         == [IntToString(world), IntToString(p.x), IntToString(p.y), IntToString(p.plane)]
  {
    IntToStringHasNo(world, ':');
    IntToStringHasNo(p.x, ':');
    IntToStringHasNo(p.y, ':');
    IntToStringHasNo(p.plane, ':');
    SplitJoin4(IntToString(world), IntToString(p.x), IntToString(p.y), IntToString(p.plane), ':');
  }

  /** Reading the four fields of a key back as integers gives world, x, y and plane. */
  lemma KeyFieldsParse(world: int, p: WorldPoint)
    ensures var parts := Split(Key(world, p), ':');
            |parts| == 4
            && ParseInt(parts[0]) == Some(world) && ParseInt(parts[1]) == Some(p.x)
            && ParseInt(parts[2]) == Some(p.y) && ParseInt(parts[3]) == Some(p.plane)
  {
    KeySplit(world, p);
    FieldsParse(Split(Key(world, p), ':'), world, p);
  }

  lemma FieldsParse(parts: seq<string>, world: int, p: WorldPoint)
    requires parts == [IntToString(world), IntToString(p.x), IntToString(p.y), IntToString(p.plane)]
    ensures ParseInt(parts[0]) == Some(world) && ParseInt(parts[1]) == Some(p.x)
            && ParseInt(parts[2]) == Some(p.y) && ParseInt(parts[3]) == Some(p.plane)
  {
    ParseIntToString(world);
    ParseIntToString(p.x);
    ParseIntToString(p.y);
    ParseIntToString(p.plane);
  }

  /** Distinct (world, x, y, plane) tuples never share a key. */
  lemma KeyInjective(w1: int, p1: WorldPoint, w2: int, p2: WorldPoint)
    requires Key(w1, p1) == Key(w2, p2)
    ensures w1 == w2 && p1 == p2
  {
    KeyFieldsParse(w1, p1);
    KeyFieldsParse(w2, p2);
  }

  /** The key ignores tier, found time, finder and place name. */
  lemma UniqueKeyIdentityOnly(a: Sighting, b: Sighting)
    ensures (a.world == b.world && a.location == b.location) ==> UniqueKey(a) == UniqueKey(b)
    ensures (UniqueKey(a).Some? && UniqueKey(a) == UniqueKey(b)) ==> a.world == b.world && a.location == b.location
  {
    if UniqueKey(a).Some? && UniqueKey(a) == UniqueKey(b) {
      KeyInjective(a.world, a.location.value, b.world, b.location.value);
    }
  }

  /**
   * The record as the plugin uses it. `tier` is -1 when unknown, `health` a percentage or
   * -1, `miners` may be null, `lastUpdate` is epoch milliseconds. `objectBound` and
   * `npcBound` say whether the record holds a handle on the live game object or NPC.
   */
  datatype Star = Star(
    world: int,
    point: WorldPoint,
    locationName: string,
    tier: int,
    health: int,
    miners: Option<string>,
    active: bool,
    lastUpdate: int,
    discoveredBy: Option<string>,
    objectBound: bool,
    npcBound: bool)

  /** The plugin's identity test: same world and equal world points. */
  predicate SameSpot(a: Star, b: Star) {
    a.world == b.world && a.point == b.point
  }

  /**
   * The one thing the model assumes of the record's merge `update(StarData)`, whose body
   * is not part of this model: it leaves world and location alone.
   */
  ghost predicate KeepsIdentity(merge: (Star, Star) -> Star) {
    forall e, i :: SameSpot(merge(e, i), e)
  }
}

=== FILE: star_location.dfy ===
/** The fixed table of places where stars land, and the nearest-place lookup. */
module StarLocation {
  import opened Coords
  import opened Wrappers

  datatype Location =
    | CraftingGuild | RimmingtonMine | LumbridgeSwamp | DraynorVillageBank | VarrockEastMine
    | BarbarianVillage | EdgevilleMonastery | CooksGuild | GrandExchange | FaladorPark
    | DwarvenMine | WildernessRuniteRocks | SouthernWilderness | PortKhazard | YanilleBank
    | AlKharidMine | CorsairCove

  /** The enum's declaration order, which is the order `values()` streams in. */
  const Locations: seq<Location> := [
    CraftingGuild, RimmingtonMine, LumbridgeSwamp, DraynorVillageBank, VarrockEastMine,
    BarbarianVillage, EdgevilleMonastery, CooksGuild, GrandExchange, FaladorPark,
    DwarvenMine, WildernessRuniteRocks, SouthernWilderness, PortKhazard, YanilleBank,
    AlKharidMine, CorsairCove]

  /** Position of `l` in `Locations`. */
  function Ordinal(l: Location): (i: nat)
    ensures i < |Locations| && Locations[i] == l
  {
    match l
    case CraftingGuild => 0
    case RimmingtonMine => 1
    case LumbridgeSwamp => 2
    case DraynorVillageBank => 3
    case VarrockEastMine => 4
    case BarbarianVillage => 5
    case EdgevilleMonastery => 6
    case CooksGuild => 7
    case GrandExchange => 8
    case FaladorPark => 9
    case DwarvenMine => 10
    case WildernessRuniteRocks => 11
    case SouthernWilderness => 12
    case PortKhazard => 13
    case YanilleBank => 14
    case AlKharidMine => 15
    case CorsairCove => 16
  }

  function Name(l: Location): string {
    match l
    case CraftingGuild => "Crafting Guild"
    case RimmingtonMine => "Rimmington Mine"
    case LumbridgeSwamp => "Lumbridge Swamp"
    case DraynorVillageBank => "Draynor Village Bank"
    case VarrockEastMine => "Varrock East Mine"
    case BarbarianVillage => "Barbarian Village"
    case EdgevilleMonastery => "Edgeville Monastery"
    case CooksGuild => "Cooks' Guild"
    case GrandExchange => "Grand Exchange"
    case FaladorPark => "Falador Park"
    case DwarvenMine => "Dwarven Mine"
    case WildernessRuniteRocks => "Wilderness Runite Rocks"
    case SouthernWilderness => "Southern Wilderness"
    case PortKhazard => "Port Khazard"
    case YanilleBank => "Yanille Bank"
    case AlKharidMine => "Al Kharid Mine"
    case CorsairCove => "Corsair Cove"
  }

  function Point(l: Location): WorldPoint {
    match l
    case CraftingGuild => WorldPoint(2940, 3280, 0)
    case RimmingtonMine => WorldPoint(2974, 3240, 0)
    case LumbridgeSwamp => WorldPoint(3228, 3186, 0)
    case DraynorVillageBank => WorldPoint(3092, 3243, 0)
    case VarrockEastMine => WorldPoint(3290, 3369, 0)
    case BarbarianVillage => WorldPoint(3082, 3420, 0)
    case EdgevilleMonastery => WorldPoint(3052, 3497, 0)
    case CooksGuild => WorldPoint(3145, 3442, 0)
    case GrandExchange => WorldPoint(3164, 3489, 0)
    case FaladorPark => WorldPoint(2999, 3376, 0)
    case DwarvenMine => WorldPoint(3019, 3450, 0)
    case WildernessRuniteRocks => WorldPoint(3061, 3884, 0)
    case SouthernWilderness => WorldPoint(3024, 3595, 0)
    case PortKhazard => WorldPoint(2650, 3166, 0)
    case YanilleBank => WorldPoint(2602, 3093, 0)
    case AlKharidMine => WorldPoint(3295, 3300, 0)
    case CorsairCove => WorldPoint(2483, 2890, 0)
  }

  /** Whether the place is reachable without membership. */
  function IsF2p(l: Location): bool {
    !(l == PortKhazard || l == YanilleBank)
  }

  /**
   * `Stream.min` over `table` with the comparator "distance from each entry's point to `p`":
   * the reduction keeps the earlier element on ties, so the result is the FIRST entry at
   * minimal distance; an empty stream gives `None`. `dist` stands for RuneLite's
   * `WorldPoint.distanceTo2D`, which is not part of this model.
   */
  method MinByDistance(table: seq<Location>, p: WorldPoint, dist: (WorldPoint, WorldPoint) -> nat)
    returns (r: Option<Location>)
    ensures r.None? <==> |table| == 0
    ensures r.Some? ==>
              exists k :: 0 <= k < |table| && table[k] == r.value
                && (forall j :: 0 <= j < |table| ==> dist(Point(r.value), p) <= dist(Point(table[j]), p))
                && (forall j :: 0 <= j < k ==> dist(Point(table[j]), p) > dist(Point(r.value), p))
  {
    if |table| == 0 {
      return None;
    }
    var best := 0;
    var i := 1;
    while i < |table|
      invariant 0 <= best < i <= |table|
      invariant forall j :: 0 <= j < i ==> dist(Point(table[best]), p) <= dist(Point(table[j]), p)
      invariant forall j :: 0 <= j < best ==> dist(Point(table[j]), p) > dist(Point(table[best]), p)
    {
      if dist(Point(table[best]), p) > dist(Point(table[i]), p) {
        best := i;
      }
      i := i + 1;
    }
    r := Some(table[best]);
    assert table[best] == r.value;
  }

  /**
   * The table entry nearest to `p`. The table is never empty, so unlike the general
   * reduction this never yields `None`.
   */
  method GetClosestLocation(p: WorldPoint, dist: (WorldPoint, WorldPoint) -> nat) returns (r: Option<Location>)
    ensures r.Some?
    ensures forall l: Location :: dist(Point(r.value), p) <= dist(Point(l), p)
  {
    r := MinByDistance(Locations, p, dist);
    forall l: Location
      ensures dist(Point(r.value), p) <= dist(Point(l), p)
    {
      assert Locations[Ordinal(l)] == l;
    }
  }

  /** Every place is on the ground floor, and exactly Port Khazard and Yanille Bank are members-only. */
  lemma TableFacts()
    ensures |Locations| == 17
    ensures forall l: Location :: Point(l).plane == 0
    ensures forall l: Location :: !IsF2p(l) <==> l == PortKhazard || l == YanilleBank
  {
  }
}

=== FILE: star_store.dfy ===
/**
 * The plugin's list of stars heard from the network (`networkStars`): lookup, the merge of a
 * received star, the recency sort, the 5-second cleanup sweep and the active-star view.
 * The record merge `update(StarData)` is not part of this model and is a parameter.
 */
module StarStore {
  import opened Wrappers
  import opened Coords
  import opened StarData
  import opened Seqs

  const INACTIVE_GRACE_MS: int := 60000

  predicate At(s: Star, world: int, p: WorldPoint) {
    s.world == world && s.point == p
  }

  /** Position of the first star at (`world`, `p`), if any. */
  function FindIndex(net: seq<Star>, world: int, p: WorldPoint): (r: Option<nat>)
    ensures r.Some? ==> r.value < |net| && At(net[r.value], world, p)
    ensures r.Some? ==> forall j :: 0 <= j < r.value ==> !At(net[j], world, p)
    ensures r.None? <==> forall j :: 0 <= j < |net| ==> !At(net[j], world, p)
    decreases |net|
  {
    if |net| == 0 then None
    else if At(net[0], world, p) then Some(0)
    else match FindIndex(net[1..], world, p)
      case None => None
      case Some(i) => Some(i + 1)
  }

  /** `findStar`: the first star of the list at (`world`, `p`), or null. */
  function FindStar(net: seq<Star>, world: int, p: WorldPoint): (r: Option<Star>)
    ensures r.None? <==> forall s :: s in net ==> !At(s, world, p)
    ensures r.Some? ==> exists i :: 0 <= i < |net| && net[i] == r.value && At(r.value, world, p)
                          && forall j :: 0 <= j < i ==> !At(net[j], world, p)
  {
    match FindIndex(net, world, p)
    case None => None
    case Some(i) => Some(net[i])
  }

  /** No two stars of the list share world and location. */
  predicate UniqueSpots(net: seq<Star>) {
    forall i, j :: 0 <= i < j < |net| ==> !SameSpot(net[i], net[j])
  }

  /** Most recently updated first. */
  predicate NewestFirst(net: seq<Star>) {
    forall i, j :: 0 <= i < j < |net| ==> net[i].lastUpdate >= net[j].lastUpdate
  }

  /**
   * Places `x` in front of the first star of `t` that is not more recent than it, so that
   * among equal timestamps the earlier element stays in front.
   */
  function InsertByRecency(x: Star, t: seq<Star>): (r: seq<Star>)
    ensures multiset(r) == multiset(t) + multiset{x}
    ensures |r| == |t| + 1
    decreases |t|
  {
    if |t| == 0 || x.lastUpdate >= t[0].lastUpdate then [x] + t
    else
      assert t == [t[0]] + t[1..];
      [t[0]] + InsertByRecency(x, t[1..])
  }

  lemma InsertMembers(x: Star, t: seq<Star>, y: Star)
    requires y in InsertByRecency(x, t)
    ensures y == x || y in t
  {
    assert y in multiset(InsertByRecency(x, t));
  }

  lemma {:induction false} InsertKeepsOrder(x: Star, t: seq<Star>)
    requires NewestFirst(t)
    ensures NewestFirst(InsertByRecency(x, t))
    decreases |t|
  {
    if |t| > 0 && x.lastUpdate < t[0].lastUpdate {
      InsertKeepsOrder(x, t[1..]);
      var rest := InsertByRecency(x, t[1..]);
      var r := [t[0]] + rest;
      forall i, j | 0 <= i < j < |r| ensures r[i].lastUpdate >= r[j].lastUpdate {
        if i == 0 {
          InsertMembers(x, t[1..], r[j]);
          if r[j] != x {
            var k :| 0 <= k < |t[1..]| && t[1..][k] == r[j];
            assert t[k + 1] == r[j];
          }
        } else {
          assert r[i] == rest[i - 1] && r[j] == rest[j - 1];
        }
      }
    }
  }

  /**
   * `list.sort(Comparator.comparing(StarData::getLastUpdate).reversed())`: Java's list sort
   * is stable, which this insertion sort reproduces.
   */
  function SortByRecency(s: seq<Star>): (r: seq<Star>)
    ensures multiset(r) == multiset(s)
    ensures |r| == |s|
    ensures NewestFirst(r)
    decreases |s|
  {
    if |s| == 0 then []
    else
      assert s == [s[0]] + s[1..];
      InsertKeepsOrder(s[0], SortByRecency(s[1..]));
      InsertByRecency(s[0], SortByRecency(s[1..]))
  }

  lemma {:induction false} InsertKeepsUnique(x: Star, t: seq<Star>)
    requires UniqueSpots(t)
    requires forall y :: y in t ==> !SameSpot(x, y)
    ensures UniqueSpots(InsertByRecency(x, t))
    decreases |t|
  {
    if |t| > 0 && x.lastUpdate < t[0].lastUpdate {
      InsertKeepsUnique(x, t[1..]);
      var rest := InsertByRecency(x, t[1..]);
      forall y | y in rest ensures !SameSpot(t[0], y) {
        InsertMembers(x, t[1..], y);
        assert t[0] in t;
        if y != x {
          var k :| 0 <= k < |t[1..]| && t[1..][k] == y;
          assert t[k + 1] == y;
        }
      }
    }
  }

  lemma {:induction false} SortKeepsUnique(s: seq<Star>)
    requires UniqueSpots(s)
    ensures UniqueSpots(SortByRecency(s))
    decreases |s|
  {
    if |s| > 0 {
      SortKeepsUnique(s[1..]);
      var t := SortByRecency(s[1..]);
      forall y | y in t ensures !SameSpot(s[0], y) {
        assert y in multiset(t);
        var k :| 0 <= k < |s[1..]| && s[1..][k] == y;
        assert s[k + 1] == y;
      }
      InsertKeepsUnique(s[0], t);
    }
  }

  /** Sorting a list that is already newest-first changes nothing (stability on any input is `Panel.SortKeepsTiesInOrder`). */
  lemma {:induction false} SortOfSorted(s: seq<Star>)
    requires NewestFirst(s)
    ensures SortByRecency(s) == s
    decreases |s|
  {
    if |s| > 0 {
      SortOfSorted(s[1..]);
    }
  }

  /**
   * The network half of `onStarDataReceived` and of `updateNetworkStar`: the first star at
   * the same world and location is merged in place; otherwise `star` is appended and the
   * whole list re-sorted newest first.
   */
  function Ingest(net: seq<Star>, star: Star, merge: (Star, Star) -> Star): (r: seq<Star>)
    ensures FindIndex(net, star.world, star.point).Some? ==>
              var i := FindIndex(net, star.world, star.point).value;
              |r| == |net| && r[i] == merge(net[i], star)
              && forall j :: 0 <= j < |net| && j != i ==> r[j] == net[j]
    ensures FindIndex(net, star.world, star.point).None? ==>
              multiset(r) == multiset(net) + multiset{star} && NewestFirst(r)
  {
    match FindIndex(net, star.world, star.point)
    case Some(i) => net[i := merge(net[i], star)]
    case None => SortByRecency(net + [star])
  }

  /** Ingesting keeps world and location unique, given a merge that keeps them. */
  lemma IngestKeepsUnique(net: seq<Star>, star: Star, merge: (Star, Star) -> Star)
    requires UniqueSpots(net)
    requires KeepsIdentity(merge)
    ensures UniqueSpots(Ingest(net, star, merge))
  {
    match FindIndex(net, star.world, star.point)
    case Some(i) =>
      assert SameSpot(merge(net[i], star), net[i]);
    case None =>
      var grown := net + [star];
      assert UniqueSpots(grown) by {
        forall i, j | 0 <= i < j < |grown| ensures !SameSpot(grown[i], grown[j]) {
          if j == |net| {
            assert !At(net[i], star.world, star.point);
          }
        }
      }
      SortKeepsUnique(grown);
  }

  /**
   * `updateNetworkStar`: like `Ingest`, except that a star not yet listed is only added
   * when its tier is known (greater than 0).
   */
  function UpdateNetworkStar(net: seq<Star>, star: Star, merge: (Star, Star) -> Star): (r: seq<Star>)
    ensures FindIndex(net, star.world, star.point).Some? ==> r == Ingest(net, star, merge)
    ensures FindIndex(net, star.world, star.point).None? && star.tier > 0 ==>
              multiset(r) == multiset(net) + multiset{star} && NewestFirst(r)
    ensures FindIndex(net, star.world, star.point).None? && star.tier <= 0 ==> r == net
  {
    if FindIndex(net, star.world, star.point).Some? || star.tier > 0 then Ingest(net, star, merge)
    else net
  }

  lemma UpdateNetworkStarKeepsUnique(net: seq<Star>, star: Star, merge: (Star, Star) -> Star)
    requires UniqueSpots(net)
    requires KeepsIdentity(merge)
    ensures UniqueSpots(UpdateNetworkStar(net, star, merge))
  {
    IngestKeepsUnique(net, star, merge);
  }

  /** Inactive and last updated more than 60 s before `now`. */
  predicate Expired(s: Star, now: int) {
    !s.active && now - s.lastUpdate > INACTIVE_GRACE_MS
  }

  function Survives(now: int): Star -> bool {
    (s: Star) => !Expired(s, now)
  }

  /** `cleanupStars`: drops exactly the expired stars, keeping the others in order. */
  function Cleanup(net: seq<Star>, now: int): (r: seq<Star>)
    ensures forall s :: s in r <==> s in net && (s.active || now - s.lastUpdate <= INACTIVE_GRACE_MS)
    ensures forall s :: s in net && s.active ==> s in r
    ensures forall s :: multiset(r)[s] == if s.active || now - s.lastUpdate <= INACTIVE_GRACE_MS then multiset(net)[s] else 0
  {
    var r := Filter(net, Survives(now));
    forall s: Star ensures multiset(r)[s] == if s.active || now - s.lastUpdate <= INACTIVE_GRACE_MS then multiset(net)[s] else 0 {
      FilterMultiset(net, Survives(now), s);
    }
    r
  }

  /** Sweeping a concatenation sweeps each part: survivors keep their relative order. */
  lemma CleanupKeepsOrder(a: seq<Star>, b: seq<Star>, now: int)
    ensures Cleanup(a + b, now) == Cleanup(a, now) + Cleanup(b, now)
  {
    FilterAppend(a, b, Survives(now));
  }

  /** A later sweep subsumes an earlier one; sweeping twice at the same time is sweeping once. */
  lemma CleanupLater(net: seq<Star>, t1: int, t2: int)
    requires t1 <= t2
    ensures Cleanup(Cleanup(net, t1), t2) == Cleanup(net, t2)
  {
    FilterNarrowing(net, Survives(t1), Survives(t2));
  }

  /** The 60-second boundary: a star inactive for exactly 60000 ms stays, one more millisecond removes it. */
  lemma CleanupBoundary(s: Star, now: int)
    requires !s.active
    ensures s.lastUpdate == now - 60000 ==> Cleanup([s], now) == [s]
    ensures s.lastUpdate == now - 60001 ==> Cleanup([s], now) == []
  {
  }

  lemma CleanupKeepsUnique(net: seq<Star>, now: int)
    requires UniqueSpots(net)
    ensures UniqueSpots(Cleanup(net, now))
  {
    SubsequenceKeepsUnique(net, Survives(now));
  }

  lemma {:induction false} SubsequenceKeepsUnique(net: seq<Star>, keep: Star -> bool)
    requires UniqueSpots(net)
    ensures UniqueSpots(Filter(net, keep))
    decreases |net|
  {
    if |net| > 0 {
      SubsequenceKeepsUnique(net[1..], keep);
      var rest := Filter(net[1..], keep);
      if keep(net[0]) {
        forall y | y in rest ensures !SameSpot(net[0], y) {
          var k :| 0 <= k < |net[1..]| && net[1..][k] == y;
          assert net[k + 1] == y;
        }
        var r := [net[0]] + rest;
        forall i, j | 0 <= i < j < |r| ensures !SameSpot(r[i], r[j]) {
          if i > 0 {
            assert r[i] == rest[i - 1] && r[j] == rest[j - 1];
          } else {
            assert r[j] in rest;
          }
        }
      }
    }
  }

  function IsActive(): Star -> bool {
    (s: Star) => s.active
  }

  /** `getActiveStars`: the active stars, in list order. */
  function GetActiveStars(net: seq<Star>): (r: seq<Star>)
    ensures forall s :: s in r <==> s in net && s.active
    ensures forall s :: multiset(r)[s] == if s.active then multiset(net)[s] else 0
  {
    var r := Filter(net, IsActive());
    forall s: Star ensures multiset(r)[s] == if s.active then multiset(net)[s] else 0 {
      FilterMultiset(net, IsActive(), s);
    }
    r
  }

  /**
   * The active stars come out in list order: the view of a concatenation is the views of the
   * parts, and a single star is kept exactly when it is active.
   */
  lemma GetActiveStarsInOrder(a: seq<Star>, b: seq<Star>, s: Star)
    ensures GetActiveStars(a + b) == GetActiveStars(a) + GetActiveStars(b)
    ensures GetActiveStars([s]) == if s.active then [s] else []
  {
    FilterAppend(a, b, IsActive());
    assert [s][1..] == [];
  }
}

=== FILE: star_tier.dfy ===
/** The nine star sizes and the game-object id that shows each one on the map. */
module StarTier {
  import opened Wrappers

  datatype Tier = Tier1 | Tier2 | Tier3 | Tier4 | Tier5 | Tier6 | Tier7 | Tier8 | Tier9

  /** The enum's declaration order, which is the order `values()` iterates in. */
  const Tiers: seq<Tier> := [Tier1, Tier2, Tier3, Tier4, Tier5, Tier6, Tier7, Tier8, Tier9]

  function ObjectId(t: Tier): int {
    match t
    case Tier1 => 41229
    case Tier2 => 41228
    case Tier3 => 41227
    case Tier4 => 41226
    case Tier5 => 41225
    case Tier6 => 41224
    case Tier7 => 41223
    case Tier8 => 41021
    case Tier9 => 41020
  }

  /** Position of `t` in `Tiers`. */
  function Ordinal(t: Tier): (i: nat)
    ensures i < |Tiers| && Tiers[i] == t
  {
    match t
    case Tier1 => 0
    case Tier2 => 1
    case Tier3 => 2
    case Tier4 => 3
    case Tier5 => 4
    case Tier6 => 5
    case Tier7 => 6
    case Tier8 => 7
    case Tier9 => 8
  }

  function Name(t: Tier): string {
    match t
    case Tier1 => "Size 1"
    case Tier2 => "Size 2"
    case Tier3 => "Size 3"
    case Tier4 => "Size 4"
    case Tier5 => "Size 5"
    case Tier6 => "Size 6"
    case Tier7 => "Size 7"
    case Tier8 => "Size 8"
    case Tier9 => "Size 9"
  }

  /** Linear scan of `ts` for the first tier shown by object `id`. */
  function Scan(ts: seq<Tier>, id: int): (r: Option<Tier>)
    ensures r.Some? ==> r.value in ts && ObjectId(r.value) == id
    ensures r.None? ==> forall i :: 0 <= i < |ts| ==> ObjectId(ts[i]) != id
  {
    if |ts| == 0 then None
    else if ObjectId(ts[0]) == id then Some(ts[0])
    else Scan(ts[1..], id)
  }

  /** The tier shown by game object `id`, or `None` (Java's null) for any other object. */
  function FromObjectId(id: int): (r: Option<Tier>)
    ensures r.Some? ==> ObjectId(r.value) == id
    ensures r.None? <==> forall t: Tier :: ObjectId(t) != id
  {
    EveryTierListed(id);
    Scan(Tiers, id)
  }

  lemma EveryTierListed(id: int)
    ensures (forall i :: 0 <= i < |Tiers| ==> ObjectId(Tiers[i]) != id) ==> forall t: Tier :: ObjectId(t) != id
  {
    forall t: Tier
      ensures (forall i :: 0 <= i < |Tiers| ==> ObjectId(Tiers[i]) != id) ==> ObjectId(t) != id
    {
      assert Tiers[Ordinal(t)] == t;
    }
  }

  /** No two tiers share an object id, so the table can be read in both directions. */
  lemma ObjectIdsDistinct()
    ensures forall i, j :: 0 <= i < j < |Tiers| ==> ObjectId(Tiers[i]) != ObjectId(Tiers[j])
  {
  }

  /** Looking up the object id of a tier finds that tier. */
  lemma FromObjectIdRoundTrip(t: Tier)
    ensures FromObjectId(ObjectId(t)) == Some(t)
  {
  }
}

=== FILE: time_format.dfy ===
/**
 * Elapsed times as the overlay and the panel show them. A `java.time.Duration` between two
 * millisecond instants is held as its length in milliseconds; it keeps whole seconds plus a
 * non-negative nano part, and `toMinutes`/`toHours` divide the seconds with Java's
 * truncating long division. Ages can be negative when a star carries a stamp from a clock
 * ahead of ours.
 */
module TimeFormat {
  import opened Decimal

  /** Java's `/` on longs: rounds toward zero. */
  function JavaDiv(a: int, b: int): (q: int)
    requires b > 0
    ensures a >= 0 ==> b * q <= a < b * (q + 1)
    ensures a < 0 ==> b * (q - 1) < a <= b * q && q <= 0
  {
    if a >= 0 then a / b else -((-a) / b)
  }

  /** Java's `%` on longs: takes the sign of the dividend. */
  function JavaRem(a: int, b: int): (m: int)
    requires b > 0
    ensures a == b * JavaDiv(a, b) + m
    ensures a >= 0 ==> 0 <= m < b
  {
    a - b * JavaDiv(a, b)
  }

  /** `Duration.getSeconds()`: the seconds part, which rounds down. */
  function Seconds(ms: int): (s: int)
    ensures 1000 * s <= ms < 1000 * (s + 1)
  {
    ms / 1000
  }

  /** `Duration.toMinutes()`: whole minutes, rounding toward zero (from the floored seconds). */
  function ToMinutes(ms: int): (m: int)
    ensures ms >= 0 ==> 60000 * m <= ms < 60000 * (m + 1)
    ensures ms < 0 ==> m <= 0 && 60000 * (m - 1) < ms
  {
    JavaDiv(Seconds(ms), 60)
  }

  /** `Duration.toHours()`: whole hours, rounding toward zero (from the floored seconds). */
  function ToHours(ms: int): (h: int)
    ensures ms >= 0 ==> 3600000 * h <= ms < 3600000 * (h + 1)
    ensures ms < 0 ==> h <= 0 && 3600000 * (h - 1) < ms
  {
    JavaDiv(Seconds(ms), 3600)
  }

  /** Whole minutes stay below `k` exactly for durations shorter than `k` minutes. */
  lemma MinutesBelow(ms: int, k: int)
    requires k >= 1
    ensures ToMinutes(ms) < k <==> ms < k * 60000
  {
    var s := Seconds(ms);
    if s >= 0 {
      assert 60 * ToMinutes(ms) <= s < 60 * (ToMinutes(ms) + 1);
    }
  }

  /** Whole hours are at most `k` exactly for durations shorter than `k + 1` hours. */
  lemma HoursAtMost(ms: int, k: int)
    requires k >= 0
    ensures ToHours(ms) <= k <==> ms < (k + 1) * 3600000
  {
    var s := Seconds(ms);
    if s >= 0 {
      assert 3600 * ToHours(ms) <= s < 3600 * (ToHours(ms) + 1);
    }
  }

  /** `toHours` is `toMinutes` in whole hours. */
  lemma HoursOfMinutes(ms: int)
    ensures ToHours(ms) == JavaDiv(ToMinutes(ms), 60)
  {
    var s := Seconds(ms);
    var m, h := ToMinutes(ms), ToHours(ms);
    if s >= 0 {
      assert 60 * m <= s < 60 * (m + 1);
      assert 3600 * h <= s < 3600 * (h + 1);
      assert 60 * h <= m < 60 * (h + 1);
    } else {
      assert 60 * (m - 1) < s <= 60 * m;
      assert 3600 * (h - 1) < s <= 3600 * h;
      assert 60 * (h - 1) < m <= 60 * h;
    }
  }

  lemma MinutesMonotone(a: int, b: int)
    requires a <= b
    ensures ToMinutes(a) <= ToMinutes(b)
  {
    var sa, sb := Seconds(a), Seconds(b);
    assert sa <= sb;
    if sa >= 0 {
      assert 60 * ToMinutes(a) <= sa;
      assert sb < 60 * (ToMinutes(b) + 1);
    } else if sb >= 0 {
    } else {
      assert 60 * (ToMinutes(a) - 1) < sa;
      assert sb <= 60 * ToMinutes(b);
    }
  }

  /** What `formatTimeAgo` chooses to say. */
  datatype Ago = JustNow | MinutesAgo(minutes: int) | HoursAgo(hours: int, minutes: int)

  function AgoOf(ms: int): (a: Ago)
    ensures a.JustNow? <==> ms < 60000
    ensures a.MinutesAgo? ==> 1 <= a.minutes < 60 && a.minutes * 60000 <= ms < (a.minutes + 1) * 60000
    ensures a.HoursAgo? ==> a.hours >= 1 && 0 <= a.minutes < 60
                            && (a.hours * 60 + a.minutes) * 60000 <= ms < (a.hours * 60 + a.minutes + 1) * 60000
  {
    MinutesBelow(ms, 1);
    MinutesBelow(ms, 60);
    HoursOfMinutes(ms);
    var total := ToMinutes(ms);
    if total < 1 then JustNow
    else if total < 60 then
      assert 60 * total <= Seconds(ms) < 60 * (total + 1);
      MinutesAgo(total)
    else
      assert 60 * total <= Seconds(ms) < 60 * (total + 1);
      HoursAgo(ToHours(ms), JavaRem(total, 60))
  }

  /** The text: "Just now", "<m>m ago" or "<h>h <m>m ago". */
  function Render(a: Ago): string {
    match a
    case JustNow => "Just now"
    case MinutesAgo(m) => IntToString(m) + "m ago"
    case HoursAgo(h, m) => IntToString(h) + ['h'] + ([' '] + (IntToString(m) + "m ago"))
  }

  /** The numbers `formatTimeAgo` prints are the age's whole minutes, or whole hours and the minutes past them. */
  lemma AgoOfValues(ms: int)
    ensures AgoOf(ms).MinutesAgo? ==> AgoOf(ms).minutes == ms / 60000
    ensures AgoOf(ms).HoursAgo? ==> AgoOf(ms).hours == ms / 3600000 && AgoOf(ms).minutes == ms / 60000 % 60
  {
    var a := AgoOf(ms);
    if a.HoursAgo? {
      var total := a.hours * 60 + a.minutes;
      assert total == ms / 60000;
      assert a.hours == total / 60 && a.minutes == total % 60;
      assert total / 60 == ms / 3600000;
    }
  }

  /** `formatTimeAgo`, stated on the age in milliseconds. */
  function FormatTimeAgo(ms: int): (r: string)
    ensures r == "Just now" <==> ms < 60000
    ensures 60000 <= ms < 3600000 ==> r == IntToString(ms / 60000) + "m ago"
    ensures ms >= 3600000 ==>
              r == IntToString(ms / 3600000) + ['h'] + ([' '] + (IntToString(ms / 60000 % 60) + "m ago"))
  {
    AgoOfValues(ms);
    var r := Render(AgoOf(ms));
    assert !AgoOf(ms).JustNow? ==> r[|r| - 1] == 'o';
    r
  }

  /** Equal suffixes can be cancelled. */
  lemma CancelSuffix(a: string, b: string, t: string)
    requires a + t == b + t
    ensures a == b
  {
    assert |a| == |b|;
    assert a == (a + t)[..|a|] && b == (b + t)[..|b|];
  }

  /** The text of a minute count determines it. */
  lemma MinutesTextInjective(m1: int, m2: int)
    requires IntToString(m1) + "m ago" == IntToString(m2) + "m ago"
    ensures m1 == m2
  {
    CancelSuffix(IntToString(m1), IntToString(m2), "m ago");
    IntToStringInjective(m1, m2);
  }

  /** The first character tells "Just now" apart, and an 'h' tells the hour form apart. */
  lemma TextKind(a: Ago)
    ensures Render(a)[0] == 'J' <==> a.JustNow?
    ensures 'h' in Render(a) <==> a.HoursAgo?
  {
    match a
    case JustNow =>
    case MinutesAgo(m) =>
      IntToStringHasNo(m, 'h');
      assert Render(a)[0] == IntToString(m)[0];
    case HoursAgo(h, m) =>
      assert Render(a)[0] == IntToString(h)[0];
      assert Render(a)[|IntToString(h)|] == 'h';
  }

  /** Different descriptions never print the same. */
  lemma RenderInjective(a: Ago, b: Ago)
    requires Render(a) == Render(b)
    ensures a == b
  {
    TextKind(a);
    TextKind(b);
    if a.MinutesAgo? && b.MinutesAgo? {
      MinutesTextInjective(a.minutes, b.minutes);
    } else if a.HoursAgo? && b.HoursAgo? {
      var h, m := a.hours, a.minutes;
      var rest1 := [' '] + (IntToString(m) + "m ago");
      var rest2 := [' '] + (IntToString(b.minutes) + "m ago");
      IntToStringHasNo(h, 'h');
      IntToStringHasNo(b.hours, 'h');
      IndexOfAfterPrefix(IntToString(h), 'h', rest1);
      IndexOfAfterPrefix(IntToString(b.hours), 'h', rest2);
      var s := Render(a);
      assert |IntToString(h)| == |IntToString(b.hours)|;
      assert IntToString(h) == s[..|IntToString(h)|] == IntToString(b.hours);
      IntToStringInjective(h, b.hours);
      assert rest1 == s[|IntToString(h)| + 1..] == rest2;
      assert rest1[1..] == rest2[1..];
      MinutesTextInjective(m, b.minutes);
    }
  }

  /** Two ages print the same exactly when they fall in the same printed minute (or both under a minute). */
  lemma SameTextSameMinute(ms1: int, ms2: int)
    ensures FormatTimeAgo(ms1) == FormatTimeAgo(ms2) <==>
              (ms1 < 60000 && ms2 < 60000) || (ms1 >= 60000 && ToMinutes(ms1) == ToMinutes(ms2))
  {
    MinutesBelow(ms1, 1);
    MinutesBelow(ms2, 1);
    HoursOfMinutes(ms1);
    HoursOfMinutes(ms2);
    if FormatTimeAgo(ms1) == FormatTimeAgo(ms2) {
      RenderInjective(AgoOf(ms1), AgoOf(ms2));
      var a := AgoOf(ms1);
      if a.HoursAgo? {
        assert ToMinutes(ms1) == 60 * a.hours + a.minutes == ToMinutes(ms2);
      }
    }
  }
}

=== FILE: tracking.dfy ===
/**
 * The plugin's list of stars seen in the current world (`stars`) and how events change it:
 * stars received from the network, NPC and game-object spawns, world hops, the re-send on
 * connect, and `sendStarData`, which stamps a star before handing it to the socket.
 *
 * The Java plugin puts the SAME object into both lists, so a later change to one shows
 * through the other. Here records are values: the two lists are updated independently.
 */
module Tracking {
  import opened Wrappers
  import opened Coords
  import opened StarData
  import opened StarStore
  import opened GameStates

  /** `NullNpcID.NULL_10629`, the NPC standing on a landed star. */
  const NPC_ID: int := 10629

  /** Both lists of the plugin. */
  datatype Lists = Lists(stars: seq<Star>, network: seq<Star>)

  /** What `sendStarData` reads from the plugin, its config, the player and the clock. */
  datatype SendContext = SendContext(
    connected: bool,
    share: bool,
    shareUsername: bool,
    playerName: Option<string>,
    now: int)

  /**
   * `sendStarData`: only when connected and sharing, set the finder to the player's name
   * (if usernames are shared), stamp the star with the current time and send it. Returns
   * the star as it is afterwards and what was handed to the socket.
   */
  function SendStarData(star: Star, ctx: SendContext): (r: (Star, Option<Star>))
    ensures r.1.Some? <==> ctx.connected && ctx.share
    ensures r.1.None? ==> r.0 == star
    ensures r.1.Some? ==> r.1.value == r.0 && r.0.lastUpdate == ctx.now
    ensures r.0 == star.(lastUpdate := r.0.lastUpdate, discoveredBy := r.0.discoveredBy)
    ensures r.0.discoveredBy != star.discoveredBy ==> ctx.shareUsername && r.0.discoveredBy == ctx.playerName
  {
    if ctx.connected && ctx.share then
      var named := if ctx.shareUsername then star.(discoveredBy := ctx.playerName) else star;
      var stamped := named.(lastUpdate := ctx.now);
      (stamped, Some(stamped))
    else (star, None)
  }

  /** No two locally tracked stars stand on the same tile. */
  predicate UniquePoints(stars: seq<Star>) {
    forall i, j :: 0 <= i < j < |stars| ==> stars[i].point != stars[j].point
  }

  /** Position of the first local star on tile `p`. */
  function FindLocal(stars: seq<Star>, p: WorldPoint): (r: Option<nat>)
    ensures r.Some? ==> r.value < |stars| && stars[r.value].point == p
    ensures r.Some? ==> forall j :: 0 <= j < r.value ==> stars[j].point != p
    ensures r.None? <==> forall j :: 0 <= j < |stars| ==> stars[j].point != p
    decreases |stars|
  {
    if |stars| == 0 then None
    else if stars[0].point == p then Some(0)
    else match FindLocal(stars[1..], p)
      case None => None
      case Some(i) => Some(i + 1)
  }

  /** Adopting a received star locally: same world, active, and not already tracked on that tile. */
  predicate Adopts(stars: seq<Star>, star: Star, currentWorld: int) {
    star.world == currentWorld && star.active && FindLocal(stars, star.point).None?
  }

  /**
   * `onStarDataReceived` (run on the client thread): ignored unless logged in; otherwise the
   * star is merged into the network list and, when it is an active star of the current
   * world on a tile not yet tracked, appended to the local list.
   */
  function OnStarDataReceived(ls: Lists, star: Star, state: GameState, currentWorld: int,
                              merge: (Star, Star) -> Star): (r: Lists)
    ensures state != LoggedIn ==> r == ls
    ensures state == LoggedIn ==> r.network == Ingest(ls.network, star, merge)
    ensures state == LoggedIn && Adopts(ls.stars, star, currentWorld) ==> r.stars == ls.stars + [star]
    ensures state == LoggedIn && !Adopts(ls.stars, star, currentWorld) ==> r.stars == ls.stars
  {
    if state != LoggedIn then ls
    else
      var network := Ingest(ls.network, star, merge);
      var stars := if Adopts(ls.stars, star, currentWorld) then ls.stars + [star] else ls.stars;
      Lists(stars, network)
  }

  /** Receiving a star keeps both lists free of duplicates. */
  lemma ReceiveKeepsUnique(ls: Lists, star: Star, state: GameState, currentWorld: int,
                           merge: (Star, Star) -> Star)
    requires UniquePoints(ls.stars) && UniqueSpots(ls.network)
    requires KeepsIdentity(merge)
    ensures var r := OnStarDataReceived(ls, star, state, currentWorld, merge);
            UniquePoints(r.stars) && UniqueSpots(r.network)
  {
    if state == LoggedIn {
      IngestKeepsUnique(ls.network, star, merge);
    }
  }

  /**
   * `onNpcSpawned`: only the star NPC counts. A tracked star on its tile is bound to it,
   * made active and sent; otherwise the star built from the NPC (`created`; its constructor
   * is not part of this model) is appended and sent. Returns the lists and what was sent.
   */
  function OnNpcSpawned(ls: Lists, npcId: int, p: WorldPoint, created: Star, ctx: SendContext): (r: (Lists, Option<Star>))
    ensures npcId != NPC_ID ==> r == (ls, None)
    ensures r.0.network == ls.network
    ensures npcId == NPC_ID && FindLocal(ls.stars, p).Some? ==>
              var i := FindLocal(ls.stars, p).value;
              |r.0.stars| == |ls.stars| && r.0.stars[i].active && r.0.stars[i].npcBound
              && r.0.stars[i].point == p
              && forall j :: 0 <= j < |ls.stars| && j != i ==> r.0.stars[j] == ls.stars[j]
    // the tracked star changes in nothing but the NPC handle, the flag and what sending stamps
    ensures npcId == NPC_ID && FindLocal(ls.stars, p).Some? ==>
              var i := FindLocal(ls.stars, p).value;
              (r.0.stars[i], r.1) == SendStarData(ls.stars[i].(npcBound := true, active := true), ctx)
    ensures npcId == NPC_ID && FindLocal(ls.stars, p).None? ==>
              r.0.stars == ls.stars + [SendStarData(created, ctx).0] && r.1 == SendStarData(created, ctx).1
  {
    if npcId != NPC_ID then (ls, None)
    else match FindLocal(ls.stars, p)
      case Some(i) =>
        var (s, sent) := SendStarData(ls.stars[i].(npcBound := true, active := true), ctx);
        (ls.(stars := ls.stars[i := s]), sent)
      case None =>
        var (s, sent) := SendStarData(created, ctx);
        (ls.(stars := ls.stars + [s]), sent)
  }

  /**
   * `onGameObjectSpawned`: objects whose tier (`tierOf`, the record's `getTier(int)`, not
   * part of this model) is negative are ignored. A tracked star on the tile is bound to the
   * object, its health reset (`resetHealth` gives the health `resetHealth()` leaves), its
   * tier set, made active, sent and merged into the network list; otherwise `created` is
   * appended and sent, but not merged into the network list.
   */
  function OnGameObjectSpawned(ls: Lists, objectId: int, p: WorldPoint, tierOf: int -> int,
                               created: Star, ctx: SendContext, resetHealth: Star -> int,
                               merge: (Star, Star) -> Star): (r: (Lists, Option<Star>))
    ensures tierOf(objectId) < 0 ==> r == (ls, None)
    ensures tierOf(objectId) >= 0 && FindLocal(ls.stars, p).Some? ==>
              var i := FindLocal(ls.stars, p).value;
              |r.0.stars| == |ls.stars| && r.0.stars[i].active && r.0.stars[i].objectBound
              && r.0.stars[i].tier == tierOf(objectId) && r.0.stars[i].point == p
              // health is reset before the new tier is set, so the reset sees the old tier
              && r.0.stars[i].health == resetHealth(ls.stars[i].(objectBound := true))
              && (forall j :: 0 <= j < |ls.stars| && j != i ==> r.0.stars[j] == ls.stars[j])
              && r.0.network == UpdateNetworkStar(ls.network, r.0.stars[i], merge)
    // nothing else of the tracked star changes but what sending stamps
    ensures tierOf(objectId) >= 0 && FindLocal(ls.stars, p).Some? ==>
              var i := FindLocal(ls.stars, p).value;
              var bound := ls.stars[i].(objectBound := true);
              (r.0.stars[i], r.1) == SendStarData(bound.(health := resetHealth(bound), tier := tierOf(objectId), active := true), ctx)
    // a new star is only tracked and sent: the network list hears of it from the server
    ensures tierOf(objectId) >= 0 && FindLocal(ls.stars, p).None? ==>
              r.0.stars == ls.stars + [SendStarData(created, ctx).0] && r.0.network == ls.network
              && r.1 == SendStarData(created, ctx).1
  {
    var tier := tierOf(objectId);
    if tier < 0 then (ls, None)
    else match FindLocal(ls.stars, p)
      case Some(i) =>
        var bound := ls.stars[i].(objectBound := true);
        var renewed := bound.(health := resetHealth(bound)).(tier := tier, active := true);
        var (s, sent) := SendStarData(renewed, ctx);
        (Lists(ls.stars[i := s], UpdateNetworkStar(ls.network, s, merge)), sent)
      case None =>
        var (s, sent) := SendStarData(created, ctx);
        (ls.(stars := ls.stars + [s]), sent)
  }

  /** Neither spawn handler ever tracks a second star on a tile already tracked. */
  lemma SpawnsKeepUnique(ls: Lists, npcId: int, objectId: int, p: WorldPoint, tierOf: int -> int,
                         created: Star, ctx: SendContext, resetHealth: Star -> int,
                         merge: (Star, Star) -> Star)
    requires UniquePoints(ls.stars) && UniqueSpots(ls.network)
    requires created.point == p
    requires KeepsIdentity(merge)
    ensures UniquePoints(OnNpcSpawned(ls, npcId, p, created, ctx).0.stars)
    ensures var r := OnGameObjectSpawned(ls, objectId, p, tierOf, created, ctx, resetHealth, merge).0;
            UniquePoints(r.stars) && UniqueSpots(r.network)
  {
    if tierOf(objectId) >= 0 && FindLocal(ls.stars, p).Some? {
      var r := OnGameObjectSpawned(ls, objectId, p, tierOf, created, ctx, resetHealth, merge).0;
      var i := FindLocal(ls.stars, p).value;
      UpdateNetworkStarKeepsUnique(ls.network, r.stars[i], merge);
    }
  }

  /** `onGameStateChanged`: hopping worlds or returning to the login screen forgets the local stars. */
  function OnGameStateChanged(ls: Lists, state: GameState): (r: Lists)
    ensures state == Hopping || state == LoginScreen ==> r.stars == []
    ensures !(state == Hopping || state == LoginScreen) ==> r.stars == ls.stars
    ensures r.network == ls.network
  {
    if state == Hopping || state == LoginScreen then ls.(stars := []) else ls
  }

  /** `onWebsocketConnected`'s re-send: every local star goes through `sendStarData`, in order. */
  function ResendAll(stars: seq<Star>, ctx: SendContext): (r: (seq<Star>, seq<Star>))
    ensures |r.0| == |stars|
    ensures forall i :: 0 <= i < |stars| ==> r.0[i] == SendStarData(stars[i], ctx).0
    ensures ctx.connected && ctx.share ==> r.1 == r.0
    ensures !(ctx.connected && ctx.share) ==> r == (stars, [])
    decreases |stars|
  {
    if |stars| == 0 then ([], [])
    else
      var (s, sent) := SendStarData(stars[0], ctx);
      var (rest, restSent) := ResendAll(stars[1..], ctx);
      var out := (if sent.Some? then [sent.value] else []) + restSent;
      assert !(ctx.connected && ctx.share) ==> [s] + rest == stars && out == [];
      ([s] + rest, out)
  }
}

=== FILE: update_scheduler.dfy ===
/**
 * The periodic refresh in `onGameTick`: after verification, and only while connected and
 * sharing, every active star near the player is refreshed and re-sent once its jittered
 * interval has passed since the last send recorded under its timing key.
 */
module UpdateScheduler {
  import opened Wrappers
  import opened Coords
  import opened Decimal
  import opened StarData
  import opened StarStore
  import opened GameStates
  import opened Tracking
  import opened Verification

  /** The key of `lastStarUpdateTimes`: world, x and y joined by '_' (the plane is not part of it). */
  function TimingKey(s: Star): string {
    IntToString(s.world) + ['_'] + (IntToString(s.point.x) + ['_'] + IntToString(s.point.y))
  }

  lemma TimingKeySplit(s: Star)
    ensures Split(TimingKey(s), '_') == [IntToString(s.world), IntToString(s.point.x), IntToString(s.point.y)]
  {
    IntToStringHasNo(s.world, '_');
    IntToStringHasNo(s.point.x, '_');
    IntToStringHasNo(s.point.y, '_');
    SplitJoin3(IntToString(s.world), IntToString(s.point.x), IntToString(s.point.y), '_');
  }

  /** Two stars share a timing key exactly when they share world, x and y. */
  lemma TimingKeyIdentity(a: Star, b: Star)
    ensures TimingKey(a) == TimingKey(b) <==>
              a.world == b.world && a.point.x == b.point.x && a.point.y == b.point.y
  {
    if TimingKey(a) == TimingKey(b) {
      TimingKeySplit(a);
      TimingKeySplit(b);
      var pa, pb := Split(TimingKey(a), '_'), Split(TimingKey(b), '_');
      assert pa[0] == pb[0] && pa[1] == pb[1] && pa[2] == pb[2];
      IntToStringInjective(a.world, b.world);
      IntToStringInjective(a.point.x, b.point.x);
      IntToStringInjective(a.point.y, b.point.y);
    }
  }

  /** `getOrDefault(key, 0L)`. */
  function LastSent(m: map<string, int>, k: string): int {
    if k in m then m[k] else 0
  }

  /** A star is due when it is active, near the player, and its interval has elapsed. */
  predicate Due(star: Star, idx: nat, lastSent: map<string, int>, now: int,
                key: Star -> string, nearby: Star -> bool, interval: nat -> int) {
    star.active && nearby(star) && now - LastSent(lastSent, key(star)) >= interval(idx)
  }

  /**
   * One star of the loop. `nearby` is `StarData.isNearby` against the player's tile and the
   * configured distance; `interval(idx)` is the jittered interval drawn for the idx-th star;
   * `refresh` is `StarData.update(Client)`, giving whether it changed and the star afterwards.
   */
  function UpdateOne(star: Star, idx: nat, lastSent: map<string, int>, ctx: SendContext,
                     key: Star -> string, nearby: Star -> bool, interval: nat -> int, refresh: Star -> (bool, Star)): (r: (Star, map<string, int>, Option<Star>))
    ensures !Due(star, idx, lastSent, ctx.now, key, nearby, interval) ==> r == (star, lastSent, None)
    ensures r.1 != lastSent ==> r.1 == lastSent[key(star) := ctx.now]
    ensures forall k :: k != key(star) ==> LastSent(r.1, k) == LastSent(lastSent, k)
    ensures r.2.Some? ==> r.1 == lastSent[key(star) := ctx.now] && r.2.value == r.0
    ensures (r.2.Some? || r.1 != lastSent) ==> Due(star, idx, lastSent, ctx.now, key, nearby, interval) && refresh(star).0
    ensures Due(star, idx, lastSent, ctx.now, key, nearby, interval) && refresh(star).0 ==>
              r.1 == lastSent[key(star) := ctx.now] && (r.2.Some? <==> ctx.connected && ctx.share)
    // a due star is replaced by its refreshed self, which goes through `sendStarData` when it changed
    ensures Due(star, idx, lastSent, ctx.now, key, nearby, interval) ==>
              r.0 == (if refresh(star).0 then SendStarData(refresh(star).1, ctx).0 else refresh(star).1)
    ensures r.2.Some? ==> r.2.value == SendStarData(refresh(star).1, ctx).0 && r.2.value.lastUpdate == ctx.now
  {
    if Due(star, idx, lastSent, ctx.now, key, nearby, interval) then
      var (updated, refreshed) := refresh(star);
      if updated then
        var (s, sent) := SendStarData(refreshed, ctx);
        (s, lastSent[key(star) := ctx.now], sent)
      else (refreshed, lastSent, None)
    else (star, lastSent, None)
  }

  /** The stars after the loop, the timing map, and what was sent, in order. */
  datatype Tick = Tick(stars: seq<Star>, lastSent: map<string, int>, sent: seq<Star>)

  /** Some star of the list has timing key `k`. */
  predicate KeyUsed(stars: seq<Star>, key: Star -> string, k: string) {
    exists i :: 0 <= i < |stars| && key(stars[i]) == k
  }

  /** The loop over `stars`, the first of which is the `offset`-th of the whole list. */
  function UpdateFrom(stars: seq<Star>, offset: nat, lastSent: map<string, int>, ctx: SendContext,
                      key: Star -> string, nearby: Star -> bool, interval: nat -> int, refresh: Star -> (bool, Star)): (r: Tick)
    ensures |r.stars| == |stars|
    ensures |r.sent| <= |stars|
    ensures forall i :: 0 <= i < |stars| && !(stars[i].active && nearby(stars[i])) ==> r.stars[i] == stars[i]
    decreases |stars|
  {
    if |stars| == 0 then Tick([], lastSent, [])
    else
      var one := UpdateOne(stars[0], offset, lastSent, ctx, key, nearby, interval, refresh);
      var rest := UpdateFrom(stars[1..], offset + 1, one.1, ctx, key, nearby, interval, refresh);
      Tick([one.0] + rest.stars, rest.lastSent, (if one.2.Some? then [one.2.value] else []) + rest.sent)
  }

  /** The star the loop may leave at a position: untouched, refreshed, or refreshed and sent. */
  predicate LoopOutcome(before: Star, after: Star, ctx: SendContext, refresh: Star -> (bool, Star)) {
    after == before || after == refresh(before).1 || after == SendStarData(refresh(before).1, ctx).0
  }

  /** A send of the loop: some active star it walked over, refreshed with a change, then sent. */
  predicate SentByLoop(stars: seq<Star>, sent: Star, ctx: SendContext, nearby: Star -> bool, refresh: Star -> (bool, Star)) {
    exists i :: 0 <= i < |stars| && stars[i].active && nearby(stars[i]) && refresh(stars[i]).0
                && sent == SendStarData(refresh(stars[i]).1, ctx).0
  }

  /** The `i`-th star the loop leaves is the `i`-th input star, refreshed, or refreshed and sent. */
  lemma {:induction false} UpdateFromOutcomeAt(stars: seq<Star>, offset: nat, lastSent: map<string, int>, ctx: SendContext,
                                               key: Star -> string, nearby: Star -> bool, interval: nat -> int,
                                               refresh: Star -> (bool, Star), i: nat)
    requires i < |stars|
    ensures LoopOutcome(stars[i], UpdateFrom(stars, offset, lastSent, ctx, key, nearby, interval, refresh).stars[i], ctx, refresh)
    decreases i
  {
    var one := UpdateOne(stars[0], offset, lastSent, ctx, key, nearby, interval, refresh);
    var rest := UpdateFrom(stars[1..], offset + 1, one.1, ctx, key, nearby, interval, refresh);
    assert UpdateFrom(stars, offset, lastSent, ctx, key, nearby, interval, refresh).stars == [one.0] + rest.stars;
    if i > 0 {
      UpdateFromOutcomeAt(stars[1..], offset + 1, one.1, ctx, key, nearby, interval, refresh, i - 1);
      assert stars[1..][i - 1] == stars[i];
    }
  }

  /** The `j`-th send of the loop is an active nearby star it walked over, refreshed with a change and sent, stamped now. */
  lemma {:induction false} UpdateFromSendAt(stars: seq<Star>, offset: nat, lastSent: map<string, int>, ctx: SendContext,
                                            key: Star -> string, nearby: Star -> bool, interval: nat -> int,
                                            refresh: Star -> (bool, Star), j: nat)
    requires j < |UpdateFrom(stars, offset, lastSent, ctx, key, nearby, interval, refresh).sent|
    ensures var sent := UpdateFrom(stars, offset, lastSent, ctx, key, nearby, interval, refresh).sent[j];
            SentByLoop(stars, sent, ctx, nearby, refresh) && sent.lastUpdate == ctx.now
    decreases |stars|
  {
    var one := UpdateOne(stars[0], offset, lastSent, ctx, key, nearby, interval, refresh);
    var rest := UpdateFrom(stars[1..], offset + 1, one.1, ctx, key, nearby, interval, refresh);
    var head := if one.2.Some? then [one.2.value] else [];
    var sent := UpdateFrom(stars, offset, lastSent, ctx, key, nearby, interval, refresh).sent;
    assert sent == head + rest.sent;
    if j < |head| {
      assert stars[0].active && nearby(stars[0]) && refresh(stars[0]).0;
    } else {
      UpdateFromSendAt(stars[1..], offset + 1, one.1, ctx, key, nearby, interval, refresh, j - |head|);
      var k :| 0 <= k < |stars[1..]| && stars[1..][k].active && nearby(stars[1..][k]) && refresh(stars[1..][k]).0
               && rest.sent[j - |head|] == SendStarData(refresh(stars[1..][k]).1, ctx).0;
      assert stars[1..][k] == stars[k + 1];
    }
  }

  /** Every star the loop leaves is its input star or that star refreshed (and sent); every send stems from a changed refresh, stamped now. */
  lemma UpdateFromDescribed(stars: seq<Star>, offset: nat, lastSent: map<string, int>, ctx: SendContext,
                            key: Star -> string, nearby: Star -> bool, interval: nat -> int, refresh: Star -> (bool, Star))
    ensures var r := UpdateFrom(stars, offset, lastSent, ctx, key, nearby, interval, refresh);
            (forall i :: 0 <= i < |stars| ==> LoopOutcome(stars[i], r.stars[i], ctx, refresh))
            && (forall j :: 0 <= j < |r.sent| ==> SentByLoop(stars, r.sent[j], ctx, nearby, refresh) && r.sent[j].lastUpdate == ctx.now)
  {
    var r := UpdateFrom(stars, offset, lastSent, ctx, key, nearby, interval, refresh);
    forall i | 0 <= i < |stars| ensures LoopOutcome(stars[i], r.stars[i], ctx, refresh) {
      UpdateFromOutcomeAt(stars, offset, lastSent, ctx, key, nearby, interval, refresh, i);
    }
    forall j | 0 <= j < |r.sent| ensures SentByLoop(stars, r.sent[j], ctx, nearby, refresh) && r.sent[j].lastUpdate == ctx.now {
      UpdateFromSendAt(stars, offset, lastSent, ctx, key, nearby, interval, refresh, j);
    }
  }

  /** The loop only ever records the current time, and forgets no key. */
  lemma {:induction false} UpdateFromRecordsNow(stars: seq<Star>, offset: nat, lastSent: map<string, int>, ctx: SendContext,
                                                key: Star -> string, nearby: Star -> bool, interval: nat -> int, refresh: Star -> (bool, Star))
    ensures var m := UpdateFrom(stars, offset, lastSent, ctx, key, nearby, interval, refresh).lastSent;
            (forall k :: k in m ==> m[k] == ctx.now || (k in lastSent && m[k] == lastSent[k]))
            && (forall k :: k in lastSent ==> k in m)
    decreases |stars|
  {
    if |stars| > 0 {
      var one := UpdateOne(stars[0], offset, lastSent, ctx, key, nearby, interval, refresh);
      UpdateFromRecordsNow(stars[1..], offset + 1, one.1, ctx, key, nearby, interval, refresh);
      assert forall k :: k in one.1 ==> one.1[k] == ctx.now || (k in lastSent && one.1[k] == lastSent[k]);
    }
  }

  /** The loop only records times under the keys of the stars it walks over. */
  lemma {:induction false} UpdateFromTouchesOwnKeys(stars: seq<Star>, offset: nat, lastSent: map<string, int>, ctx: SendContext,
                                                    key: Star -> string, nearby: Star -> bool, interval: nat -> int, refresh: Star -> (bool, Star), k: string)
    requires !KeyUsed(stars, key, k)
    ensures LastSent(UpdateFrom(stars, offset, lastSent, ctx, key, nearby, interval, refresh).lastSent, k) == LastSent(lastSent, k)
    decreases |stars|
  {
    if |stars| > 0 {
      var one := UpdateOne(stars[0], offset, lastSent, ctx, key, nearby, interval, refresh);
      assert !KeyUsed(stars[1..], key, k) by {
        forall i | 0 <= i < |stars[1..]| ensures key(stars[1..][i]) != k {
          assert stars[1..][i] == stars[i + 1];
        }
      }
      assert key(stars[0]) != k;
      UpdateFromTouchesOwnKeys(stars[1..], offset + 1, one.1, ctx, key, nearby, interval, refresh, k);
    }
  }

  /** What the model assumes of `update(Client)` where it matters: it leaves world and location alone. */
  ghost predicate RefreshKeepsSpot(refresh: Star -> (bool, Star)) {
    forall s :: SameSpot(refresh(s).1, s)
  }

  /** Given such a refresh, the loop moves no star: each keeps its world and location. */
  lemma {:induction false} UpdateFromKeepsSpots(stars: seq<Star>, offset: nat, lastSent: map<string, int>, ctx: SendContext,
                                                key: Star -> string, nearby: Star -> bool, interval: nat -> int,
                                                refresh: Star -> (bool, Star), i: nat)
    requires RefreshKeepsSpot(refresh) && i < |stars|
    ensures SameSpot(UpdateFrom(stars, offset, lastSent, ctx, key, nearby, interval, refresh).stars[i], stars[i])
    decreases i
  {
    var one := UpdateOne(stars[0], offset, lastSent, ctx, key, nearby, interval, refresh);
    var rest := UpdateFrom(stars[1..], offset + 1, one.1, ctx, key, nearby, interval, refresh);
    assert UpdateFrom(stars, offset, lastSent, ctx, key, nearby, interval, refresh).stars == [one.0] + rest.stars;
    if i == 0 {
      assert SameSpot(refresh(stars[0]).1, stars[0]);
    } else {
      UpdateFromKeepsSpots(stars[1..], offset + 1, one.1, ctx, key, nearby, interval, refresh, i - 1);
      assert stars[1..][i - 1] == stars[i];
    }
  }

  /** Timing keys of the list are pairwise different. */
  predicate DistinctKeys(stars: seq<Star>, key: Star -> string) {
    forall i, j :: 0 <= i < j < |stars| ==> key(stars[i]) != key(stars[j])
  }

  /**
   * With distinct timing keys every star is judged against the map as it was before the
   * loop: the loop acts on each star independently.
   */
  lemma {:induction false} DistinctKeysIndependent(stars: seq<Star>, offset: nat, lastSent: map<string, int>,
                                                   ctx: SendContext, key: Star -> string, nearby: Star -> bool, interval: nat -> int,
                                                   refresh: Star -> (bool, Star))
    requires DistinctKeys(stars, key)
    ensures var r := UpdateFrom(stars, offset, lastSent, ctx, key, nearby, interval, refresh);
            forall i :: 0 <= i < |stars| ==>
              r.stars[i] == UpdateOne(stars[i], offset + i, lastSent, ctx, key, nearby, interval, refresh).0
  {
    forall i | 0 <= i < |stars|
      ensures UpdateFrom(stars, offset, lastSent, ctx, key, nearby, interval, refresh).stars[i]
           == UpdateOne(stars[i], offset + i, lastSent, ctx, key, nearby, interval, refresh).0
    {
      IndependentAt(stars, offset, lastSent, ctx, key, nearby, interval, refresh, i);
    }
  }

  /** The `i`-th star is judged against the map as it stood, when no earlier star shares its key. */
  lemma {:induction false} IndependentAt(stars: seq<Star>, offset: nat, lastSent: map<string, int>,
                                         ctx: SendContext, key: Star -> string, nearby: Star -> bool, interval: nat -> int,
                                         refresh: Star -> (bool, Star), i: nat)
    requires i < |stars|
    requires forall j :: 0 <= j < i ==> key(stars[j]) != key(stars[i])
    ensures UpdateFrom(stars, offset, lastSent, ctx, key, nearby, interval, refresh).stars[i]
         == UpdateOne(stars[i], offset + i, lastSent, ctx, key, nearby, interval, refresh).0
    decreases i
  {
    if i > 0 {
      var one := UpdateOne(stars[0], offset, lastSent, ctx, key, nearby, interval, refresh);
      var tail := stars[1..];
      forall j | 0 <= j < i - 1 ensures key(tail[j]) != key(tail[i - 1]) {
        assert tail[j] == stars[j + 1] && tail[i - 1] == stars[i];
      }
      IndependentAt(tail, offset + 1, one.1, ctx, key, nearby, interval, refresh, i - 1);
      assert tail[i - 1] == stars[i];
      assert key(stars[0]) != key(stars[i]);
      SameLastSent(stars[i], offset + i, one.1, lastSent, ctx, key, nearby, interval, refresh);
    }
  }

  /** A star judged against two maps that agree on its key fares the same. */
  lemma SameLastSent(star: Star, idx: nat, m1: map<string, int>, m2: map<string, int>, ctx: SendContext,
                     key: Star -> string, nearby: Star -> bool, interval: nat -> int, refresh: Star -> (bool, Star))
    requires LastSent(m1, key(star)) == LastSent(m2, key(star))
    ensures UpdateOne(star, idx, m1, ctx, key, nearby, interval, refresh).0
         == UpdateOne(star, idx, m2, ctx, key, nearby, interval, refresh).0
  {
  }

  /**
   * The timing key leaves out the plane: of two stars on the same x and y of one world but on
   * different planes, the second is not refreshed in the tick in which the first was sent
   * (for any positive interval).
   */
  lemma PlanesShareTimingKey(a: Star, b: Star, lastSent: map<string, int>, ctx: SendContext,
                             nearby: Star -> bool, interval: nat -> int, refresh: Star -> (bool, Star))
    requires a.world == b.world && a.point.x == b.point.x && a.point.y == b.point.y && a.point.plane != b.point.plane
    requires ctx.connected && ctx.share
    requires Due(a, 0, lastSent, ctx.now, TimingKey, nearby, interval) && refresh(a).0
    requires interval(1) > 0
    ensures var r := UpdateFrom([a, b], 0, lastSent, ctx, TimingKey, nearby, interval, refresh);
            r.stars[1] == b && |r.sent| == 1
  {
    TimingKeyIdentity(a, b);
    var m := UpdateOne(a, 0, lastSent, ctx, TimingKey, nearby, interval, refresh).1;
    assert LastSent(m, TimingKey(b)) == ctx.now;
    assert !Due(b, 1, m, ctx.now, TimingKey, nearby, interval);
    assert [a, b][1..] == [b];
  }

  /** The timing loop of `onGameTick`: skipped unless connected, sharing, and tracking stars. */
  function ScheduleUpdates(stars: seq<Star>, lastSent: map<string, int>, ctx: SendContext,
                           nearby: Star -> bool, interval: nat -> int, refresh: Star -> (bool, Star)): (r: Tick)
    ensures !ctx.connected || !ctx.share || |stars| == 0 ==> r == Tick(stars, lastSent, [])
    ensures |r.stars| == |stars| && |r.sent| <= |stars|
    ensures forall i :: 0 <= i < |stars| && !(stars[i].active && nearby(stars[i])) ==> r.stars[i] == stars[i]
    ensures forall k :: k in r.lastSent ==> r.lastSent[k] == ctx.now || (k in lastSent && r.lastSent[k] == lastSent[k])
    ensures forall k :: k in lastSent ==> k in r.lastSent
    // each star is kept, refreshed, or refreshed and sent; each send is a changed refresh, stamped now
    ensures forall i :: 0 <= i < |stars| ==> LoopOutcome(stars[i], r.stars[i], ctx, refresh)
    ensures forall j :: 0 <= j < |r.sent| ==> SentByLoop(stars, r.sent[j], ctx, nearby, refresh) && r.sent[j].lastUpdate == ctx.now
  {
    if !ctx.connected || !ctx.share || |stars| == 0 then Tick(stars, lastSent, [])
    else
      UpdateFromRecordsNow(stars, 0, lastSent, ctx, TimingKey, nearby, interval, refresh);
      UpdateFromDescribed(stars, 0, lastSent, ctx, TimingKey, nearby, interval, refresh);
      UpdateFrom(stars, 0, lastSent, ctx, TimingKey, nearby, interval, refresh)
  }

  /** While sharing, a list with distinct timing keys is refreshed star by star against the map as it stood. */
  lemma ScheduleIndependent(stars: seq<Star>, lastSent: map<string, int>, ctx: SendContext,
                            nearby: Star -> bool, interval: nat -> int, refresh: Star -> (bool, Star))
    requires DistinctKeys(stars, TimingKey) && ctx.connected && ctx.share
    ensures var r := ScheduleUpdates(stars, lastSent, ctx, nearby, interval, refresh);
            forall i :: 0 <= i < |stars| ==>
              r.stars[i] == UpdateOne(stars[i], i, lastSent, ctx, TimingKey, nearby, interval, refresh).0
  {
    if |stars| > 0 {
      DistinctKeysIndependent(stars, 0, lastSent, ctx, TimingKey, nearby, interval, refresh);
      assert ScheduleUpdates(stars, lastSent, ctx, nearby, interval, refresh)
          == UpdateFrom(stars, 0, lastSent, ctx, TimingKey, nearby, interval, refresh);
    }
  }

  /** Local stars on distinct tiles of one world (as verification leaves them) may still share timing keys, but only across planes. */
  lemma SameKeyMeansOtherPlane(a: Star, b: Star)
    requires a.world == b.world && a.point != b.point
    requires TimingKey(a) == TimingKey(b)
    ensures a.point.plane != b.point.plane
  {
    TimingKeyIdentity(a, b);
  }

  /** A whole `onGameTick`: verification, then the timing loop over what verification left. */
  function OnGameTick(ls: Lists, lastSent: map<string, int>, state: GameState, currentWorld: int,
                      observe: WorldPoint -> Observation, ctx: SendContext, resetHealth: Star -> int,
                      merge: (Star, Star) -> Star, nearby: Star -> bool, interval: nat -> int,
                      refresh: Star -> (bool, Star)): (r: (Lists, map<string, int>, seq<Star>))
    ensures var v := VerifyLocalStars(ls, state, currentWorld, observe, ctx, resetHealth, merge);
            r.0.network == v.0.network && |r.0.stars| == |v.0.stars|
            && (!ctx.connected || !ctx.share ==> r.0.stars == v.0.stars && r.1 == lastSent && r.2 == v.1)
            && (state != LoggedIn && (!ctx.connected || !ctx.share) ==> r == (ls, lastSent, []))
    // the timing loop touches only active stars near the player, among those verification kept
    ensures var v := VerifyLocalStars(ls, state, currentWorld, observe, ctx, resetHealth, merge);
            forall i :: 0 <= i < |v.0.stars| && !(v.0.stars[i].active && nearby(v.0.stars[i])) ==> r.0.stars[i] == v.0.stars[i]
    // every recorded send time is the old one or now, and none is forgotten
    ensures forall k :: k in r.1 ==> r.1[k] == ctx.now || (k in lastSent && r.1[k] == lastSent[k])
    ensures forall k :: k in lastSent ==> k in r.1
    // verification's sends come first, then at most one refresh per kept star
    ensures var v := VerifyLocalStars(ls, state, currentWorld, observe, ctx, resetHealth, merge);
            |v.1| <= |r.2| <= |v.1| + |v.0.stars| && r.2[..|v.1|] == v.1
    // after them, each send is a kept star refreshed with a change and sent through `sendStarData`
    ensures var v := VerifyLocalStars(ls, state, currentWorld, observe, ctx, resetHealth, merge);
            forall j :: |v.1| <= j < |r.2| ==> SentByLoop(v.0.stars, r.2[j], ctx, nearby, refresh) && r.2[j].lastUpdate == ctx.now
  {
    var (verified, sentByVerify) := VerifyLocalStars(ls, state, currentWorld, observe, ctx, resetHealth, merge);
    var t := ScheduleUpdates(verified.stars, lastSent, ctx, nearby, interval, refresh);
    (verified.(stars := t.stars), t.lastSent, sentByVerify + t.sent)
  }

  /** A whole tick keeps both lists free of duplicates, given a refresh that moves no star. */
  lemma OnGameTickKeepsUnique(ls: Lists, lastSent: map<string, int>, state: GameState, currentWorld: int,
                              observe: WorldPoint -> Observation, ctx: SendContext, resetHealth: Star -> int,
                              merge: (Star, Star) -> Star, nearby: Star -> bool, interval: nat -> int,
                              refresh: Star -> (bool, Star))
    requires UniquePoints(ls.stars) && UniqueSpots(ls.network)
    requires KeepsIdentity(merge) && RefreshKeepsSpot(refresh)
    ensures var r := OnGameTick(ls, lastSent, state, currentWorld, observe, ctx, resetHealth, merge, nearby, interval, refresh).0;
            UniquePoints(r.stars) && UniqueSpots(r.network)
  {
    VerifyKeepsUnique(ls, state, currentWorld, observe, ctx, resetHealth, merge);
    var v := VerifyLocalStars(ls, state, currentWorld, observe, ctx, resetHealth, merge).0;
    var t := ScheduleUpdates(v.stars, lastSent, ctx, nearby, interval, refresh);
    assert OnGameTick(ls, lastSent, state, currentWorld, observe, ctx, resetHealth, merge, nearby, interval, refresh).0.stars == t.stars;
    if ctx.connected && ctx.share && |v.stars| > 0 {
      forall i, j | 0 <= i < j < |t.stars| ensures t.stars[i].point != t.stars[j].point {
        UpdateFromKeepsSpots(v.stars, 0, lastSent, ctx, TimingKey, nearby, interval, refresh, i);
        UpdateFromKeepsSpots(v.stars, 0, lastSent, ctx, TimingKey, nearby, interval, refresh, j);
      }
    }
  }
}

=== FILE: verification.dfy ===
/**
 * `verifyLocalStars`, run on every game tick: each tracked star is checked against what the
 * scene shows at its tile, then the network stars of the current world are checked the same
 * way. Scene queries are not part of this model; what they report for a tile is an
 * `Observation`, given as a function of the tile.
 */
module Verification {
  import opened Wrappers
  import opened Coords
  import opened StarData
  import opened StarStore
  import opened GameStates
  import opened Tracking
  import SocketManager

  /** The tiers (`StarData.getTier`) of the non-null game objects on a tile, in scene order. */
  datatype Tile = Tile(objectTiers: seq<int>)

  /**
   * What the client reports for a star's tile: outside the loaded scene; in the scene but with
   * scene coordinates outside `SCENE_SIZE`; or in the scene with its tile (absent when the
   * scene holds null there) and whether a star NPC stands on it.
   */
  datatype Observation =
    | OutOfScene
    | OutOfBounds
    | InScene(tile: Option<Tile>, npcHere: bool)

  /** The tier of the first object on the tile that is a star (tier above zero). */
  function FirstStarTier(tiers: seq<int>): (r: Option<int>)
    ensures r.Some? ==> exists i :: 0 <= i < |tiers| && tiers[i] == r.value && r.value > 0
                          && forall j :: 0 <= j < i ==> tiers[j] <= 0
    ensures r.None? <==> forall i :: 0 <= i < |tiers| ==> tiers[i] <= 0
    decreases |tiers|
  {
    if |tiers| == 0 then None
    else if tiers[0] > 0 then Some(tiers[0])
    else
      var r := FirstStarTier(tiers[1..]);
      if r.Some? then
        var i :| 1 <= i + 1 <= |tiers| && 0 <= i < |tiers[1..]| && tiers[1..][i] == r.value
                 && forall j :: 0 <= j < i ==> tiers[1..][j] <= 0;
        assert tiers[i + 1] == r.value;
        r
      else r
  }

  /** Local removal rule: more than a minute has passed since the star was last stamped. */
  predicate Stale(star: Star, now: int) {
    now - star.lastUpdate > INACTIVE_GRACE_MS
  }

  /** What one local check does: the star afterwards, whether it leaves the local list, whether it went through `updateNetworkStar`, and what was sent. */
  datatype Verdict = Verdict(star: Star, remove: bool, pushed: bool, sent: Option<Star>)

  /** The unchanged outcome. */
  function Keep(star: Star): Verdict {
    Verdict(star, false, false, None)
  }

  /**
   * One iteration of the local loop of `verifyLocalStars`. `resetHealth` gives the health
   * `StarData.resetHealth()` leaves; `ctx` carries what `sendStarData` reads.
   */
  function VerifyStar(star: Star, obs: Observation, ctx: SendContext, resetHealth: Star -> int): (r: Verdict)
    // out of scene: never changed, dropped only once inactive and stale
    ensures obs.OutOfScene? ==> r.star == star && !r.pushed && r.sent.None?
                                && (r.remove <==> !star.active && Stale(star, ctx.now))
    // out of bounds, or a null tile: skipped
    ensures obs.OutOfBounds? || (obs.InScene? && obs.tile.None?) ==> r == Keep(star)
    // a star object on the tile: the star takes its tier, is active and bound, and is sent --
    // but only when it was inactive or of another tier
    ensures obs.InScene? && obs.tile.Some? && FirstStarTier(obs.tile.value.objectTiers).Some? ==>
              var t := FirstStarTier(obs.tile.value.objectTiers).value;
              !r.remove
              && (star.active && star.tier == t ==> r == Keep(star))
              && (!star.active || star.tier != t ==>
                    r.pushed && r.star.tier == t && r.star.active && r.star.objectBound
                    && r.star.health == resetHealth(star.(tier := t, objectBound := true, active := true))
                    // every other field is as before, up to what sending stamps
                    && r.star == SendStarData(star.(tier := t, objectBound := true, active := true,
                                                    health := resetHealth(star.(tier := t, objectBound := true, active := true))), ctx).0)
    // only the NPC on the tile: the star is active and bound to it, changed only when it was not already
    ensures obs.InScene? && obs.tile.Some? && FirstStarTier(obs.tile.value.objectTiers).None? && obs.npcHere ==>
              !r.remove
              && (star.active && star.npcBound ==> r == Keep(star))
              && (!star.active || !star.npcBound ==>
                    r.pushed && r.star.active && r.star.npcBound
                    && r.star == SendStarData(star.(active := true, npcBound := true), ctx).0)
    // nothing on the tile: an active star is marked inactive and unbound, sent, and dropped
    // if stale afterwards; an inactive star is left alone
    ensures obs.InScene? && obs.tile.Some? && FirstStarTier(obs.tile.value.objectTiers).None? && !obs.npcHere ==>
              (!star.active ==> r == Keep(star))
              && (star.active ==>
                    r.pushed && !r.star.active && !r.star.objectBound && !r.star.npcBound
                    && r.star == SendStarData(star.(active := false, objectBound := false, npcBound := false), ctx).0
                    && (r.remove <==> Stale(r.star, ctx.now)))
    ensures r.star.point == star.point && r.star.world == star.world
    ensures r.sent.Some? ==> r.pushed && r.sent.value == r.star
    ensures r.pushed ==> (r.sent.Some? <==> ctx.connected && ctx.share)
  {
    match obs
    case OutOfScene => Verdict(star, !star.active && Stale(star, ctx.now), false, None)
    case OutOfBounds => Keep(star)
    case InScene(None, _) => Keep(star)
    case InScene(Some(tile), npcHere) =>
      match FirstStarTier(tile.objectTiers)
      case Some(t) =>
        if !star.active || star.tier != t then
          var bound := star.(tier := t, objectBound := true, active := true);
          var (s, sent) := SendStarData(bound.(health := resetHealth(bound)), ctx);
          Verdict(s, false, true, sent)
        else Keep(star)
      case None =>
        if npcHere then
          if !star.active || !star.npcBound then
            var (s, sent) := SendStarData(star.(active := true, npcBound := true), ctx);
            Verdict(s, false, true, sent)
          else Keep(star)
        else if star.active then
          var (s, sent) := SendStarData(star.(active := false, objectBound := false, npcBound := false), ctx);
          Verdict(s, Stale(s, ctx.now), true, sent)
        else Keep(star)
  }

  /**
   * A star seen to vanish from its tile is dropped in the same tick only when it was not
   * sent: sending stamps it with the current time, which is never more than a minute ago.
   */
  lemma VanishedAndSentIsKept(star: Star, obs: Observation, ctx: SendContext, resetHealth: Star -> int)
    requires obs.InScene? && ctx.connected && ctx.share
    ensures !VerifyStar(star, obs, ctx, resetHealth).remove
  {
  }

  /**
   * A star adopted from the network holds no NPC handle, so the first check that finds the
   * star NPC on its tile binds the NPC, sends the star and pushes it, even if it was active.
   */
  lemma ReceivedStarBindsNpc(sock: SocketManager.Socket, sent: Star, ctx: SendContext, resetHealth: Star -> int)
    requires sock.open
    ensures var received := SocketManager.HandleMessage(SocketManager.SendStarData(sock, sent)).value;
            var r := VerifyStar(received, InScene(Some(Tile([])), true), ctx, resetHealth);
            r.pushed && r.star.npcBound && r.star.active
  {
    SocketManager.SendThenHandle(sock, sent);
  }

  /** The local loop, threading the network list through `updateNetworkStar`: the stars afterwards, which of them are marked for removal, the network list, and what was sent. */
  datatype Pass = Pass(stars: seq<Star>, remove: seq<bool>, network: seq<Star>, sent: seq<Star>)

  /** How the local loop judges each star: by what is observed at its location. */
  function Judge(observe: WorldPoint -> Observation, ctx: SendContext, resetHealth: Star -> int): Star -> Verdict {
    (s: Star) => VerifyStar(s, observe(s.point), ctx, resetHealth)
  }

  function LocalPass(stars: seq<Star>, network: seq<Star>, judge: Star -> Verdict, merge: (Star, Star) -> Star): (r: Pass)
    ensures |r.stars| == |stars| && |r.remove| == |stars|
    decreases |stars|
  {
    if |stars| == 0 then Pass([], [], network, [])
    else
      var v := judge(stars[0]);
      var net := if v.pushed then UpdateNetworkStar(network, v.star, merge) else network;
      var rest := LocalPass(stars[1..], net, judge, merge);
      Pass([v.star] + rest.stars, [v.remove] + rest.remove, rest.network,
           (if v.sent.Some? then [v.sent.value] else []) + rest.sent)
  }

  /** The `i`-th local star comes out of the pass as it was judged, whatever the network list held. */
  lemma {:induction false} LocalPassJudgesEach(stars: seq<Star>, network: seq<Star>, judge: Star -> Verdict,
                                               merge: (Star, Star) -> Star, i: nat)
    requires i < |stars|
    ensures var r := LocalPass(stars, network, judge, merge);
            r.stars[i] == judge(stars[i]).star && r.remove[i] == judge(stars[i]).remove
    decreases i
  {
    if i > 0 {
      var v := judge(stars[0]);
      var net := if v.pushed then UpdateNetworkStar(network, v.star, merge) else network;
      var rest := LocalPass(stars[1..], net, judge, merge);
      var r := LocalPass(stars, network, judge, merge);
      assert r.stars == [v.star] + rest.stars && r.remove == [v.remove] + rest.remove;
      LocalPassJudgesEach(stars[1..], net, judge, merge, i - 1);
      assert stars[1..][i - 1] == stars[i];
    }
  }

  /** What the local loop sends, in order: the sends of each star's own verdict. */
  function SentBy(stars: seq<Star>, judge: Star -> Verdict): (r: seq<Star>)
    ensures |r| <= |stars|
    decreases |stars|
  {
    if |stars| == 0 then []
    else (if judge(stars[0]).sent.Some? then [judge(stars[0]).sent.value] else []) + SentBy(stars[1..], judge)
  }

  /** The network list threaded through the loop never changes what is sent. */
  lemma {:induction false} LocalPassSends(stars: seq<Star>, network: seq<Star>, judge: Star -> Verdict,
                                          merge: (Star, Star) -> Star)
    ensures LocalPass(stars, network, judge, merge).sent == SentBy(stars, judge)
    decreases |stars|
  {
    if |stars| > 0 {
      var v := judge(stars[0]);
      var net := if v.pushed then UpdateNetworkStar(network, v.star, merge) else network;
      LocalPassSends(stars[1..], net, judge, merge);
    }
  }

  /** `starsToRemove`: the stars whose flag is set, in order. */
  function Marked(stars: seq<Star>, flags: seq<bool>): (r: seq<Star>)
    requires |flags| == |stars|
    ensures forall i :: 0 <= i < |stars| && flags[i] ==> stars[i] in r
    ensures forall s :: s in r ==> exists i :: 0 <= i < |stars| && flags[i] && stars[i] == s
    decreases |stars|
  {
    if |stars| == 0 then []
    else
      var rest := Marked(stars[1..], flags[1..]);
      var r := (if flags[0] then [stars[0]] else []) + rest;
      assert forall i :: 1 <= i < |stars| && flags[i] ==> stars[i] in r by {
        forall i | 1 <= i < |stars| && flags[i] ensures stars[i] in r {
          assert stars[1..][i - 1] == stars[i] && flags[1..][i - 1] == flags[i];
        }
      }
      assert forall s :: s in rest ==> exists i :: 0 <= i < |stars| && flags[i] && stars[i] == s by {
        forall s | s in rest ensures exists i :: 0 <= i < |stars| && flags[i] && stars[i] == s {
          var k :| 0 <= k < |stars[1..]| && flags[1..][k] && stars[1..][k] == s;
          assert flags[k + 1] && stars[k + 1] == s;
        }
      }
      r
  }

  /**
   * After the local loop and `removeAll`, a star is still tracked exactly when some star was
   * judged into it and no star judged into an equal record was marked for removal.
   */
  lemma LocalPassOutcome(stars: seq<Star>, network: seq<Star>, judge: Star -> Verdict,
                         merge: (Star, Star) -> Star, s: Star)
    ensures var p := LocalPass(stars, network, judge, merge);
            s in RemoveAll(p.stars, Marked(p.stars, p.remove)) <==>
              (exists i :: 0 <= i < |stars| && judge(stars[i]).star == s)
              && !(exists i :: 0 <= i < |stars| && judge(stars[i]).star == s && judge(stars[i]).remove)
  {
    var p := LocalPass(stars, network, judge, merge);
    forall k | 0 <= k < |stars|
      ensures p.stars[k] == judge(stars[k]).star && p.remove[k] == judge(stars[k]).remove
    {
      LocalPassJudgesEach(stars, network, judge, merge, k);
    }
  }

  /** The local pass keeps network-list identities unique. */
  lemma {:induction false} LocalPassKeepsUnique(stars: seq<Star>, network: seq<Star>, judge: Star -> Verdict,
                                                merge: (Star, Star) -> Star)
    requires UniqueSpots(network) && KeepsIdentity(merge)
    ensures UniqueSpots(LocalPass(stars, network, judge, merge).network)
    decreases |stars|
  {
    if |stars| > 0 {
      var v := judge(stars[0]);
      var net := if v.pushed then UpdateNetworkStar(network, v.star, merge) else network;
      if v.pushed {
        UpdateNetworkStarKeepsUnique(network, v.star, merge);
      }
      LocalPassKeepsUnique(stars[1..], net, judge, merge);
    }
  }

  /** `stars.removeAll(starsToRemove)`: drops every element equal to a marked one. */
  function RemoveAll(stars: seq<Star>, marked: seq<Star>): (r: seq<Star>)
    ensures forall s :: s in r <==> s in stars && s !in marked
    ensures |r| <= |stars|
    decreases |stars|
  {
    if |stars| == 0 then []
    else (if stars[0] in marked then [] else [stars[0]]) + RemoveAll(stars[1..], marked)
  }

  /** `removeAll` keeps every occurrence of an unmarked star and none of a marked one. */
  lemma {:induction false} RemoveAllMultiset(stars: seq<Star>, marked: seq<Star>, s: Star)
    ensures multiset(RemoveAll(stars, marked))[s] == if s in marked then 0 else multiset(stars)[s]
    decreases |stars|
  {
    if |stars| > 0 {
      RemoveAllMultiset(stars[1..], marked, s);
      assert stars == [stars[0]] + stars[1..];
    }
  }

  /** Removing from a concatenation removes from each part: survivors keep their relative order. */
  lemma {:induction false} RemoveAllAppend(a: seq<Star>, b: seq<Star>, marked: seq<Star>)
    ensures RemoveAll(a + b, marked) == RemoveAll(a, marked) + RemoveAll(b, marked)
    decreases |a|
  {
    if |a| == 0 {
      assert a + b == b;
    } else {
      assert (a + b)[1..] == a[1..] + b;
      RemoveAllAppend(a[1..], b, marked);
    }
  }

  /** Whatever is removed from a list, it keeps its relative order, so unique tiles stay unique. */
  lemma {:induction false} RemoveAllKeepsUnique(stars: seq<Star>, marked: seq<Star>)
    requires UniquePoints(stars)
    ensures UniquePoints(RemoveAll(stars, marked))
    decreases |stars|
  {
    if |stars| > 0 {
      var rest := RemoveAll(stars[1..], marked);
      assert UniquePoints(stars[1..]) by {
        forall i, j | 0 <= i < j < |stars[1..]| ensures stars[1..][i].point != stars[1..][j].point {
          assert stars[1..][i] == stars[i + 1] && stars[1..][j] == stars[j + 1];
        }
      }
      RemoveAllKeepsUnique(stars[1..], marked);
      forall s | s in rest ensures s.point != stars[0].point {
        var k :| 0 <= k < |stars[1..]| && stars[1..][k] == s;
        assert stars[k + 1] == s;
      }
    }
  }

  /** A network star vanished from its tile: in scene and bounds, with no star object (on a non-null tile) and no star NPC. */
  predicate Gone(obs: Observation) {
    obs.InScene? && !obs.npcHere
    && (obs.tile.None? || FirstStarTier(obs.tile.value.objectTiers).None?)
  }

  /** The network loop of `verifyLocalStars`: active stars of this world seen gone become inactive, stamped now. */
  function VerifyNetwork(network: seq<Star>, currentWorld: int, observe: WorldPoint -> Observation, now: int): (r: seq<Star>)
    ensures |r| == |network|
    ensures forall i :: 0 <= i < |network| ==>
              if network[i].world == currentWorld && network[i].active && Gone(observe(network[i].point))
              then r[i] == network[i].(active := false, lastUpdate := now)
              else r[i] == network[i]
    ensures forall i :: 0 <= i < |network| ==> r[i] != network[i] ==> network[i].active && !r[i].active
  {
    seq(|network|, i requires 0 <= i < |network| =>
      var s := network[i];
      if s.world == currentWorld && s.active && Gone(observe(s.point))
      then s.(active := false, lastUpdate := now) else s)
  }

  /** Marking network stars inactive never touches which stars the list holds. */
  lemma VerifyNetworkKeepsUnique(network: seq<Star>, currentWorld: int, observe: WorldPoint -> Observation, now: int)
    requires UniqueSpots(network)
    ensures UniqueSpots(VerifyNetwork(network, currentWorld, observe, now))
  {
    var r := VerifyNetwork(network, currentWorld, observe, now);
    forall i, j | 0 <= i < j < |r| ensures !SameSpot(r[i], r[j]) {
      assert SameSpot(r[i], network[i]) && SameSpot(r[j], network[j]);
    }
  }

  /** Local tile checks: out-of-bounds tiles and null tiles differ between the two loops. */
  lemma NullTileChecksOnlyNetwork(star: Star, ctx: SendContext, resetHealth: Star -> int)
    ensures VerifyStar(star, InScene(None, false), ctx, resetHealth) == Keep(star)
    ensures Gone(InScene(None, false))
  {
  }

  /** All of `verifyLocalStars`: nothing happens unless logged in. */
  function VerifyLocalStars(ls: Lists, state: GameState, currentWorld: int, observe: WorldPoint -> Observation,
                            ctx: SendContext, resetHealth: Star -> int, merge: (Star, Star) -> Star): (r: (Lists, seq<Star>))
    ensures state != LoggedIn ==> r == (ls, [])
    // the local list keeps the checked stars that were not marked for removal, and no more
    ensures state == LoggedIn ==> |r.0.stars| <= |ls.stars|
    ensures state == LoggedIn ==>
              forall s :: s in r.0.stars <==>
                (exists i :: 0 <= i < |ls.stars| && VerifyStar(ls.stars[i], observe(ls.stars[i].point), ctx, resetHealth).star == s)
                && !(exists i :: 0 <= i < |ls.stars| && VerifyStar(ls.stars[i], observe(ls.stars[i].point), ctx, resetHealth).star == s
                                 && VerifyStar(ls.stars[i], observe(ls.stars[i].point), ctx, resetHealth).remove)
    // what is sent is each star's own send, in list order
    ensures state == LoggedIn ==> r.1 == SentBy(ls.stars, Judge(observe, ctx, resetHealth))
    // the network check runs on the network list as the local loop left it
    ensures state == LoggedIn ==>
              r.0.network == VerifyNetwork(LocalPass(ls.stars, ls.network, Judge(observe, ctx, resetHealth), merge).network,
                                           currentWorld, observe, ctx.now)
  {
    if state != LoggedIn then (ls, [])
    else
      var judge := Judge(observe, ctx, resetHealth);
      var p := LocalPass(ls.stars, ls.network, judge, merge);
      var kept := RemoveAll(p.stars, Marked(p.stars, p.remove));
      LocalPassSends(ls.stars, ls.network, judge, merge);
      assert forall s :: s in kept <==>
                (exists i :: 0 <= i < |ls.stars| && VerifyStar(ls.stars[i], observe(ls.stars[i].point), ctx, resetHealth).star == s)
                && !(exists i :: 0 <= i < |ls.stars| && VerifyStar(ls.stars[i], observe(ls.stars[i].point), ctx, resetHealth).star == s
                                 && VerifyStar(ls.stars[i], observe(ls.stars[i].point), ctx, resetHealth).remove) by {
        forall s: Star {
          LocalPassOutcome(ls.stars, ls.network, judge, merge, s);
        }
        assert forall i :: 0 <= i < |ls.stars| ==>
                 judge(ls.stars[i]) == VerifyStar(ls.stars[i], observe(ls.stars[i].point), ctx, resetHealth);
      }
      (Lists(kept, VerifyNetwork(p.network, currentWorld, observe, ctx.now)), p.sent)
  }

  /** A tick's verification keeps both lists free of duplicates. */
  lemma VerifyKeepsUnique(ls: Lists, state: GameState, currentWorld: int, observe: WorldPoint -> Observation,
                          ctx: SendContext, resetHealth: Star -> int, merge: (Star, Star) -> Star)
    requires UniquePoints(ls.stars) && UniqueSpots(ls.network) && KeepsIdentity(merge)
    ensures var r := VerifyLocalStars(ls, state, currentWorld, observe, ctx, resetHealth, merge).0;
            UniquePoints(r.stars) && UniqueSpots(r.network)
  {
    if state == LoggedIn {
      var judge := Judge(observe, ctx, resetHealth);
      var p := LocalPass(ls.stars, ls.network, judge, merge);
      assert UniquePoints(p.stars) by {
        forall i, j | 0 <= i < j < |p.stars| ensures p.stars[i].point != p.stars[j].point {
          LocalPassJudgesEach(ls.stars, ls.network, judge, merge, i);
          LocalPassJudgesEach(ls.stars, ls.network, judge, merge, j);
          assert judge(ls.stars[i]) == VerifyStar(ls.stars[i], observe(ls.stars[i].point), ctx, resetHealth);
          assert judge(ls.stars[j]) == VerifyStar(ls.stars[j], observe(ls.stars[j].point), ctx, resetHealth);
        }
      }
      RemoveAllKeepsUnique(p.stars, Marked(p.stars, p.remove));
      LocalPassKeepsUnique(ls.stars, ls.network, judge, merge);
      VerifyNetworkKeepsUnique(p.network, currentWorld, observe, ctx.now);
    }
  }
}

=== FILE: wrappers.dfy ===
/** The one failure-compatible datatype the model needs: Java's nullable references. */
module Wrappers {

  /** `None` stands for Java's `null`. */
  datatype Option<+T> = None | Some(value: T) {

    /** Returns the encapsulated value, or `default` for `None`. */
    function GetOr(default: T): T {
      match this
      case Some(v) => v
      case None => default
    }
  }
}
